=== FILE: README.md ===
# EduControl Pro: attendance-gated access, as a Dafny model

EduControl Pro is a college portal on a hosted Postgres back end. Teachers
mark attendance. Each student's attendance percentage per subject decides an
access status: `allowed`, `at_risk` or `blocked`. The status gates the
assignments and resources marked "attendance required". A super admin can
grant an override that lifts a student's overall status.

This project models the rules the portal's hooks, pages and dialogs apply:

- **Classification.** The 65/75 classifier and the overall percentage of
  the student list (`Access`). The status rules of the student dashboard,
  the attendance progress bar, the "My Attendance" page and the attendance
  sheet, and where they differ (`StudentViews`).
- **Attendance register.** An insert-once table under a unique key, plus
  the date and history queries (`AttendanceStore`).
- **Class roster.** Active enrolments, or else the student-role profiles
  of the subject's branch, as both roster hooks resolve it (`Roster`).
- **Gated content.** Assignments with the access rule, the submission
  upsert and grading (`Assignments`); resources with upload and soft delete
  (`Resources`); the object keys both use (`Storage`).
- **Users and roles.** Role lists and badges, role replacement, status
  updates, the user search and the branch-membership dialog (`Users`).
- **Navigation.** The route guard, the route table, the sidebar filter,
  the dashboard choice and the page-level role checks (`Navigation`).
- **Account deletion.** The request ladder of the `delete-user` function
  (`DeleteUser`).
- **Teacher dashboard.** Subject merge with first-wins de-duplication, the
  student count and the pending-review count (`TeacherDashboard`).
- **Form dialogs.** The five dialogs that build writes: override grant,
  subject add and edit, assignment creation, resource upload (`Forms`).

Tables are sequences or maps of immutable rows; queries are pure functions
over them. Each request the model covers takes its outcome as a parameter:
a `bool` flag, the error a select reports (`Option`), or a function
standing for the service. A query hook raises the first error among its
selects as is, and the model returns it as an `Err`. The inserts modelled
only by the row they write are listed under "Left out". Percentages are exact `real`s. Instants and dates are
`int`s on one clock, with the current time a parameter `now`. JavaScript's
`||`, `??`, `parseInt`, `toLowerCase`/`toUpperCase`, `includes`,
`split('.').pop()` and `replace` are modelled in `Js` with the semantics
the code relies on.

### Where the copies of the status rule disagree

The model proves each variant and states its disagreements as lemmas:

- **Student list** (`Access.Enrich`): the ratio of summed classes,
  100 % when no class was held.
- **Student dashboard** (`StudentViews.LoadOverview`): the mean of
  per-subject percentages, over every summary, enrolled or not.
  `StudentViews.MeanIsNotRatio` gives two summaries where the dashboard says
  blocked and the student list says allowed.
- **Student dashboard, no summaries.** The overall bar is drawn at 0 % and
  labelled "Blocked", while the status stays allowed and resources read
  "Unlocked" (`StudentViews.NoSummariesBarSaysBlocked`).
- **Subject cards.** A subject at 0 % is drawn as a full bar
  (`StudentViews.ZeroAttendanceShownFull`).
- **"My Attendance" page.** It uses a 70 floor instead of 65, rounds
  first (`StudentViews.PageBandsDiffer`), and shows "blocked" for an empty
  list where the student list would say allowed
  (`StudentViews.EmptyPageIsBlocked`).
- **Attendance sheet.** It colours with a 60 floor
  (`StudentViews.FloorsDiffer`).
- **Subject page roster.** A student without a summary gets "allowed at
  0 %", which the classifier would call blocked
  (`Roster.DefaultSummaryDisagrees`).
- **Badges.** The branch dialog shows a user's first role row, the
  users page their highest role (`Users.DialogAndPageDisagree`).
- **Teacher dashboard.** The student count counts enrolment rows, not
  students (`TeacherDashboard.EnrollmentRowsCounted`).

## Model

| member | source | states |
|---|---|---|
| Access.Classify | src/hooks/useStudents.ts:83-90 | below 65 is blocked, from 65 up to but excluding 75 is at risk, from 75 up is allowed (each an iff) |
| Access.ClassifyMonotone | src/hooks/useStudents.ts:86-90 | more attendance never gives a stricter status |
| Access.OverallPercentage | src/hooks/useStudents.ts:77-80 | with classes held, percentage × Σtotal = Σattended × 100 (missing counts as 0); with none held, exactly 100 |
| Access.SumsBounded | src/hooks/useStudents.ts:78-79 | for consistent summaries, 0 ≤ Σattended ≤ Σtotal |
| Access.SumsAppend | src/hooks/useStudents.ts:78-79 | the two sums split over concatenation |
| Access.OverallPercentageInRange | src/hooks/useStudents.ts:78-80 | for consistent summaries the overall percentage lies in [0, 100] |
| Access.RoundToHundredths | src/hooks/useStudents.ts:96 | a whole number of hundredths within half a hundredth of the percentage, halves rounding up |
| Access.RoundingIsUnique | src/hooks/useStudents.ts:96 | any whole number of hundredths within half a hundredth of x (the upper end included) is the rounded value, so the rounding is the only one |
| Access.HasActiveOverride | src/hooks/useStudents.ts:66-75 | true iff the query returned an active, global, unexpired grant of this student |
| Access.AnyEffective | src/hooks/useStudents.ts:74-75 | true iff some returned override is an effective global grant |
| Access.StudentStatus | src/hooks/useStudents.ts:82-90 | an override forces allowed; otherwise the classifier decides |
| Access.OverrideNeverStricter | src/hooks/useStudents.ts:82-90 | an override never tightens the status, and changes it iff the percentage is below 75 |
| Access.Enrich | src/hooks/useStudents.ts:62-99 | the row keeps profile and summaries, its override flag is the effective-grant iff, and its status is allowed under an override, else the classifier of the overall percentage; the shown figure is a whole number of hundredths and is the overall percentage rounded to hundredths |
| Access.ListStudents | src/hooks/useStudents.ts:36-104 | a failed profile select is raised as is; otherwise the rows are exactly the active profiles whose summary query succeeded, in profile order, each enriched |
| Access.ListStudentsExactly | src/hooks/useStudents.ts:62-104 | the listed profiles are an order-preserving subsequence holding every listed profile and no other |
| Access.GrantRecord | src/hooks/useStudents.ts:153-162 | always a grant; subject null iff none or empty was given; expiry and the other columns as given |
| Access.Stored | src/hooks/useStudents.ts:153-164 | the stored row carries the inserted columns plus the database's id and active flag |
| Access.GrantEffectiveness | src/hooks/useStudents.ts:66-75 | a stored active grant is effective iff it is global and unexpired, and an effective one makes the student allowed |
| Access.OverrideExamples | src/hooks/useStudents.ts:66-90 | at 10 %: a global grant gives allowed; a subject-scoped grant or one expiring now leaves blocked |
| Access.EnrollmentRecord | src/hooks/useStudents.ts:118-124 | the row is for the given student and subject and active (the column default); the academic year is the given one when non-empty, else 2024-25 |
| AttendanceStore.BatchKeys | src/hooks/useAttendance.ts:71-76 | the keys written are exactly the keys of the batch's marks |
| AttendanceStore.InsertBatch | src/hooks/useAttendance.ts:71-76 | the insert succeeds iff no key is stored or repeated; a failure is a unique violation; success adds exactly the batch and keeps every stored row |
| AttendanceStore.Translate | src/hooks/useAttendance.ts:78-84 | code 23505 becomes the lock message; any other error is raised unchanged |
| AttendanceStore.MarkAttendance | src/hooks/useAttendance.ts:59-86 | any error leaves the register unchanged; success iff no failure and the batch is insertable; a clash gives the lock message |
| AttendanceStore.MarkOnlyAdds | src/hooks/useAttendance.ts:71-76 | a successful mark keeps every stored row and adds one key per mark |
| AttendanceStore.BatchKeysSize | src/hooks/useAttendance.ts:71-76 | a batch without repeated keys writes as many keys as marks |
| AttendanceStore.SecondMarkRejected | src/hooks/useAttendance.ts:71-84 | re-marking any already-marked class is refused with the lock message and changes nothing |
| AttendanceStore.RecordsFor | src/hooks/useAttendance.ts:5-24 | no query unless both subject and date are given; a failed select is raised as is; otherwise exactly the marks of that subject and date |
| AttendanceStore.MarkThenRead | src/hooks/useAttendance.ts:5-24 | after marking one class, its date query returns the earlier marks plus the batch |
| AttendanceStore.NewestFirst | src/hooks/useAttendance.ts:42-49 | the student's marks, permuted into non-increasing date order |
| AttendanceStore.History | src/hooks/useAttendance.ts:42-50 | the first min(20, n) of the student's n marks in newest-first order: only the student's marks, newest date first |
| AttendanceStore.StudentAttendance | src/hooks/useAttendance.ts:27-57 | a failed summary select is raised first, then a failed records select; otherwise exactly the student's history of at most 20 marks |
| AttendanceStore.HistoryKeepsNewest | src/hooks/useAttendance.ts:42-50 | a mark left out means 20 are shown, none older than it |
| Roster.ProfileOf | src/hooks/useAttendance.ts:117-122 | the joined profile has the enrolment's student id, or no profile has it |
| Roster.StudentIds | src/hooks/useAttendance.ts:144-149 | exactly the users with a student role row; a failed query gives none |
| Roster.StandInId | src/hooks/useAttendance.ts:154 | the stand-in id is a 7-character prefix followed by the profile id |
| Roster.Resolve | src/hooks/useAttendance.ts:106-160 | a failed subject select is raised first; then fails iff the subject is missing, the enrolment select fails, or the fallback is taken and its profile select fails, raising the first such error; active enrolments win when any exist, one line each in order, joined to the student's visible profile; else one stand-in per active student-role profile of the subject's branch, in profile order; else empty |
| Roster.EnrolledStudentIsOnRoster | src/hooks/useStudents.ts:118-124 | after an enrolment is written, the subject's roster succeeds iff the subject exists, and then lists the student under the new enrolment's id |
| Roster.RosterDependsOnlyOnBranchId | src/hooks/useSubjects.ts:53-86 | a subject row differing in anything but its own branch id yields the same roster |
| Roster.BranchFallback | src/hooks/useAttendance.ts:133-160 | one stand-in line per active student-role profile of the branch, in profile order, each carrying that profile |
| Roster.BranchMembers | src/hooks/useAttendance.ts:135-152 | exactly the active student-role profiles of the branch |
| Roster.DefaultSummary | src/hooks/useSubjects.ts:121-126 | 0 %, allowed, 0 of 0 classes |
| Roster.DefaultSummaryDisagrees | src/hooks/useSubjects.ts:121-126 | the default says allowed at a percentage the classifier calls blocked |
| Roster.EnrolledStudents | src/hooks/useAttendance.ts:162-179 | one line per roster entry, in order, carrying the summary or none |
| Roster.SubjectStudents | src/hooks/useSubjects.ts:109-131 | one line per roster entry, in order, carrying the summary or the default |
| Roster.CopiesAgree | src/hooks/useSubjects.ts:47-134 | both roster hooks show the same entries and summaries, differing only where no summary exists |
| Roster.EnrolledStudentsQuery | src/hooks/useAttendance.ts:100-180 | no query without a subject id; fails iff the roster cannot be resolved (failed subject select, missing subject, failed enrolment select, failed fallback profile select); otherwise one line per resolved entry, in order, with its summary or none |
| Roster.SubjectsByName | src/hooks/useSubjects.ts:6-21 | on success, a permutation of the subjects in non-decreasing name order; a failed query fails |
| Assignments.ListAssignments | src/hooks/useAssignments.ts:5-28 | a failed select is raised as is; otherwise exactly the active assignments (of the subject when given), each as often as stored, earliest due first |
| Assignments.HasAccess | src/hooks/useAssignments.ts:75-83 | access iff the check answered true or attendance is not required |
| Assignments.AccessGate | src/hooks/useAssignments.ts:83 | without the requirement access is always granted; with it, exactly when the check says so |
| Assignments.DisplayStatus | src/hooks/useAssignments.ts:84 | pending iff there is no submission or it has no status or is pending; otherwise its status |
| Assignments.FirstFor | src/hooks/useAssignments.ts:72 | the first submission for the assignment, or none iff none exists |
| Assignments.EnrolledSubjects | src/hooks/useAssignments.ts:36-44 | exactly the subjects of the student's active enrolments |
| Assignments.EnrollAddsSubject | src/hooks/useStudents.ts:118-124 | an enrolment adds exactly its subject to the student's enrolled subjects and changes no other student's |
| Assignments.ViewOf | src/hooks/useAssignments.ts:71-85 | the view carries the first submission, the access rule and the displayed status |
| Assignments.StudentAssignments | src/hooks/useAssignments.ts:30-92 | the enrolment, assignment and submission selects fail in that order, the last two only with an enrolled subject; otherwise empty without enrolments, else every active assignment of an enrolled subject as often as stored and no other, earliest due first, each with its own view |
| Assignments.OfferedByDueDate | src/hooks/useAssignments.ts:49-57 | exactly the offered assignments, each as often as stored, ordered by due date |
| Assignments.Views | src/hooks/useAssignments.ts:70-87 | one view per listed assignment, in order |
| Assignments.CreateAssignment | src/hooks/useAssignments.ts:94-154 | a failed upload writes nothing; success iff the upload (if any) and the insert succeed; the row carries the request's title, description, subject, due date and creator, score `?? 100`, requirement `?? true`, and an attachment URL iff a file was sent |
| Assignments.CreateDefaultsOnlyWhenAbsent | src/hooks/useAssignments.ts:144-146 | an explicit 0 score and false requirement are kept; absent ones become 100 and true |
| Assignments.Submit | src/hooks/useAssignments.ts:165-220 | succeeds iff the upload (when a file is sent) and the upsert succeed, and a failure changes nothing; otherwise the row under (assignment, student) is replaced or added with status submitted, and the file columns set iff a file was sent |
| Assignments.SubmitKeepsOneRowPerPair | src/hooks/useAssignments.ts:202-214 | the table stays one row per pair and only that pair's row changes |
| Assignments.Grade | src/hooks/useAssignments.ts:232-262 | succeeds iff the update goes through and exactly one row has the id; a failed update changes nothing; on success that row alone changes, taking the score, graded status, time and teacher, and new feedback only when feedback is sent |
| Assignments.GradeFindsSubmitted | src/hooks/useAssignments.ts:247-256 | the row just submitted under a fresh id is the one row grading finds |
| Assignments.Lifecycle | src/hooks/useAssignments.ts:202-256 | pending, then submitted, then graded, then submitted again after a resubmission, with the score kept |
| Assignments.GradedAfterSubmit | src/hooks/useAssignments.ts:202-256 | grading a first submission by its id turns that submitted row graded with the score |
| Assignments.ResubmitKeepsScore | src/hooks/useAssignments.ts:202-214 | resubmitting over a graded row shows it submitted again and keeps its score |
| Storage.Extension | src/hooks/useAssignments.ts:121 | the text after the last dot, or the whole name |
| Storage.ExtensionOf | src/hooks/useResources.ts:53 | a dotted name yields its extension, and a name without a dot is its own extension |
| Storage.ResourcePath | src/hooks/useResources.ts:53-54 | a resource object lies in its subject's folder and keeps the file's extension |
| Storage.AttachmentPath | src/hooks/useAssignments.ts:121-122 | an attachment lies under `assignments/` and then its subject's folder, and keeps the file's extension |
| Storage.AttachmentIsPrefixedResource | src/hooks/useAssignments.ts:121-122 | an attachment key is the resource key under `assignments/`, with the file's extension |
| Storage.SubmissionPath | src/hooks/useAssignments.ts:185-186 | a submission object lies in student/assignment folders and keeps the file's extension |
| Js.ParseInt | src/components/subjects/EditSubjectDialog.tsx:84-85 | NaN iff no digit follows the leading whitespace and optional sign; otherwise the value of the digit run, negated after a minus sign |
| Js.ParseIntShowNat | src/components/assignments/CreateAssignmentDialog.tsx:64 | parsing the decimal text of a natural number gives that number back |
| Js.ParseIntReads | src/components/subjects/EditSubjectDialog.tsx:84-85 | white space, an optional sign, a number's decimal text and text not starting with a digit read as that number, negated after a minus |
| Js.ReplaceFirst | supabase/functions/delete-user/index.ts:40 | without an occurrence the text is unchanged; otherwise only the first occurrence is replaced |
| Js.IntOr | src/components/subjects/AddSubjectDialog.tsx:47 | `parsed \|\| d`: the parsed number unless it is NaN or 0, in which case d |
| Js.ToUpper | src/components/subjects/AddSubjectDialog.tsx:44 | same length, every character upper-cased |
| Js.ToLower | src/pages/Users.tsx:30-31 | same length, every character lower-cased |
| Js.LowerForgetsCase | src/pages/Users.tsx:30-31 | lower-casing is idempotent and erases any earlier upper-casing |
| Js.AfterLast | src/hooks/useResources.ts:53 | a separator-free suffix of the name that is either the whole name or preceded by the separator |
| Resources.ListResources | src/hooks/useResources.ts:6-29 | a failed select is raised as is; otherwise a permutation of the active rows (of the subject when given), newest first |
| Resources.NewRow | src/hooks/useResources.ts:68-80 | the request's title, description, type and uploader; name and size from the file; requirement `?? true`; active |
| Resources.Upload | src/hooks/useResources.ts:31-86 | a failed upload writes nothing; a failed insert leaves the object but no row; success appends exactly the new row |
| Resources.UploadIsListed | src/hooks/useResources.ts:6-80 | a successful upload appears in its subject's listing and in the full listing |
| Resources.SoftDelete | src/hooks/useResources.ts:97-108 | a failed update is raised and changes nothing; otherwise rows with the id become inactive and nothing else changes |
| Resources.SoftDeleteHides | src/hooks/useResources.ts:101-105 | a deleted resource stays stored but leaves every listing |
| Resources.SoftDeleteIdempotent | src/hooks/useResources.ts:101-105 | deleting twice equals deleting once; an unknown id changes nothing |
| Users.RolesForMembers | src/hooks/useUsers.ts:39-42 | a role is among the user's roles iff the user has a role row with it |
| Users.RolesForAppend | src/hooks/useUsers.ts:39-42 | role lookup splits over concatenated tables |
| Users.RolesOf | src/hooks/useUsers.ts:53 | a failed query gives student; any result, even empty, is kept |
| Users.RoleBadge | src/pages/Users.tsx:14-22 | super admin iff held; teacher iff held without super admin; student otherwise |
| Users.Highest | src/pages/Users.tsx:14-22 | a held role, or student, ranked at least as high as every held role |
| Users.RoleBadgeIsHighest | src/pages/Users.tsx:14-22 | the badge is that of the highest role held |
| Users.ListUsers | src/hooks/useUsers.ts:22-61 | on success, a permutation of the profiles sorted by full name (nulls last), each with its own role answer |
| Users.ListUsersNamesFirst | src/hooks/useUsers.ts:26-32 | every named user precedes every unnamed one |
| Users.WithoutUserRoles | src/hooks/useUsers.ts:68-71 | the delete removes the user's roles and no other user's |
| Users.ReplaceRole | src/hooks/useUsers.ts:62-88 | success iff the insert succeeds; other users keep their roles; after both steps only the chosen role; a failed delete keeps the old roles as well |
| Users.RoleChangeShows | src/hooks/useUsers.ts:66-78 | after a clean change the badge is the chosen role's |
| Users.IgnoredDeleteKeepsOldRole | src/hooks/useUsers.ts:68-79 | if the unchecked delete fails, a demoted super admin still shows as super admin |
| Users.FailedInsertLeavesNoRole | src/hooks/useUsers.ts:68-78 | a failed insert after the delete leaves the user without roles |
| Users.UpdateProfiles | src/hooks/useUsers.ts:95-98 | the rows with the id change, every other row is kept |
| Users.UpdateStatus | src/hooks/useUsers.ts:90-110 | success iff ok; only `is_active` changes, and only on rows with the id |
| Users.UpdateStatusIdempotent | src/hooks/useUsers.ts:94-98 | setting a status twice equals once |
| Users.TeacherSubjectRecord | src/hooks/useUsers.ts:121-129 | the row is for the given teacher and subject and active (the column default); the academic year is the given one when non-empty, else 2024-25 |
| Users.SearchUsers | src/pages/Users.tsx:29-32 | exactly the users whose lower-cased name or email contains the lower-cased query; none when not loaded |
| Users.Matches | src/pages/Users.tsx:29-32 | the empty query matches every user, and a query longer than both name and email matches none |
| Users.SearchKeepsOrder | src/pages/Users.tsx:29-32 | the result is an order-preserving subsequence |
| Users.SearchIgnoresCase | src/pages/Users.tsx:29-32 | upper- or lower-casing the query changes nothing |
| Users.EmptySearchKeepsAll | src/pages/Users.tsx:29-32 | the empty query keeps every user |
| Users.BranchRole | src/components/branches/BranchUsersDialog.tsx:54-57 | the first role row of the user, else student |
| Users.FirstRole | src/components/branches/BranchUsersDialog.tsx:56 | the first role row of the user, else student |
| Users.RoleVariant | src/components/branches/BranchUsersDialog.tsx:106-112 | the dialog's variant equals the badge variant of that single role |
| Users.DialogAndPageDisagree | src/components/branches/BranchUsersDialog.tsx:54-57 | with rows teacher then super admin, the dialog says teacher and the users page super admin |
| Users.WithRoles | src/components/branches/BranchUsersDialog.tsx:45-57 | exactly the active profiles, each with its dialog role |
| Users.BranchMembers | src/components/branches/BranchUsersDialog.tsx:59 | exactly the users whose branch is this branch |
| Users.Unassigned | src/components/branches/BranchUsersDialog.tsx:60 | exactly the users with no (or an empty) branch |
| Users.BranchPartition | src/components/branches/BranchUsersDialog.tsx:59-60 | the two lists are disjoint, other branches' users are in neither, and every other user is in one |
| Users.AssignToBranch | src/components/branches/BranchUsersDialog.tsx:68-88 | nothing without a selection or on failure; otherwise only the selected profile's branch changes |
| Users.RemoveFromBranch | src/components/branches/BranchUsersDialog.tsx:90-104 | on success the profile's branch becomes null; nothing else changes |
| Users.AssignThenRemove | src/components/branches/BranchUsersDialog.tsx:59-95 | an assigned active user is listed in the branch, and after removal among the unassigned |
| Navigation.RedirectTarget | src/components/auth/AuthGuard.tsx:13 | the given target, else /login |
| Navigation.RolesToCheck | src/components/auth/AuthGuard.tsx:15 | required roles when given (even empty), else allowed roles |
| Navigation.Guard | src/components/auth/AuthGuard.tsx:13-42 | spinner while loading; redirect when signed out; a signed-in user renders iff the list is absent, empty or shares a role, else goes to /unauthorized |
| Navigation.GuardMonotone | src/components/auth/AuthGuard.tsx:34-41 | adding roles never locks a rendered user out |
| Navigation.EmptyRequiredAdmitsAll | src/components/auth/AuthGuard.tsx:15-34 | an empty required list admits every signed-in user, whatever the allowed list says |
| Navigation.RouteOf | src/App.tsx:35-137 | the first route whose path matches ignoring letter case and trailing slashes, else the catch-all not-found page |
| Navigation.Matches | src/App.tsx:35-137 | a non-empty location matches iff, without trailing slashes, it has the route path's length and agrees with it letter by letter up to ASCII case |
| Navigation.Canonical | src/App.tsx:35-137 | the path a location stands for matches it, is lower case, and is empty only for the empty location |
| Navigation.PathsDistinct | src/App.tsx:36-136 | no two routes share a path |
| Navigation.Visit | src/App.tsx:35-137 | the page of the path's route, rendered when unguarded |
| Navigation.RouteOfFirst | src/App.tsx:35-137 | the first route whose path matches is the one chosen |
| Navigation.KnownPaths | src/App.tsx:36-135 | a path is known iff some route has it |
| Navigation.RouteOfCanonical | src/App.tsx:36-135 | a location selects the route whose path is its lower-cased, slash-trimmed form |
| Navigation.CanonicalMatches | src/App.tsx:36-135 | a route path written as the table writes them matches a location iff the location stands for it |
| Navigation.RouteOfUnknown | src/App.tsx:136 | a location standing for no path of the table gets the catch-all page |
| Navigation.VisitByCanonical | src/App.tsx:35-137 | locations standing for the same path show the same page and verdict |
| Navigation.VisitIgnoresCaseAndTrailingSlash | src/App.tsx:35-137 | a trailing slash or upper-case letters do not change what a location shows |
| Navigation.GuardOfRoles | src/components/auth/AuthGuard.tsx:34-38 | a non-empty role list admits exactly the holders of one of its roles |
| Navigation.TableFollowsPermission | src/App.tsx:40-135 | each route admits a signed-in user iff the role rule of its path permits |
| Navigation.VisitFollowsPermission | src/App.tsx:36-136 | a signed-in user sees a location's page iff the path it stands for is permitted, and is otherwise sent to /unauthorized |
| Navigation.RouteGuards | src/App.tsx:36-135 | exactly the four public routes are unguarded, and no guard overrides the redirect |
| Navigation.PublicAndUnknownPaths | src/App.tsx:36-136 | locations standing for public paths always render; unknown ones show not-found; guarded ones redirect to /login when signed out and spin while loading |
| Navigation.VisibleNav | src/components/layout/DashboardLayout.tsx:76-79 | exactly the entries without roles or with a role the user holds |
| Navigation.VisibleNavKeepsOrder | src/components/layout/DashboardLayout.tsx:76-79 | the sidebar is an order-preserving subsequence of the entries |
| Navigation.NoRolesEntry | src/components/layout/DashboardLayout.tsx:77-78 | without roles, an entry shows iff it names no roles |
| Navigation.NoRolesSeesFour | src/components/layout/DashboardLayout.tsx:45-57 | a user without roles sees Dashboard, Resources, Assignments and AI Assistant |
| Navigation.SidebarMatchesRoutes | src/components/layout/DashboardLayout.tsx:45-57 | an entry shows iff its route would render for the user |
| Navigation.LayoutBadge | src/components/layout/DashboardLayout.tsx:81-85 | super admin iff flagged; teacher iff teacher but not super admin; otherwise student |
| Navigation.LayoutBadgeAgrees | src/components/layout/DashboardLayout.tsx:81-85 | the header badge equals the users page's badge |
| Navigation.Dashboards | src/pages/Dashboard.tsx:12-14 | at most one dashboard, none iff no flag, chosen by super admin over teacher over student |
| Navigation.DashboardFollowsHighestRole | src/pages/Dashboard.tsx:12-14 | a user with roles gets the dashboard of the highest role |
| Navigation.CanManageAttendance | src/pages/Attendance.tsx:35 | true iff super admin or teacher |
| Navigation.ShowsAdminActions | src/pages/Users.tsx:42 | true iff super admin |
| Navigation.PageChecksMatchRoutes | src/pages/Attendance.tsx:35 | both page checks coincide with the guards of their routes |
| DeleteUser.TokenOfBearer | supabase/functions/delete-user/index.ts:40 | `Bearer <token>` yields the token |
| DeleteUser.Handle | supabase/functions/delete-user/index.ts:9-94 | OPTIONS gets 200 with no body; a bad body 500; no id 400; a deletion is attempted only for an authenticated super admin deleting someone else, and answers 200 iff it succeeded, else 500 with its message |
| DeleteUser.StatusLadder | supabase/functions/delete-user/index.ts:32-73 | missing header and bad token give 401, a non-admin 403, self-deletion 400, otherwise the deletion is attempted |
| DeleteUser.SuccessMeansAuthorised | supabase/functions/delete-user/index.ts:43-86 | a 200 means a verified super admin deleted another account |
| DeleteUser.MissingIdBeforeAuth | supabase/functions/delete-user/index.ts:15-22 | with no user id the answer depends on nothing else |
| DeleteUser.NonAdminSelfDeleteForbidden | supabase/functions/delete-user/index.ts:56-70 | a non-admin asking to delete themselves gets 403, not 400 |
| StudentViews.BarLabel | src/components/dashboard/AttendanceProgressBar.tsx:34-42 | Blocked iff status blocked or below 65; At Risk iff not that and status at risk or below 75; Allowed otherwise |
| StudentViews.BarColour | src/components/dashboard/AttendanceProgressBar.tsx:24-32 | red iff status blocked or below 65; green iff the status is neither blocked nor at risk and the percentage is at least 75 |
| StudentViews.Stricter | src/components/dashboard/AttendanceProgressBar.tsx:24-42 | one of the two statuses, at least as strict as both |
| StudentViews.BarIsStricterBand | src/components/dashboard/AttendanceProgressBar.tsx:24-42 | label and colour are those of the stricter of the status and the classifier's band |
| StudentViews.ColourMatchesLabel | src/components/dashboard/AttendanceProgressBar.tsx:24-42 | colour and label always pick the same band |
| StudentViews.StatusCannotLift | src/components/dashboard/AttendanceProgressBar.tsx:25-41 | below 75 is never Allowed and below 65 always Blocked, whatever the status |
| StudentViews.BarWidth | src/components/dashboard/AttendanceProgressBar.tsx:72 | the width is the percentage capped at 100 |
| StudentViews.FindSummary | src/components/dashboard/StudentDashboard.tsx:63 | the first summary with the subject's id, none iff no subject or no match |
| StudentViews.SumPercent | src/components/dashboard/StudentDashboard.tsx:70 | percentages in [0, 100] sum to at most 100 per summary |
| StudentViews.SumPercentFromFront | src/components/dashboard/StudentDashboard.tsx:70 | the sum is the same taken from the first summary on |
| StudentViews.ActiveOf | src/components/dashboard/StudentDashboard.tsx:45-52 | exactly the student's active enrolments |
| StudentViews.SummariesOf | src/components/dashboard/StudentDashboard.tsx:55-58 | exactly the student's summaries |
| StudentViews.Cards | src/components/dashboard/StudentDashboard.tsx:61-64 | one card per enrolment, each with its matching summary |
| StudentViews.LoadOverview | src/components/dashboard/StudentDashboard.tsx:42-83 | the mean of the summaries' percentages (missing as 0) with the 65/75 classifier; 0 and allowed without summaries; nothing if a query failed |
| StudentViews.OverallInRange | src/components/dashboard/StudentDashboard.tsx:69-72 | with percentages in [0, 100] the mean is too |
| StudentViews.MineBounded | src/components/dashboard/StudentDashboard.tsx:55-58 | the student's summaries keep the table's percentage bounds |
| StudentViews.MeanBounds | src/components/dashboard/StudentDashboard.tsx:71 | a mean of n values in [0, 100] is in [0, 100] |
| StudentViews.OverallIgnoresEnrollments | src/components/dashboard/StudentDashboard.tsx:55-72 | the overall figure and status do not depend on the enrolments |
| StudentViews.MeanIsNotRatio | src/components/dashboard/StudentDashboard.tsx:69-81 | 10/10 and 0/1: the dashboard says blocked, the student list allowed |
| StudentViews.CardBar | src/components/dashboard/StudentDashboard.tsx:227-229 | `percentage \|\| 100` and `status \|\| 'allowed'` |
| StudentViews.ZeroAttendanceShownFull | src/components/dashboard/StudentDashboard.tsx:228-229 | a 0 % subject with no status is drawn full and labelled Allowed |
| StudentViews.OverallBarAgrees | src/components/dashboard/StudentDashboard.tsx:142-146 | with summaries, the overall bar's label is the overall status |
| StudentViews.NoSummariesBarSaysBlocked | src/components/dashboard/StudentDashboard.tsx:142-146 | without summaries the bar says Blocked while the status is allowed and resources unlocked |
| StudentViews.Attached | src/components/dashboard/StudentDashboard.tsx:170 | exactly the summaries attached to the cards |
| StudentViews.ClassesAttendedIsSum | src/components/dashboard/StudentDashboard.tsx:170 | the stat is the attended sum over the cards' summaries |
| StudentViews.LockedIffMeanBelowFloor | src/components/dashboard/StudentDashboard.tsx:184 | resources read Locked iff summaries exist and the mean is below 65 |
| StudentViews.UpcomingDeadlines | src/components/dashboard/StudentDashboard.tsx:86-95 | at most 5 assignments due from now on, earliest first; none if the query failed |
| StudentViews.UpcomingKeepsSoonest | src/components/dashboard/StudentDashboard.tsx:86-91 | a due assignment left out means 5 are shown, none due later than it |
| StudentViews.Quotient | src/pages/MyAttendance.tsx:32 | JavaScript division, including NaN and the infinities for a zero divisor |
| StudentViews.Round | src/pages/MyAttendance.tsx:32 | `Math.round`: finite iff finite, an integer within half of the value, ties up |
| StudentViews.OverallStats | src/pages/MyAttendance.tsx:26-34 | the sums, and a percentage within half a point of attended/total × 100; NaN or infinite for a zero total |
| StudentViews.RoundedPercentBounds | src/pages/MyAttendance.tsx:32 | the rounded percentage p satisfies (p − ½)·total ≤ 100·attended < (p + ½)·total |
| StudentViews.PageStatus | src/pages/MyAttendance.tsx:70 | allowed iff ≥ 75, at risk iff in [70, 75), blocked otherwise (NaN included) |
| StudentViews.MessageFollowsStatus | src/pages/MyAttendance.tsx:70-77 | the message is the status badge's message |
| StudentViews.PageBandsDiffer | src/pages/MyAttendance.tsx:70 | 67 is blocked on the page but at risk elsewhere; 74.5 rounds to allowed |
| StudentViews.EmptyPageIsBlocked | src/pages/MyAttendance.tsx:26-34 | with no subjects the page says blocked where the classifier says allowed |
| StudentViews.SubjectsAtRisk | src/pages/MyAttendance.tsx:88 | at most the subject count, and 0 iff every subject is at 75 or more |
| StudentViews.RecentShown | src/pages/MyAttendance.tsx:142 | at most 5, a prefix of the records, all of them when fewer |
| StudentViews.PageFigures | src/pages/MyAttendance.tsx:11-34 | the page's four subjects give 112 of 138, 81 %, allowed, 2 at risk |
| StudentViews.ToggleStatus | src/pages/Attendance.tsx:37-43 | length, order and all other fields kept; exactly the rows with the id get the status |
| StudentViews.ToggleLaws | src/pages/Attendance.tsx:37-43 | idempotent; the last toggle wins; toggles of different ids commute; an unknown id changes nothing |
| StudentViews.BadgeOf | src/pages/Attendance.tsx:45-56 | Not Marked iff the status is none of present, absent, late |
| StudentViews.PressShows | src/pages/Attendance.tsx:146-170 | after pressing a button exactly that button is highlighted |
| StudentViews.FloorsDiffer | src/pages/Attendance.tsx:134 | green iff ≥ 75; the sheet's yellow floor is 60, below the classifier's 65 and the page's 70 |
| TeacherDashboard.Present | src/components/dashboard/TeacherDashboard.tsx:63-70 | exactly the non-null subjects |
| TeacherDashboard.DirectSubjects | src/components/dashboard/TeacherDashboard.tsx:41-49 | exactly the subjects of the teacher's active assignments |
| TeacherDashboard.Joined | src/components/dashboard/TeacherDashboard.tsx:42-49 | the row read keeps the teacher and active flag and carries the subject exactly when its row is visible |
| TeacherDashboard.AssignedSubjectIsListed | src/hooks/useUsers.ts:121-129 | a teacher assigned a visible subject finds it among the dashboard's direct subjects |
| TeacherDashboard.BranchSubjects | src/components/dashboard/TeacherDashboard.tsx:51-67 | only with a branch: exactly the subjects of the branch's active links |
| TeacherDashboard.IdsOf | src/components/dashboard/TeacherDashboard.tsx:71-79 | exactly the ids in the list |
| TeacherDashboard.FirstsUpToFacts | src/components/dashboard/TeacherDashboard.tsx:73-77 | the kept ids are the non-empty ids seen, each kept element is the first with its id, and the ids are distinct |
| TeacherDashboard.MergeSubjects | src/components/dashboard/TeacherDashboard.tsx:71-79 | equals the first-wins reference; distinct ids; only candidates with ids; every id covered |
| TeacherDashboard.MergedFacts | src/components/dashboard/TeacherDashboard.tsx:71-79 | the merged list has distinct non-empty ids, holds only candidates, and covers every candidate id |
| TeacherDashboard.FirstOfEachIdWins | src/components/dashboard/TeacherDashboard.tsx:74-76 | the first candidate with an id is the one kept |
| TeacherDashboard.TotalSubjectsCountsIds | src/components/dashboard/TeacherDashboard.tsx:79-81 | the total is the number of distinct non-empty ids |
| TeacherDashboard.DistinctIdsCount | src/components/dashboard/TeacherDashboard.tsx:79-81 | a list with distinct ids has as many ids as elements |
| TeacherDashboard.BranchMembers | src/components/dashboard/TeacherDashboard.tsx:100-104 | exactly the active profiles of the branch |
| TeacherDashboard.StudentCountIsMax | src/components/dashboard/TeacherDashboard.tsx:83-121 | the count is the maximum of the enrolment rows and the branch's student roles |
| TeacherDashboard.StudentCount | src/components/dashboard/TeacherDashboard.tsx:83-121 | never below the enrolment count (0 when there are no subjects or the count fails); when above it, the branch's student-role count, which needs the branch, profile and role reads to answer; bounded by one of the two tables |
| TeacherDashboard.EnrollmentRowsCounted | src/components/dashboard/TeacherDashboard.tsx:89-95 | one student enrolled in two subjects counts twice |
| TeacherDashboard.GradingLowersPending | src/components/dashboard/TeacherDashboard.tsx:124-139 | grading one submitted submission lowers the pending count by one |
| TeacherDashboard.PendingReviews | src/components/dashboard/TeacherDashboard.tsx:124-139 | 0 without subjects or when a query fails; otherwise 0 iff no submitted submission belongs to an assignment of the subjects; never more than the submissions |
| TeacherDashboard.NoSubjectsNoReviews | src/components/dashboard/TeacherDashboard.tsx:124 | without subjects the pending count is 0 |
| Forms.ActiveBranches | src/components/subjects/EditSubjectDialog.tsx:47 | exactly the active branches, none before they load |
| Forms.GrantSubjectChoices | src/components/students/GrantOverrideDialog.tsx:73-74 | exactly the active subjects |
| Forms.SubmitGrant | src/components/students/GrantOverrideDialog.tsx:32-48 | nothing without student or user; otherwise a grant, global iff no subject was chosen, with the chosen expiry; reset and close on success only |
| Forms.GrantFromDialog | src/components/students/GrantOverrideDialog.tsx:36-42 | a grant from the dialog lifts the status iff it is global, for any selectable expiry |
| Forms.GrantNeedsReason | src/components/students/GrantOverrideDialog.tsx:130 | the enabled button always sends a reason |
| Forms.ToggleBranch | src/components/subjects/EditSubjectDialog.tsx:67-73 | checking appends; unchecking removes every occurrence and keeps order |
| Forms.ToggleAsSet | src/components/subjects/AddSubjectDialog.tsx:31-37 | as a set, checking adds and unchecking removes; no duplicates arise through the checkbox; checking twice then one uncheck removes both |
| Forms.SubseqKeepsDistinct | src/components/subjects/EditSubjectDialog.tsx:71 | unchecking cannot create duplicates |
| Forms.InitialBranchIds | src/components/subjects/EditSubjectDialog.tsx:58-63 | with junction rows, exactly the active ones' branches; else the subject's branch, if any |
| Forms.InactiveJunctionGivesNoBranch | src/components/subjects/EditSubjectDialog.tsx:58-63 | all-inactive junction rows give no branch, so save is disabled |
| Forms.EditForm | src/components/subjects/EditSubjectDialog.tsx:49-64 | the form's branches are the initial branch ids |
| Forms.Normalise | src/components/subjects/EditSubjectDialog.tsx:79-88 | code upper-cased; credits never 0; semester null iff empty or unparsable; description null iff empty |
| Forms.EditRoundTrip | src/components/subjects/EditSubjectDialog.tsx:53-86 | saving unchanged keeps semester, description and non-zero credits; zero credits become 3 |
| Forms.SubmitEdit | src/components/subjects/EditSubjectDialog.tsx:75-91 | nothing without a subject; otherwise an update of that subject carrying the shared normalised fields plus the form's active switch, closing on success |
| Forms.SubmitAddSubject | src/components/subjects/AddSubjectDialog.tsx:39-58 | sends the normalised form without an active switch (the column default applies); resets and closes only on success |
| Forms.AddResetDisables | src/components/subjects/AddSubjectDialog.tsx:51-58 | after a successful add the button is disabled; the initial form means 3 credits and no branches |
| Forms.EffectiveBranch | src/components/assignments/CreateAssignmentDialog.tsx:41 | the teacher's own branch when a teacher has one, else the selection |
| Forms.SubjectChoices | src/components/assignments/CreateAssignmentDialog.tsx:44-46 | exactly the active subjects of the branch |
| Forms.ChoicesFollowBranch | src/components/resources/UploadResourceDialog.tsx:36-41 | a teacher's branch overrides the selection; with no branch nothing is offered |
| Forms.ChooseBranch | src/components/assignments/CreateAssignmentDialog.tsx:103 | picking a branch clears the subject and changes nothing else |
| Forms.SubmitAssignment | src/components/assignments/CreateAssignmentDialog.tsx:55-80 | nothing without subject, due date or user; otherwise the request with the typed title, the description only when non-empty, and `parseInt(maxScore) \|\| 100`; reset on success |
| Forms.AssignmentScores | src/components/assignments/CreateAssignmentDialog.tsx:64 | the enabled button sends a request; a typed 0 is stored as 100 |
| Forms.SubmitResource | src/components/resources/UploadResourceDialog.tsx:50-73 | nothing without file, subject or user; otherwise the upload of the chosen file with the form's title, subject, type, uploader, requirement and (non-empty) description; reset to notes with attendance required on success |
| Forms.UploadKeepsRequirement | src/components/resources/UploadResourceDialog.tsx:61 | the stored resource keeps the switch's requirement |
| Forms.UnitBytes | src/components/resources/UploadResourceDialog.tsx:75-79 | every unit holds a positive number of bytes |
| Forms.ShownSizeInRange | src/components/resources/UploadResourceDialog.tsx:75-79 | the shown number times its unit is the size, at least 1 for KB and MB and below 1024 except for MB |

## Left out

- Network, auth and cache plumbing. That covers query building, `Promise.all`, react-query invalidation and toasts; the outcomes of the modelled requests are parameters. `AuthContext` is not part of this model: role flags are taken as "the role is among the user's roles".
- The `student_has_access` database function is not in the source. It is a function parameter, so the model does not fix it.
- Server-side triggers that recompute `attendance_summary` are not visible. Summaries are inputs.
- The unique constraint on attendance records and the atomicity of a multi-row insert are assumed, as the code assumes them.
- Floating point. Percentages are exact reals. `toFixed` text and IEEE rounding of `Math.round(x * 100) / 100` are not modelled; `Access.RoundToHundredths` rounds exactly.
- Forms.ShownSizeInRange: states the number `formatFileSize` shows before `toFixed(1)`, not the rendered text.
- Dates. ISO strings, time zones and the calendar's local-midnight comparison are left out. Time is an `int`.
- `Date.now()` and `Math.random()` in object keys are parameters (`timestamp`, `tag`).
- `useCreateSubject` and `useUpdateSubject` write their payload as-is, including a `branch_ids` field that is not a column. The `subject_branches` write path does not exist in the source, so the model stops at the payloads (`Forms.SubmitAddSubject`, and `Forms.SubmitEdit` with its `is_active` switch).
- React Router chooses routes by rank, not declaration order. The paths here are distinct literals, so `Navigation.PathsDistinct` makes the two coincide. Nested and parameterised routes do not occur.
- Navigation.RouteOf: matching ignores ASCII letter case and trailing slashes as the router does, but the router's percent-decoding of the location is not modelled, so `/%6Cogin` is not taken for `/login`.
- Roster.SubjectsByName: orders names by Unicode code point; the database sorts by its collation, which may order case and accents differently. The permutation is stated in full.
- Users.ListUsers: orders full names by Unicode code point (nulls last); the database sorts by its collation, which may order case and accents differently. The permutation is stated in full.
- The inserts of enrolments, override grants and teacher subjects (`useEnrollStudent`, `useGrantOverride`, `useAssignTeacherSubject`) are modelled by the rows they write (`Access.EnrollmentRecord`, `Access.GrantRecord`, `Access.Stored`, `Users.TeacherSubjectRecord`); their error outcome is not modelled. Neither insert sends `is_active`; the model reads the nullable column's default as active, which the generated types do not show. The same holds for the subject create and update payloads (`Forms.SubmitAddSubject`, `Forms.SubmitEdit`) and the select of `useTeacherSubjects`.
- AttendanceStore.StudentAttendance: returns the history only; the summary rows the hook also returns are inputs elsewhere in the model (`Access`, `StudentViews`).
- `parseInt` is modelled for decimal text: leading ASCII whitespace, an optional sign, then digits. Hexadecimal prefixes and Unicode whitespace are left out. Case mapping is ASCII-only.
- DeleteUser.Handle: exceptions thrown by the auth service or the role query itself (rather than returned as errors) are not modelled; only a failed body parse reaches the 500 catch. CORS headers are not modelled.
- The mock pages (`Assignments`, `Resources`, `Students`, `Analytics`, `Subjects`, `Branches`, `Assistant`) are out, as are presentation-only components and thin CRUD wrappers (`useBranches`, branch and delete dialogs, `EditUserDialog`, `ChangeRoleDialog`).
- The attendance sheet's rows and the "My Attendance" figures are literal data in the source. The model takes the rows as input and checks the page's own figures once (`StudentViews.PageFigures`).
- StudentViews.UpcomingDeadlines: the source's deadline query does not filter by enrolment or active flag, and neither does the model; database ordering among equal due dates is left unspecified.
- TeacherDashboard.PendingReviews counts over every assignment of the teacher's subjects, active or not, as the source does.

=== FILE: access.dfy ===
/** Attendance-gated access for the student list: the overall percentage over
    a student's per-subject summaries, the 65/75 classifier, and the global
    grant override that takes precedence over it (`useStudents`), together
    with the rows written by `useGrantOverride` and `useEnrollStudent`. */
module Access {
  import opened Wrappers
  import opened Schema
  import Js
  import Seqs

  /** The `access_status` values. */
  datatype AccessStatus = Allowed | AtRisk | Blocked

  /** At or above this percentage a student is allowed. */
  const MinimumAttendance: real := 75.0

  /** Below this percentage a student is blocked. */
  const HardFloor: real := 65.0

  /** How restrictive a status is: allowed < at risk < blocked. */
  function Severity(s: AccessStatus): nat {
    match s
    case Allowed => 0
    case AtRisk => 1
    case Blocked => 2
  }

  /** The status an attendance percentage earns without any override. */
  function Classify(p: real): (s: AccessStatus)
    ensures s == Blocked <==> p < HardFloor
    ensures s == AtRisk <==> HardFloor <= p < MinimumAttendance
    ensures s == Allowed <==> MinimumAttendance <= p
  {
    if p < HardFloor then Blocked
    else if p < MinimumAttendance then AtRisk
    else Allowed
  }

  /** More attendance never makes the status stricter. */
  lemma ClassifyMonotone(p: real, q: real)
    requires p <= q
    ensures Severity(Classify(q)) <= Severity(Classify(p))
  {
  }

  // ---------------------------------------------------------------------
  // Per-subject summaries and the overall percentage

  /** An `attendance_summary` row; every figure is nullable. */
  datatype AttendanceSummary = AttendanceSummary(
    studentId: Id,
    subjectId: Id,
    totalClasses: Option<int>,
    classesAttended: Option<int>,
    percentage: Option<real>,
    accessStatus: Option<AccessStatus>)

  /** Σ `total_classes || 0`. */
  function TotalClasses(ss: seq<AttendanceSummary>): int
    decreases |ss|
  {
    if |ss| == 0 then 0 else TotalClasses(ss[..|ss| - 1]) + ss[|ss| - 1].totalClasses.GetOr(0)
  }

  /** Σ `classes_attended || 0`. */
  function ClassesAttended(ss: seq<AttendanceSummary>): int
    decreases |ss|
  {
    if |ss| == 0 then 0 else ClassesAttended(ss[..|ss| - 1]) + ss[|ss| - 1].classesAttended.GetOr(0)
  }

  /** A summary that, with a missing count read as 0, never reports a
      negative attendance or more classes attended than held. */
  predicate Consistent(s: AttendanceSummary) {
    0 <= s.classesAttended.GetOr(0) <= s.totalClasses.GetOr(0)
  }

  /** The percentage of all held classes that were attended, or 100 when no
      class has been held. */
  function OverallPercentage(ss: seq<AttendanceSummary>): (p: real)
    ensures TotalClasses(ss) > 0 ==> p * TotalClasses(ss) as real == ClassesAttended(ss) as real * 100.0
    ensures TotalClasses(ss) <= 0 ==> p == 100.0
  {
    var t := TotalClasses(ss);
    if t > 0 then (ClassesAttended(ss) as real / t as real) * 100.0 else 100.0
  }

  /** Only one whole number of hundredths lies within half a hundredth of
      `x` (halves rounding up), so the rounding is determined by its
      contract. */
  lemma RoundingIsUnique(x: real, r: real)
    requires (r * 100.0).Floor as real == r * 100.0
    requires x - 0.005 < r <= x + 0.005
    ensures r == RoundToHundredths(x)
  {
    var m := (r * 100.0).Floor;
    var n := (RoundToHundredths(x) * 100.0).Floor;
    assert x * 100.0 - 0.5 < m as real <= x * 100.0 + 0.5;
    assert x * 100.0 - 0.5 < n as real <= x * 100.0 + 0.5;
    assert m == n;
  }

  /** The sums keep the per-summary bounds. */
  lemma {:induction false} SumsBounded(ss: seq<AttendanceSummary>)
    requires forall i :: 0 <= i < |ss| ==> Consistent(ss[i])
    ensures 0 <= ClassesAttended(ss) <= TotalClasses(ss)
    decreases |ss|
  {
    if |ss| > 0 {
      SumsBounded(ss[..|ss| - 1]);
      assert Consistent(ss[|ss| - 1]);
    }
  }

  /** Summing is independent of how the summaries are split. */
  lemma {:induction false} SumsAppend(a: seq<AttendanceSummary>, b: seq<AttendanceSummary>)
    ensures TotalClasses(a + b) == TotalClasses(a) + TotalClasses(b)
    ensures ClassesAttended(a + b) == ClassesAttended(a) + ClassesAttended(b)
    decreases |b|
  {
    if |b| == 0 {
      assert a + b == a;
    } else {
      SumsAppend(a, b[..|b| - 1]);
      assert (a + b)[..|a + b| - 1] == a + b[..|b| - 1];
      assert (a + b)[|a + b| - 1] == b[|b| - 1];
    }
  }

  /** With consistent summaries the overall percentage is a percentage. */
  lemma OverallPercentageInRange(ss: seq<AttendanceSummary>)
    requires forall i :: 0 <= i < |ss| ==> Consistent(ss[i])
    ensures 0.0 <= OverallPercentage(ss) <= 100.0
  {
    SumsBounded(ss);
    var t := TotalClasses(ss) as real;
    var a := ClassesAttended(ss) as real;
    if t > 0.0 {
      assert 0.0 <= a / t <= 1.0 by {
        assert a <= t;
        assert a / t <= t / t;
      }
    }
  }

  /** `Math.round(x * 100) / 100`: the whole number of hundredths within
      half a hundredth of `x`, halves rounding up. */
  function RoundToHundredths(x: real): (r: real)
    ensures (r * 100.0).Floor as real == r * 100.0
    ensures x - 0.005 < r <= x + 0.005
  {
    var n := (x * 100.0 + 0.5).Floor;
    assert n as real <= x * 100.0 + 0.5 < n as real + 1.0;
    n as real / 100.0
  }

  // ---------------------------------------------------------------------
  // Overrides

  /** The `override_type` values. */
  datatype OverrideType = Grant | Revoke

  /** An `access_overrides` row; the expiry is an instant on the same clock
      as `now`. */
  datatype AccessOverride = AccessOverride(
    id: Id,
    studentId: Id,
    subjectId: Option<Id>,
    overrideType: OverrideType,
    isActive: Option<bool>,
    expiresAt: Option<int>,
    reason: string,
    grantedBy: Id)

  /** An override that lifts the student's overall status at `now`: an active,
      global grant for that student that has no expiry or expires later. */
  predicate EffectiveGlobalGrant(o: AccessOverride, student: Id, now: int) {
    && o.studentId == student
    && o.isActive == Some(true)
    && o.subjectId.None?
    && o.overrideType == Grant
    && (o.expiresAt.None? || o.expiresAt.value > now)
  }

  /** Whether any of the overrides the query returned is effective; a failed
      override query (no data) counts as no override. */
  function HasActiveOverride(overrides: Option<seq<AccessOverride>>, student: Id, now: int): (b: bool)
    ensures b <==> overrides.Some? && exists i :: 0 <= i < |overrides.value| && EffectiveGlobalGrant(overrides.value[i], student, now)
  {
    overrides.Some? && AnyEffective(overrides.value, student, now)
  }

  /** `overrides.some(...)` over a returned list. */
  function AnyEffective(os: seq<AccessOverride>, student: Id, now: int): (b: bool)
    ensures b <==> exists i :: 0 <= i < |os| && EffectiveGlobalGrant(os[i], student, now)
    decreases |os|
  {
    if |os| == 0 then false
    else if EffectiveGlobalGrant(os[0], student, now) then true
    else
      var rest := AnyEffective(os[1..], student, now);
      assert forall i :: 1 <= i < |os| ==> os[i] == os[1..][i - 1];
      rest
  }

  /** The status shown in the student list. */
  function StudentStatus(p: real, overridden: bool): (s: AccessStatus)
    ensures overridden ==> s == Allowed
    ensures !overridden ==> s == Classify(p)
  {
    if overridden then Allowed else Classify(p)
  }

  /** An override can only relax the status, never tighten it. */
  lemma OverrideNeverStricter(p: real)
    ensures Severity(StudentStatus(p, true)) <= Severity(StudentStatus(p, false))
    ensures StudentStatus(p, true) == StudentStatus(p, false) <==> MinimumAttendance <= p
  {
  }

  // ---------------------------------------------------------------------
  // The student list

  /** A student in the list, with the figures derived from their summaries. */
  datatype StudentRow = StudentRow(
    profile: Profile,
    summaries: seq<AttendanceSummary>,
    overallAttendance: real,
    accessStatus: AccessStatus,
    hasActiveOverride: bool)

  /** The row built for a profile whose summaries could be read. */
  function Enrich(p: Profile, ss: seq<AttendanceSummary>, overrides: Option<seq<AccessOverride>>, now: int): (r: StudentRow)
    ensures r.profile == p && r.summaries == ss
    ensures r.hasActiveOverride <==> overrides.Some? && exists i :: 0 <= i < |overrides.value| && EffectiveGlobalGrant(overrides.value[i], p.id, now)
    ensures r.accessStatus == (if r.hasActiveOverride then Allowed else Classify(OverallPercentage(ss)))
    ensures r.overallAttendance == RoundToHundredths(OverallPercentage(ss))
    ensures (r.overallAttendance * 100.0).Floor as real == r.overallAttendance * 100.0
    ensures OverallPercentage(ss) - 0.005 < r.overallAttendance <= OverallPercentage(ss) + 0.005
  {
    var overridden := HasActiveOverride(overrides, p.id, now);
    var pct := OverallPercentage(ss);
    StudentRow(p, ss, RoundToHundredths(pct), StudentStatus(pct, overridden), overridden)
  }

  /** Whether a profile appears in the list: it is active and its summary
      query did not fail. */
  predicate Listed(p: Profile, summaryOf: Id -> Result<seq<AttendanceSummary>, string>) {
    p.isActive && summaryOf(p.id).Ok?
  }

  /** The row of a profile whose summary query succeeded. */
  function RowFor(
    p: Profile,
    summaryOf: Id -> Result<seq<AttendanceSummary>, string>,
    overridesOf: Id -> Option<seq<AccessOverride>>,
    now: int): StudentRow
    requires summaryOf(p.id).Ok?
  {
    Enrich(p, summaryOf(p.id).value, overridesOf(p.id), now)
  }

  /** The profiles of the rows, in row order. */
  function ProfilesOf(rows: seq<StudentRow>): (ps: seq<Profile>)
    ensures |ps| == |rows|
    ensures forall i :: 0 <= i < |rows| ==> ps[i] == rows[i].profile
  {
    seq(|rows|, i requires 0 <= i < |rows| => rows[i].profile)
  }

  /** The student list: active profiles, each enriched with its summaries and
      overrides, dropping every profile whose summary query failed. A failed
      profile select (`profilesFailure`) is raised as is. */
  function ListStudents(
    profiles: seq<Profile>,
    summaryOf: Id -> Result<seq<AttendanceSummary>, string>,
    overridesOf: Id -> Option<seq<AccessOverride>>,
    now: int,
    profilesFailure: Option<string>): (r: Result<seq<StudentRow>, string>)
    ensures r.Err? <==> profilesFailure.Some?
    ensures profilesFailure.Some? ==> r.error == profilesFailure.value
    ensures r.Ok? ==> ProfilesOf(r.value) == Seqs.Filter(profiles, p => Listed(p, summaryOf))
    ensures r.Ok? ==> forall i :: 0 <= i < |r.value| ==>
      Listed(r.value[i].profile, summaryOf) && r.value[i] == RowFor(r.value[i].profile, summaryOf, overridesOf, now)
  {
    if profilesFailure.Some? then Err(profilesFailure.value)
    else
      var kept := Seqs.Filter(profiles, p => Listed(p, summaryOf));
      var r := seq(|kept|, i requires 0 <= i < |kept| => RowFor(kept[i], summaryOf, overridesOf, now));
      assert ProfilesOf(r) == kept;
      Ok(r)
  }

  /** The list holds every listed profile and no other, in profile order. */
  lemma ListStudentsExactly(
    profiles: seq<Profile>,
    summaryOf: Id -> Result<seq<AttendanceSummary>, string>,
    overridesOf: Id -> Option<seq<AccessOverride>>,
    now: int)
    ensures var ps := ProfilesOf(ListStudents(profiles, summaryOf, overridesOf, now, None).value);
      && Seqs.IsSubseq(ps, profiles)
      && (forall p :: p in ps <==> p in profiles && Listed(p, summaryOf))
  {
    Seqs.FilterIsSubseq(profiles, p => Listed(p, summaryOf));
  }

  // ---------------------------------------------------------------------
  // Rows written by the mutations

  /** The insert payload of a granted override: the database supplies the
      id, the creation time and `is_active`. */
  datatype OverrideInsert = OverrideInsert(
    studentId: Id,
    subjectId: Option<Id>,
    reason: string,
    grantedBy: Id,
    overrideType: OverrideType,
    expiresAt: Option<int>)

  /** `useGrantOverride`: always a grant; an empty subject means a global
      override and a missing expiry a permanent one. */
  function GrantRecord(studentId: Id, subjectId: Option<Id>, reason: string, grantedBy: Id, expiresAt: Option<int>): (r: OverrideInsert)
    ensures r.overrideType == Grant
    ensures r.subjectId.None? <==> !Js.Truthy(subjectId)
    ensures r.subjectId.Some? ==> r.subjectId == subjectId
    ensures r.expiresAt == expiresAt
    ensures r.studentId == studentId && r.reason == reason && r.grantedBy == grantedBy
  {
    OverrideInsert(studentId, Js.OrNone(subjectId), reason, grantedBy, Grant, expiresAt)
  }

  /** The stored row for an insert, with the columns the database fills in. */
  function Stored(ins: OverrideInsert, id: Id, isActive: Option<bool>): (o: AccessOverride)
    ensures o.studentId == ins.studentId && o.subjectId == ins.subjectId && o.overrideType == ins.overrideType
    ensures o.expiresAt == ins.expiresAt && o.isActive == isActive && o.id == id
  {
    AccessOverride(id, ins.studentId, ins.subjectId, ins.overrideType, isActive, ins.expiresAt, ins.reason, ins.grantedBy)
  }

  /** A stored, active global grant lifts the student's status until it
      expires and from then on no longer does; a grant scoped to a subject
      never lifts the overall status. */
  lemma GrantEffectiveness(studentId: Id, subjectId: Option<Id>, reason: string, grantedBy: Id, expiresAt: Option<int>, id: Id, now: int, p: real)
    ensures var o := Stored(GrantRecord(studentId, subjectId, reason, grantedBy, expiresAt), id, Some(true));
      && (EffectiveGlobalGrant(o, studentId, now) <==> !Js.Truthy(subjectId) && (expiresAt.None? || now < expiresAt.value))
      && (EffectiveGlobalGrant(o, studentId, now) ==> Enrich(Profile(studentId, "", None, None, true), [], Some([o]), now).accessStatus == Allowed)
  {
    var o := Stored(GrantRecord(studentId, subjectId, reason, grantedBy, expiresAt), id, Some(true));
    if EffectiveGlobalGrant(o, studentId, now) {
      assert Some([o]).value[0] == o;
    }
  }

  /** A student at 10% with an effective global grant is allowed; the same
      student with only a subject-scoped grant is blocked; a grant expiring
      exactly now no longer counts. */
  lemma OverrideExamples(p: Profile, now: int)
    ensures var ss := [AttendanceSummary(p.id, "s", Some(10), Some(1), None, None)];
      var global := AccessOverride("o", p.id, None, Grant, Some(true), None, "medical", "admin");
      var scoped := AccessOverride("o", p.id, Some("s"), Grant, Some(true), None, "medical", "admin");
      var expiring := AccessOverride("o", p.id, None, Grant, Some(true), Some(now), "medical", "admin");
      && OverallPercentage(ss) == 10.0
      && Enrich(p, ss, Some([global]), now).accessStatus == Allowed
      && Enrich(p, ss, Some([scoped]), now).accessStatus == Blocked
      && Enrich(p, ss, Some([expiring]), now).accessStatus == Blocked
  {
    var ss := [AttendanceSummary(p.id, "s", Some(10), Some(1), None, None)];
    assert TotalClasses(ss) == 10 && ClassesAttended(ss) == 1 by {
      assert ss[..0] == [];
    }
    var global := AccessOverride("o", p.id, None, Grant, Some(true), None, "medical", "admin");
    assert Some([global]).value[0] == global;
  }

  /** `useEnrollStudent`: the enrolment row written, defaulting a missing or
      empty academic year; `is_active` takes the column default, read here
      as active. */
  function EnrollmentRecord(id: Id, studentId: Id, subjectId: Id, academicYear: Option<string>): (e: Enrollment)
    ensures e.studentId == studentId && e.subjectId == subjectId && e.id == id
    ensures e.isActive
    ensures e.academicYear.Some? && e.academicYear.value != ""
    ensures Js.Truthy(academicYear) ==> e.academicYear == academicYear
    ensures !Js.Truthy(academicYear) ==> e.academicYear == Some(DefaultAcademicYear)
  {
    Enrollment(id, studentId, subjectId, Some(Js.OrNone(academicYear).GetOr(DefaultAcademicYear)), true)
  }
}

=== FILE: assignments.dfy ===
/** Assignments and submissions (`useAssignments`, `useStudentAssignments`,
    `useCreateAssignment`, `useSubmitAssignment`, `useGradeSubmission`):
    the attendance gate on each assignment, creation defaults, and the
    submission lifecycle pending -> submitted -> graded kept by an upsert on
    (assignment, student). */
module Assignments {
  import opened Wrappers
  import opened Schema
  import Js
  import Seqs
  import Ordering
  import Storage
  import Access

  /** An `assignments` row; due dates are instants. */
  datatype Assignment = Assignment(
    id: Id,
    title: string,
    description: Option<string>,
    subjectId: Id,
    dueDate: int,
    maxScore: Option<int>,
    createdBy: Id,
    isAttendanceRequired: Option<bool>,
    attachmentUrl: Option<string>,
    isActive: bool)

  /** The submission statuses. */
  datatype SubmissionStatus = Pending | Submitted | Graded

  /** A `submissions` row. */
  datatype Submission = Submission(
    id: Id,
    assignmentId: Id,
    studentId: Id,
    fileUrl: Option<string>,
    fileName: Option<string>,
    notes: Option<string>,
    status: Option<SubmissionStatus>,
    submittedAt: Option<int>,
    score: Option<int>,
    feedback: Option<string>,
    gradedAt: Option<int>,
    gradedBy: Option<Id>)

  // ---------------------------------------------------------------------
  // Listings

  /** `useAssignments`: active assignments, of one subject when given,
      earliest due date first, each row as often as the table holds it.
      `failure` is the error the select reports, raised as is. */
  function ListAssignments(rows: seq<Assignment>, subjectId: Option<Id>, failure: Option<string>): (r: Result<seq<Assignment>, string>)
    ensures r.Err? <==> failure.Some?
    ensures failure.Some? ==> r.error == failure.value
    ensures r.Ok? ==> forall a :: a in r.value <==> a in rows && a.isActive && (Js.Truthy(subjectId) ==> a.subjectId == subjectId.value)
    ensures r.Ok? ==> forall a :: multiset(r.value)[a] ==
                               (if a.isActive && (Js.Truthy(subjectId) ==> a.subjectId == subjectId.value) then multiset(rows)[a] else 0)
    ensures r.Ok? ==> forall i, j :: 0 <= i <= j < |r.value| ==> r.value[i].dueDate <= r.value[j].dueDate
  {
    if failure.Some? then Err(failure.value)
    else
      var listed := Seqs.Filter(rows, (a: Assignment) => a.isActive && (Js.Truthy(subjectId) ==> a.subjectId == subjectId.value));
      Seqs.FilterMultiplicity(rows, (a: Assignment) => a.isActive && (Js.Truthy(subjectId) ==> a.subjectId == subjectId.value));
      Ok(Ordering.SortAscending(listed, (a: Assignment) => a.dueDate))
  }

  /** `hasAccess || !is_attendance_required`: the RPC answer (`None` when it
      returned no data) or an assignment that does not require attendance. */
  function HasAccess(rpcAnswer: Option<bool>, attendanceRequired: Option<bool>): (b: bool)
    ensures b <==> rpcAnswer == Some(true) || attendanceRequired != Some(true)
  {
    rpcAnswer.GetOr(false) || !attendanceRequired.GetOr(false)
  }

  /** `submission?.status || 'pending'`. */
  function DisplayStatus(sub: Option<Submission>): (s: SubmissionStatus)
    ensures s == Pending <==> sub.None? || sub.value.status.None? || sub.value.status == Some(Pending)
    ensures sub.Some? && sub.value.status.Some? ==> s == sub.value.status.value
  {
    if sub.Some? && sub.value.status.Some? then sub.value.status.value else Pending
  }

  /** `submissions.find(s => s.assignment_id === id)`. */
  function FirstFor(subs: seq<Submission>, assignmentId: Id): (r: Option<Submission>)
    ensures r.Some? ==> r.value in subs && r.value.assignmentId == assignmentId
    ensures r.None? <==> forall i :: 0 <= i < |subs| ==> subs[i].assignmentId != assignmentId
    ensures r.Some? ==> exists k :: 0 <= k < |subs| && subs[k] == r.value && forall i :: 0 <= i < k ==> subs[i].assignmentId != assignmentId
    decreases |subs|
  {
    if |subs| == 0 then None
    else if subs[0].assignmentId == assignmentId then Some(subs[0])
    else
      var r := FirstFor(subs[1..], assignmentId);
      assert forall i :: 1 <= i < |subs| ==> subs[i] == subs[1..][i - 1];
      r
  }

  /** An assignment as a student sees it. */
  datatype AssignmentView = AssignmentView(
    assignment: Assignment,
    submission: Option<Submission>,
    hasAccess: bool,
    status: SubmissionStatus)

  /** The subjects the student is actively enrolled in. */
  function EnrolledSubjects(enrollments: seq<Enrollment>, studentId: Id): (ids: set<Id>)
    ensures forall s :: s in ids <==> exists i :: 0 <= i < |enrollments| && enrollments[i].studentId == studentId && enrollments[i].isActive && enrollments[i].subjectId == s
  {
    set i | 0 <= i < |enrollments| && enrollments[i].studentId == studentId && enrollments[i].isActive :: enrollments[i].subjectId
  }

  /** Enrolling a student adds exactly the new subject to the student's
      enrolled subjects and leaves every other student's unchanged. */
  lemma EnrollAddsSubject(enrollments: seq<Enrollment>, id: Id, studentId: Id, subjectId: Id, academicYear: Option<string>, other: Id)
    ensures var es := enrollments + [Access.EnrollmentRecord(id, studentId, subjectId, academicYear)];
      && EnrolledSubjects(es, studentId) == EnrolledSubjects(enrollments, studentId) + {subjectId}
      && (other != studentId ==> EnrolledSubjects(es, other) == EnrolledSubjects(enrollments, other))
  {
    var es := enrollments + [Access.EnrollmentRecord(id, studentId, subjectId, academicYear)];
    assert forall i :: 0 <= i < |enrollments| ==> es[i] == enrollments[i];
    assert es[|enrollments|].subjectId == subjectId;
  }

  /** The student's own submissions, in table order. */
  function SubmissionsOf(submissions: seq<Submission>, studentId: Id): seq<Submission> {
    Seqs.Filter(submissions, (s: Submission) => s.studentId == studentId)
  }

  /** The view of one assignment for the student. */
  function ViewOf(a: Assignment, mine: seq<Submission>, studentId: Id, rpc: (Id, Id) -> Option<bool>): (v: AssignmentView)
    ensures v.assignment == a && v.submission == FirstFor(mine, a.id)
    ensures v.hasAccess == HasAccess(rpc(studentId, a.subjectId), a.isAttendanceRequired)
    ensures v.status == DisplayStatus(v.submission)
  {
    var sub := FirstFor(mine, a.id);
    AssignmentView(a, sub, HasAccess(rpc(studentId, a.subjectId), a.isAttendanceRequired), DisplayStatus(sub))
  }

  /** The assignments a student is shown: active ones of enrolled subjects. */
  predicate Offered(a: Assignment, subjects: set<Id>) {
    a.subjectId in subjects && a.isActive
  }

  /** The assignments behind a list of views, in list order. */
  function AssignmentsOf(views: seq<AssignmentView>): (r: seq<Assignment>)
    ensures |r| == |views|
    ensures forall i :: 0 <= i < |r| ==> r[i] == views[i].assignment
  {
    seq(|views|, i requires 0 <= i < |views| => views[i].assignment)
  }

  /** `useStudentAssignments`: the active assignments of the student's
      enrolled subjects, earliest due first, each with its submission, the
      access decision and the displayed status. The enrolment, assignment
      and submission selects run in that order (the last two only when the
      student has an enrolled subject) and the first failure among
      `enrollFailure`, `assignFailure` and `subFailure` is raised. `rpc`
      stands for the `student_has_access` function, whose body is not part
      of this model. */
  function StudentAssignments(
    enrollments: seq<Enrollment>,
    assignments: seq<Assignment>,
    submissions: seq<Submission>,
    studentId: Id,
    rpc: (Id, Id) -> Option<bool>,
    enrollFailure: Option<string>,
    assignFailure: Option<string>,
    subFailure: Option<string>): (r: Result<seq<AssignmentView>, string>)
    ensures r.Err? <==>
      enrollFailure.Some? || (|EnrolledSubjects(enrollments, studentId)| > 0 && (assignFailure.Some? || subFailure.Some?))
    ensures enrollFailure.Some? ==> r == Err(enrollFailure.value)
    ensures enrollFailure.None? && |EnrolledSubjects(enrollments, studentId)| > 0 && assignFailure.Some? ==>
      r == Err(assignFailure.value)
    ensures enrollFailure.None? && |EnrolledSubjects(enrollments, studentId)| > 0 && assignFailure.None? && subFailure.Some? ==>
      r == Err(subFailure.value)
    ensures r.Ok? && |EnrolledSubjects(enrollments, studentId)| == 0 ==> r.value == []
    ensures r.Ok? ==> forall i, j :: 0 <= i <= j < |r.value| ==> r.value[i].assignment.dueDate <= r.value[j].assignment.dueDate
    ensures r.Ok? ==> forall i :: 0 <= i < |r.value| ==>
      && r.value[i].assignment in assignments
      && Offered(r.value[i].assignment, EnrolledSubjects(enrollments, studentId))
      && r.value[i] == ViewOf(r.value[i].assignment, SubmissionsOf(submissions, studentId), studentId, rpc)
    ensures r.Ok? ==> forall a :: multiset(AssignmentsOf(r.value))[a] ==
                               (if Offered(a, EnrolledSubjects(enrollments, studentId)) then multiset(assignments)[a] else 0)
  {
    var subjects := EnrolledSubjects(enrollments, studentId);
    if enrollFailure.Some? then Err(enrollFailure.value)
    else if |subjects| == 0 then Ok([])
    else if assignFailure.Some? then Err(assignFailure.value)
    else if subFailure.Some? then Err(subFailure.value)
    else
      var listed := OfferedByDueDate(assignments, subjects);
      var r := Views(listed, SubmissionsOf(submissions, studentId), studentId, rpc);
      assert AssignmentsOf(r) == listed;
      Ok(r)
  }

  /** The offered assignments, earliest due first, each as often as the
      table holds it. */
  function OfferedByDueDate(assignments: seq<Assignment>, subjects: set<Id>): (l: seq<Assignment>)
    ensures forall a :: a in l <==> a in assignments && Offered(a, subjects)
    ensures forall a :: multiset(l)[a] == if Offered(a, subjects) then multiset(assignments)[a] else 0
    ensures forall i, j :: 0 <= i <= j < |l| ==> l[i].dueDate <= l[j].dueDate
  {
    Seqs.FilterMultiplicity(assignments, (a: Assignment) => Offered(a, subjects));
    Ordering.SortAscending(Seqs.Filter(assignments, (a: Assignment) => Offered(a, subjects)), (a: Assignment) => a.dueDate)
  }

  /** One view per listed assignment, in list order. */
  function Views(listed: seq<Assignment>, mine: seq<Submission>, studentId: Id, rpc: (Id, Id) -> Option<bool>): (r: seq<AssignmentView>)
    ensures |r| == |listed|
    ensures forall i :: 0 <= i < |r| ==> r[i] == ViewOf(listed[i], mine, studentId, rpc) && r[i].assignment == listed[i]
    ensures forall a :: a in listed ==> exists i :: 0 <= i < |r| && r[i].assignment == a
  {
    var r := seq(|listed|, i requires 0 <= i < |listed| => ViewOf(listed[i], mine, studentId, rpc));
    assert forall a :: a in listed ==> exists i :: 0 <= i < |r| && r[i].assignment == a by {
      forall a | a in listed
        ensures exists i :: 0 <= i < |r| && r[i].assignment == a
      {
        var i :| 0 <= i < |listed| && listed[i] == a;
        assert r[i].assignment == a;
      }
    }
    r
  }

  /** An assignment without the attendance requirement is always open; one
      with it is open exactly when the database function says so. */
  lemma AccessGate(rpcAnswer: Option<bool>, attendanceRequired: Option<bool>)
    ensures attendanceRequired != Some(true) ==> HasAccess(rpcAnswer, attendanceRequired)
    ensures attendanceRequired == Some(true) ==> (HasAccess(rpcAnswer, attendanceRequired) <==> rpcAnswer == Some(true))
  {
  }

  // ---------------------------------------------------------------------
  // Creating an assignment

  /** The arguments of `useCreateAssignment`. */
  datatype CreateRequest = CreateRequest(
    title: string,
    description: Option<string>,
    subjectId: Id,
    dueDate: int,
    maxScore: Option<int>,
    createdBy: Id,
    isAttendanceRequired: Option<bool>,
    file: Option<Storage.FileInfo>)

  /** The table and the object keys of the `resources` bucket. */
  datatype State = State(rows: seq<Assignment>, objects: set<string>)

  /** `useCreateAssignment`: uploads the attachment, if any, then inserts the
      row with `max_score ?? 100` and `is_attendance_required ?? true`. The
      upload and insert outcomes, the timestamp, the random tag and the URL
      scheme are parameters; the new row is taken as active. */
  function CreateAssignment(
    st: State,
    req: CreateRequest,
    timestamp: nat,
    tag: string,
    publicUrl: string -> string,
    uploadOk: bool,
    insertOk: bool,
    id: Id): (out: (State, Result<Assignment, string>))
    ensures req.file.Some? && !uploadOk ==> out.0 == st && out.1.Err?
    ensures req.file.None? ==> out.0.objects == st.objects
    ensures out.1.Ok? <==> (req.file.None? || uploadOk) && insertOk
    ensures out.1.Err? ==> out.0.rows == st.rows
    ensures out.1.Ok? ==>
      var a := out.1.value;
      && out.0.rows == st.rows + [a]
      && a.id == id && a.title == req.title && a.description == req.description
      && a.subjectId == req.subjectId && a.dueDate == req.dueDate && a.createdBy == req.createdBy
      && a.maxScore == Some(req.maxScore.GetOr(100))
      && a.isAttendanceRequired == Some(req.isAttendanceRequired.GetOr(true))
      && a.isActive
      && (a.attachmentUrl.Some? <==> req.file.Some?)
      && (req.file.Some? ==>
        && a.attachmentUrl == Some(publicUrl(Storage.AttachmentPath(req.subjectId, timestamp, tag, req.file.value)))
        && Storage.AttachmentPath(req.subjectId, timestamp, tag, req.file.value) in out.0.objects)
  {
    if req.file.Some? && !uploadOk then (st, Err("upload failed"))
    else
      var path := if req.file.Some? then Some(Storage.AttachmentPath(req.subjectId, timestamp, tag, req.file.value)) else None;
      var objects := if path.Some? then st.objects + {path.value} else st.objects;
      var url := if path.Some? then Some(publicUrl(path.value)) else None;
      if !insertOk then (st.(objects := objects), Err("insert failed"))
      else
        var a := Assignment(id, req.title, req.description, req.subjectId, req.dueDate,
                            Some(req.maxScore.GetOr(100)), req.createdBy,
                            Some(req.isAttendanceRequired.GetOr(true)), url, true);
        (State(st.rows + [a], objects), Ok(a))
  }

  /** `??` keeps an explicit zero score and an explicit `false` requirement;
      only absent values take the defaults. */
  lemma CreateDefaultsOnlyWhenAbsent(st: State, req: CreateRequest, timestamp: nat, tag: string, publicUrl: string -> string, id: Id)
    requires req.file.None?
    ensures var a := CreateAssignment(st, req.(maxScore := Some(0), isAttendanceRequired := Some(false)), timestamp, tag, publicUrl, true, true, id).1.value;
      a.maxScore == Some(0) && a.isAttendanceRequired == Some(false)
    ensures var a := CreateAssignment(st, req.(maxScore := None, isAttendanceRequired := None), timestamp, tag, publicUrl, true, true, id).1.value;
      a.maxScore == Some(100) && a.isAttendanceRequired == Some(true)
  {
  }

  // ---------------------------------------------------------------------
  // Submissions

  /** The conflict target of the upsert. */
  datatype SubKey = SubKey(assignmentId: Id, studentId: Id)

  function KeyOf(s: Submission): SubKey {
    SubKey(s.assignmentId, s.studentId)
  }

  /** The submissions table, one row per (assignment, student). */
  type Table = map<SubKey, Submission>

  predicate WellKeyed(t: Table) {
    forall k :: k in t ==> KeyOf(t[k]) == k
  }

  /** The row of a student's submission for an assignment, if any. */
  function Lookup(t: Table, assignmentId: Id, studentId: Id): Option<Submission> {
    if SubKey(assignmentId, studentId) in t then Some(t[SubKey(assignmentId, studentId)]) else None
  }

  /** `useSubmitAssignment`: uploads the file, if any, then upserts the row
      for (assignment, student); `uploadOk` and `upsertOk` are the outcomes
      of the two requests, and either failure leaves the table as it was. A resubmission overwrites the file columns
      (with null when no file is sent), the status and the submission time,
      and the notes only when notes are sent; id, score, feedback and grading
      columns are kept. */
  function Submit(
    t: Table,
    assignmentId: Id,
    studentId: Id,
    file: Option<Storage.FileInfo>,
    notes: Option<string>,
    timestamp: nat,
    publicUrl: string -> string,
    uploadOk: bool,
    upsertOk: bool,
    id: Id,
    now: int): (out: (Table, Result<Submission, string>))
    ensures out.1.Ok? <==> (file.None? || uploadOk) && upsertOk
    ensures out.1.Err? ==> out.0 == t
    ensures out.1.Ok? ==>
      var s := out.1.value;
      var k := SubKey(assignmentId, studentId);
      && out.0 == t[k := s]
      && KeyOf(s) == k
      && s.status == Some(Submitted) && s.submittedAt == Some(now)
      && (s.fileName.Some? <==> file.Some?)
      && (file.Some? ==>
            s.fileName == Some(file.value.name)
            && s.fileUrl == Some(publicUrl(Storage.SubmissionPath(studentId, assignmentId, timestamp, file.value))))
      && (file.None? ==> s.fileUrl.None?)
      && (k in t ==> s.id == t[k].id && s.score == t[k].score && s.feedback == t[k].feedback
                     && s.gradedAt == t[k].gradedAt && s.gradedBy == t[k].gradedBy)
      && (k in t && notes.None? ==> s.notes == t[k].notes)
      && (k !in t || notes.Some? ==> s.notes == notes)
      && (k !in t ==> s.id == id && s.score.None? && s.feedback.None? && s.gradedBy.None?)
  {
    if file.Some? && !uploadOk then (t, Err("upload failed"))
    else if !upsertOk then (t, Err("upsert failed"))
    else
      var url := if file.Some? then Some(publicUrl(Storage.SubmissionPath(studentId, assignmentId, timestamp, file.value))) else None;
      var name := if file.Some? then Some(file.value.name) else None;
      var k := SubKey(assignmentId, studentId);
      var s :=
        if k in t then
          var prev := t[k];
          prev.(assignmentId := assignmentId, studentId := studentId,
               fileUrl := url, fileName := name,
               notes := if notes.Some? then notes else prev.notes,
               status := Some(Submitted), submittedAt := Some(now))
        else
          Submission(id, assignmentId, studentId, url, name, notes, Some(Submitted), Some(now), None, None, None, None);
      (t[k := s], Ok(s))
  }

  /** The upsert keeps one row per (assignment, student): it adds a row only
      for a first submission and otherwise replaces the existing one. */
  lemma SubmitKeepsOneRowPerPair(
    t: Table, assignmentId: Id, studentId: Id, file: Option<Storage.FileInfo>, notes: Option<string>,
    timestamp: nat, publicUrl: string -> string, id: Id, now: int)
    requires WellKeyed(t)
    ensures var t' := Submit(t, assignmentId, studentId, file, notes, timestamp, publicUrl, true, true, id, now).0;
      && WellKeyed(t')
      && t'.Keys == t.Keys + {SubKey(assignmentId, studentId)}
      && (forall k :: k in t && k != SubKey(assignmentId, studentId) ==> t'[k] == t[k])
  {
    var out := Submit(t, assignmentId, studentId, file, notes, timestamp, publicUrl, true, true, id, now);
    StoreKeepsKeyed(t, SubKey(assignmentId, studentId), out.1.value);
  }

  /** Storing a row under its own key keeps the table well keyed and
      touches no other key. */
  lemma StoreKeepsKeyed(t: Table, k: SubKey, s: Submission)
    requires WellKeyed(t) && KeyOf(s) == k
    ensures WellKeyed(t[k := s]) && t[k := s].Keys == t.Keys + {k}
    ensures forall j :: j in t && j != k ==> t[k := s][j] == t[j]
  {
  }

  /** `useGradeSubmission`: sets score, status, grading time and grading teacher on
      the row with the id, and the feedback only when feedback is sent. The
      single-row response makes the request fail, writing nothing, unless
      exactly one row has the id; `updateOk` is whether the update itself
      goes through (row-level security, constraints, the connection). */
  function Grade(t: Table, submissionId: Id, score: int, feedback: Option<string>, gradedBy: Id, now: int, updateOk: bool): (out: (Table, Result<Submission, string>))
    ensures out.1.Err? ==> out.0 == t
    ensures !updateOk ==> out.0 == t && out.1.Err?
    ensures out.1.Ok? <==> updateOk && |set k | k in t && t[k].id == submissionId| == 1
    ensures out.1.Ok? ==>
      var s := out.1.value;
      && out.0.Keys == t.Keys
      && s.id == submissionId
      && (exists k :: k in t && t[k].id == submissionId && out.0 == t[k := s]
            && s == t[k].(score := Some(score),
                          feedback := if feedback.Some? then feedback else t[k].feedback,
                          status := Some(Graded), gradedAt := Some(now), gradedBy := Some(gradedBy)))
  {
    var hits := set k | k in t && t[k].id == submissionId;
    if !updateOk then (t, Err("update failed"))
    else if |hits| != 1 then (t, Err("expected exactly one row"))
    else
      var k := PickOnly(hits);
      var prev := t[k];
      var s := prev.(score := Some(score),
                    feedback := if feedback.Some? then feedback else prev.feedback,
                    status := Some(Graded), gradedAt := Some(now), gradedBy := Some(gradedBy));
      (t[k := s], Ok(s))
  }

  /** The one element of a singleton set. */
  function PickOnly<T>(s: set<T>): (x: T)
    requires |s| == 1
    ensures s == {x}
  {
    var x :| x in s;
    assert s == {x} by {
      assert |s - {x}| == 0;
    }
    x
  }

  /** Grading the row just submitted finds exactly that row. */
  lemma GradeFindsSubmitted(t: Table, k: SubKey, s: Submission, t1: Table)
    requires forall x :: x in t ==> t[x].id != s.id
    requires t1 == t[k := s]
    ensures (set x | x in t1 && t1[x].id == s.id) == {k}
  {
  }

  /** The displayed lifecycle: nothing yet is pending; submitting shows
      submitted; grading shows graded; resubmitting a graded submission shows
      submitted again while the earlier score stays on the row. */
  lemma Lifecycle(
    t: Table, assignmentId: Id, studentId: Id, file: Option<Storage.FileInfo>, notes: Option<string>,
    timestamp: nat, publicUrl: string -> string, id: Id, now: int, score: int, gradedBy: Id)
    requires SubKey(assignmentId, studentId) !in t
    requires forall k :: k in t ==> t[k].id != id
    ensures DisplayStatus(Lookup(t, assignmentId, studentId)) == Pending
    ensures
      var t1 := Submit(t, assignmentId, studentId, file, notes, timestamp, publicUrl, true, true, id, now).0;
      var t2 := Grade(t1, id, score, None, gradedBy, now, true).0;
      var t3 := Submit(t2, assignmentId, studentId, file, notes, timestamp, publicUrl, true, true, id, now).0;
      && DisplayStatus(Lookup(t1, assignmentId, studentId)) == Submitted
      && DisplayStatus(Lookup(t2, assignmentId, studentId)) == Graded
      && DisplayStatus(Lookup(t3, assignmentId, studentId)) == Submitted
      && Lookup(t3, assignmentId, studentId).value.score == Some(score)
  {
    var k := SubKey(assignmentId, studentId);
    var t1 := Submit(t, assignmentId, studentId, file, notes, timestamp, publicUrl, true, true, id, now).0;
    GradedAfterSubmit(t, assignmentId, studentId, file, notes, timestamp, publicUrl, id, now, score, gradedBy);
    var t2 := Grade(t1, id, score, None, gradedBy, now, true).0;
    ResubmitKeepsScore(t2, k, assignmentId, studentId, file, notes, timestamp, publicUrl, id, now, score);
  }

  /** Grading a first submission by its id marks that row graded with the
      score. */
  lemma GradedAfterSubmit(
    t: Table, assignmentId: Id, studentId: Id, file: Option<Storage.FileInfo>, notes: Option<string>,
    timestamp: nat, publicUrl: string -> string, id: Id, now: int, score: int, gradedBy: Id)
    requires SubKey(assignmentId, studentId) !in t
    requires forall x :: x in t ==> t[x].id != id
    ensures var k := SubKey(assignmentId, studentId);
      var t1 := Submit(t, assignmentId, studentId, file, notes, timestamp, publicUrl, true, true, id, now).0;
      var t2 := Grade(t1, id, score, None, gradedBy, now, true).0;
      && k in t1 && t1[k].status == Some(Submitted)
      && k in t2 && t2[k].status == Some(Graded) && t2[k].score == Some(score)
  {
    var k := SubKey(assignmentId, studentId);
    var out1 := Submit(t, assignmentId, studentId, file, notes, timestamp, publicUrl, true, true, id, now);
    var t1 := out1.0;
    assert t1 == t[k := out1.1.value] && out1.1.value.id == id;
    GradeFindsSubmitted(t, k, out1.1.value, t1);
    var out2 := Grade(t1, id, score, None, gradedBy, now, true);
    assert out2.1.Ok?;
    var x :| x in t1 && t1[x].id == id && out2.0 == t1[x := out2.1.value];
    assert x == k;
  }

  /** Resubmitting over a graded row shows it submitted again and keeps
      the score. */
  lemma ResubmitKeepsScore(
    t2: Table, k: SubKey, assignmentId: Id, studentId: Id, file: Option<Storage.FileInfo>, notes: Option<string>,
    timestamp: nat, publicUrl: string -> string, id: Id, now: int, score: int)
    requires k == SubKey(assignmentId, studentId) && k in t2 && t2[k].score == Some(score)
    ensures var t3 := Submit(t2, assignmentId, studentId, file, notes, timestamp, publicUrl, true, true, id, now).0;
      k in t3 && t3[k].status == Some(Submitted) && t3[k].score == Some(score)
  {
    var out3 := Submit(t2, assignmentId, studentId, file, notes, timestamp, publicUrl, true, true, id, now);
    assert out3.0 == t2[k := out3.1.value];
  }
}

=== FILE: attendance_store.dfy ===
/** The attendance register: an insert-once table keyed by (student, subject,
    date), the batch mutation that marks a class (`useMarkAttendance`) and
    the two read queries over it (`useAttendanceRecords`,
    `useStudentAttendance`). */
module AttendanceStore {
  import opened Wrappers
  import opened Schema
  import Js
  import Seqs
  import Ordering

  /** The `attendance_status` values. */
  datatype AttendanceStatus = Present | Absent | Late | Excused

  /** One mark as sent by the client; dates are day numbers. */
  datatype Mark = Mark(
    studentId: Id,
    subjectId: Id,
    date: int,
    status: AttendanceStatus,
    markedBy: Id,
    notes: Option<string>)

  /** The unique key of `attendance_records`. */
  datatype Key = Key(studentId: Id, subjectId: Id, date: int)

  function KeyOf(m: Mark): Key {
    Key(m.studentId, m.subjectId, m.date)
  }

  /** The table, indexed by its unique key. */
  type Store = map<Key, Mark>

  /** Every stored row sits under its own key. */
  predicate WellKeyed(st: Store) {
    forall k :: k in st ==> KeyOf(st[k]) == k
  }

  /** A database error as the client sees it: an SQLSTATE code and a text. */
  datatype DbError = DbError(code: string, message: string)

  /** SQLSTATE `unique_violation`. */
  const UniqueViolation: string := "23505"

  /** The text the database gives a unique violation. */
  const DuplicateKeyText: string := "duplicate key value violates unique constraint"

  /** The text the client substitutes for a unique violation. */
  const AlreadyMarked: string := "Attendance for this date has already been marked and cannot be modified."

  /** A batch that can be inserted: no key already stored and no key twice. */
  predicate Insertable(st: Store, batch: seq<Mark>) {
    && (forall i :: 0 <= i < |batch| ==> KeyOf(batch[i]) !in st)
    && (forall i, j :: 0 <= i < j < |batch| ==> KeyOf(batch[i]) != KeyOf(batch[j]))
  }

  /** The keys a batch writes. */
  function BatchKeys(batch: seq<Mark>): (ks: set<Key>)
    ensures forall i :: 0 <= i < |batch| ==> KeyOf(batch[i]) in ks
    ensures forall k :: k in ks ==> exists i :: 0 <= i < |batch| && KeyOf(batch[i]) == k
  {
    set i | 0 <= i < |batch| :: KeyOf(batch[i])
  }

  /** The database side of a multi-row INSERT under the unique constraint: it
      either writes every row or, on the first clash, none of them. */
  function InsertBatch(st: Store, batch: seq<Mark>): (r: Result<Store, DbError>)
    ensures r.Ok? <==> Insertable(st, batch)
    ensures r.Err? ==> r.error.code == UniqueViolation
    ensures r.Ok? ==> r.value.Keys == st.Keys + BatchKeys(batch)
    ensures r.Ok? ==> forall k :: k in st ==> r.value[k] == st[k]
    ensures r.Ok? ==> forall i :: 0 <= i < |batch| ==> r.value[KeyOf(batch[i])] == batch[i]
    ensures r.Ok? && WellKeyed(st) ==> WellKeyed(r.value)
    decreases |batch|
  {
    if |batch| == 0 then Ok(st)
    else
      var m := batch[0];
      if KeyOf(m) in st then Err(DbError(UniqueViolation, DuplicateKeyText))
      else
        var r := InsertBatch(st[KeyOf(m) := m], batch[1..]);
        assert forall i :: 1 <= i < |batch| ==> batch[i] == batch[1..][i - 1];
        BatchKeysCons(batch);
        InsertableCons(st, batch);
        r
  }

  /** The keys of a batch are its first key and the keys of the rest. */
  lemma BatchKeysCons(batch: seq<Mark>)
    requires |batch| > 0
    ensures BatchKeys(batch) == {KeyOf(batch[0])} + BatchKeys(batch[1..])
  {
    assert forall i :: 1 <= i < |batch| ==> batch[i] == batch[1..][i - 1];
  }

  /** A batch whose first key is free is insertable iff the rest is,
      once the first mark is stored. */
  lemma InsertableCons(st: Store, batch: seq<Mark>)
    requires |batch| > 0 && KeyOf(batch[0]) !in st
    ensures Insertable(st, batch) <==> Insertable(st[KeyOf(batch[0]) := batch[0]], batch[1..])
  {
    assert forall i :: 1 <= i < |batch| ==> batch[i] == batch[1..][i - 1];
  }

  /** The error the mutation raises. */
  datatype MarkError =
    | Locked(message: string)   // the client's own error for a repeated mark
    | Raised(error: DbError)    // any other database error, passed on as is

  /** The client's handling of the insert outcome. */
  function Translate(e: DbError): (r: MarkError)
    ensures e.code == UniqueViolation <==> r == Locked(AlreadyMarked)
    ensures e.code != UniqueViolation <==> r == Raised(e)
  {
    if e.code == UniqueViolation then Locked(AlreadyMarked) else Raised(e)
  }

  /** `useMarkAttendance`: inserts a batch of marks. `failure` is a database
      failure unrelated to the constraint (connection, permissions) that
      aborts the statement before it writes. Returns the new store and the
      inserted rows or the raised error. */
  function MarkAttendance(st: Store, batch: seq<Mark>, failure: Option<DbError>): (out: (Store, Result<seq<Mark>, MarkError>))
    ensures out.1.Err? ==> out.0 == st
    ensures out.1.Ok? <==> failure.None? && Insertable(st, batch)
    ensures out.1.Ok? ==> out.1.value == batch && out.0 == InsertBatch(st, batch).value
    ensures failure.None? && !Insertable(st, batch) ==> out.1 == Err(Locked(AlreadyMarked))
    ensures failure.Some? ==> out.1 == Err(Translate(failure.value))
  {
    if failure.Some? then (st, Err(Translate(failure.value)))
    else
      match InsertBatch(st, batch)
      case Ok(st') => (st', Ok(batch))
      case Err(e) => (st, Err(Translate(e)))
  }

  /** A successful mark adds exactly its rows and never rewrites a stored one. */
  lemma MarkOnlyAdds(st: Store, batch: seq<Mark>)
    requires WellKeyed(st)
    requires MarkAttendance(st, batch, None).1.Ok?
    ensures var st' := MarkAttendance(st, batch, None).0;
      && WellKeyed(st')
      && st'.Keys == st.Keys + BatchKeys(batch)
      && (forall k :: k in st ==> st'[k] == st[k])
      && |st'.Keys| == |st.Keys| + |batch|
  {
    var st' := MarkAttendance(st, batch, None).0;
    BatchKeysSize(batch);
    assert st.Keys !! BatchKeys(batch);
  }

  /** A batch without repeated keys writes as many keys as marks. */
  lemma {:induction false} BatchKeysSize(batch: seq<Mark>)
    requires forall i, j :: 0 <= i < j < |batch| ==> KeyOf(batch[i]) != KeyOf(batch[j])
    ensures |BatchKeys(batch)| == |batch|
    decreases |batch|
  {
    if |batch| > 0 {
      var tail := batch[1..];
      assert forall i :: 1 <= i < |batch| ==> batch[i] == tail[i - 1];
      BatchKeysSize(tail);
      assert BatchKeys(batch) == {KeyOf(batch[0])} + BatchKeys(tail);
      assert KeyOf(batch[0]) !in BatchKeys(tail);
    }
  }

  /** Marking the same class again is refused with the lock message and
      leaves the register as the first marking left it. */
  lemma SecondMarkRejected(st: Store, batch: seq<Mark>, again: seq<Mark>)
    requires MarkAttendance(st, batch, None).1.Ok?
    requires exists i, j :: 0 <= i < |again| && 0 <= j < |batch| && KeyOf(again[i]) == KeyOf(batch[j])
    ensures var st' := MarkAttendance(st, batch, None).0;
      MarkAttendance(st', again, None) == (st', Err(Locked(AlreadyMarked)))
  {
    var st' := MarkAttendance(st, batch, None).0;
    var i, j :| 0 <= i < |again| && 0 <= j < |batch| && KeyOf(again[i]) == KeyOf(batch[j]);
    assert KeyOf(batch[j]) in st'.Keys;
    assert !Insertable(st', again);
  }

  // ---------------------------------------------------------------------
  // Queries

  /** `useAttendanceRecords`: the marks of one subject on one date, or no
      query at all (`None`) unless both a subject and a date are given.
      `failure` is the error the select reports, if any; the query raises it
      as is. */
  function RecordsFor(st: Store, subjectId: Option<Id>, date: Option<int>, failure: Option<DbError>): (r: Option<Result<set<Mark>, DbError>>)
    ensures r.Some? <==> Js.Truthy(subjectId) && date.Some?
    ensures r.Some? ==> (r.value.Err? <==> failure.Some?)
    ensures r.Some? && failure.Some? ==> r.value.error == failure.value
    ensures r.Some? && r.value.Ok? ==>
      forall m :: m in r.value.value <==> m in st.Values && m.subjectId == subjectId.value && m.date == date.value
  {
    if !(Js.Truthy(subjectId) && date.Some?) then None
    else if failure.Some? then Some(Err(failure.value))
    else Some(Ok(set m | m in st.Values && m.subjectId == subjectId.value && m.date == date.value))
  }

  /** Reading a class back after marking it returns what was there before
      together with exactly the marks of the batch. */
  lemma MarkThenRead(st: Store, batch: seq<Mark>, subjectId: Id, date: int)
    requires WellKeyed(st) && subjectId != ""
    requires MarkAttendance(st, batch, None).1.Ok?
    requires forall i :: 0 <= i < |batch| ==> batch[i].subjectId == subjectId && batch[i].date == date
    ensures var st' := MarkAttendance(st, batch, None).0;
      RecordsFor(st', Some(subjectId), Some(date), None).value.value
        == RecordsFor(st, Some(subjectId), Some(date), None).value.value + (set i | 0 <= i < |batch| :: batch[i])
  {
    var st' := MarkAttendance(st, batch, None).0;
    forall m | m in st'.Values
      ensures m in st.Values || exists i :: 0 <= i < |batch| && batch[i] == m
    {
      var k :| k in st' && st'[k] == m;
      if k !in st {
        var i :| 0 <= i < |batch| && KeyOf(batch[i]) == k;
      }
    }
    forall i | 0 <= i < |batch|
      ensures batch[i] in st'.Values
    {
      assert st'[KeyOf(batch[i])] == batch[i];
    }
    forall m | m in st.Values
      ensures m in st'.Values
    {
      var k :| k in st && st[k] == m;
      assert st'[k] == m;
    }
  }

  /** The number of records the history shows. */
  const HistoryLimit: nat := 20

  /** The first `n` elements, or all of them when there are fewer. */
  function Take<T>(s: seq<T>, n: nat): (r: seq<T>)
    ensures |r| == if |s| < n then |s| else n
    ensures r == s[..|r|]
  {
    if |s| <= n then s else s[..n]
  }

  /** A student's marks, newest date first. */
  function NewestFirst(rows: seq<Mark>, studentId: Id): (r: seq<Mark>)
    ensures multiset(r) == multiset(Seqs.Filter(rows, (m: Mark) => m.studentId == studentId))
    ensures Ordering.SortedBy(r, Ordering.Descending((m: Mark) => m.date))
  {
    Ordering.KeyOrdersAreTotal((m: Mark) => m.date);
    Ordering.Sort(Seqs.Filter(rows, (m: Mark) => m.studentId == studentId), Ordering.Descending((m: Mark) => m.date))
  }

  /** `useStudentAttendance`'s records: at most twenty of the student's marks,
      newest date first. */
  function History(rows: seq<Mark>, studentId: Id): (r: seq<Mark>)
    ensures |r| == if |NewestFirst(rows, studentId)| < HistoryLimit then |NewestFirst(rows, studentId)| else HistoryLimit
    ensures r == NewestFirst(rows, studentId)[..|r|]
    ensures |r| <= HistoryLimit
    ensures forall i :: 0 <= i < |r| ==> r[i] in rows && r[i].studentId == studentId
    ensures forall i, j :: 0 <= i <= j < |r| ==> r[j].date <= r[i].date
  {
    var all := NewestFirst(rows, studentId);
    var r := Take(all, HistoryLimit);
    Ordering.DescendingEverywhere(all, (m: Mark) => m.date);
    assert forall i :: 0 <= i < |r| ==> r[i] in multiset(all);
    r
  }

  /** `useStudentAttendance`: the student's summaries are read first and
      then the history; the first of the two selects that reports an error
      raises it, and the history is returned only when both succeed. */
  function StudentAttendance(rows: seq<Mark>, studentId: Id, summaryFailure: Option<DbError>, recordsFailure: Option<DbError>): (r: Result<seq<Mark>, DbError>)
    ensures r.Err? <==> summaryFailure.Some? || recordsFailure.Some?
    ensures summaryFailure.Some? ==> r == Err(summaryFailure.value)
    ensures summaryFailure.None? && recordsFailure.Some? ==> r == Err(recordsFailure.value)
    ensures r.Ok? ==> r.value == History(rows, studentId)
    ensures r.Ok? ==> |r.value| <= HistoryLimit && forall i :: 0 <= i < |r.value| ==> r.value[i] in rows && r.value[i].studentId == studentId
  {
    if summaryFailure.Some? then Err(summaryFailure.value)
    else if recordsFailure.Some? then Err(recordsFailure.value)
    else Ok(History(rows, studentId))
  }

  /** The history keeps the newest marks: every mark of the student it
      leaves out is no newer than any mark it shows, and it leaves one out
      only when it is full. */
  lemma HistoryKeepsNewest(rows: seq<Mark>, studentId: Id, m: Mark)
    requires m in rows && m.studentId == studentId
    requires m !in History(rows, studentId)
    ensures |History(rows, studentId)| == HistoryLimit
    ensures forall i :: 0 <= i < HistoryLimit ==> m.date <= History(rows, studentId)[i].date
  {
    var all := NewestFirst(rows, studentId);
    var kept := Seqs.Filter(rows, (x: Mark) => x.studentId == studentId);
    assert m in kept;
    assert m in multiset(all);
    var k :| 0 <= k < |all| && all[k] == m;
    Ordering.DescendingEverywhere(all, (x: Mark) => x.date);
    assert k >= HistoryLimit;
  }
}

=== FILE: delete_user.dfy ===
/** The `delete-user` edge function: the checks a request passes, in order,
    before the service deletes an account, and the HTTP status each failed
    check answers with (status codes as in section 15 of RFC 9110). The
    authentication service, the role table and the account deletion are
    parameters. */
module DeleteUser {
  import opened Wrappers
  import opened Schema
  import Js

  /** The status codes the function answers with. */
  const Ok200: int := 200             // section 15.3.1 of RFC 9110
  const BadRequest: int := 400        // section 15.5.1
  const Unauthorized: int := 401      // section 15.5.2
  const Forbidden: int := 403         // section 15.5.4
  const ServerError: int := 500       // section 15.6.1

  /** A JSON value as far as the function inspects it: the `userId` field. */
  datatype JsonValue = Absent | Null | Bool(b: bool) | Num(n: int) | Str(s: string) | Composite

  /** `!!v` for a JSON value. */
  predicate Truthy(v: JsonValue) {
    match v
    case Absent => false
    case Null => false
    case Bool(b) => b
    case Num(n) => n != 0
    case Str(s) => s != ""
    case Composite => true
  }

  /** What `const { userId } = await req.json()` produced: the error thrown
      for a body that is not JSON or is `null`, or the `userId` field. */
  datatype Body = Thrown(message: string) | Value(userId: JsonValue)

  datatype Request = Request(verb: string, body: Body, authorization: Option<string>)

  /** The JSON the response carries; `NoBody` for the preflight answer. */
  datatype Payload = NoBody | Failure(error: string) | Success(message: string)

  datatype Response = Response(status: int, payload: Payload)

  /** The outside world: `verify` resolves a token to the caller's user id
      (`None` for an error or no user), `rolesOf` answers the role query
      (`None` for no data), and `deleteAccount` deletes an account and
      returns its error message, if any. */
  datatype Services = Services(
    verify: string -> Option<Id>,
    rolesOf: Id -> Option<seq<Role>>,
    deleteAccount: JsonValue -> Option<string>)

  const BearerPrefix: string := "Bearer "

  /** `authHeader.replace("Bearer ", "")`: the first occurrence is removed,
      wherever it is. */
  function Token(header: string): string {
    Js.ReplaceFirst(header, BearerPrefix, "")
  }

  /** A header of the form `Bearer <token>` yields the token. */
  lemma TokenOfBearer(token: string)
    ensures Token(BearerPrefix + token) == token
  {
    Js.ReplaceLeadingPrefix(BearerPrefix, token);
  }

  /** `callerRoles?.some(r => r.role === "super_admin")`; no data is not an
      admin. */
  predicate CallerIsAdmin(roles: Option<seq<Role>>) {
    roles.Some? && SuperAdmin in roles.value
  }

  /** The function's answer, and the value it asked the service to delete
      (`None` when it never got that far). */
  function Handle(req: Request, svc: Services): (out: (Response, Option<JsonValue>))
    ensures req.verb == "OPTIONS" ==> out == (Response(Ok200, NoBody), None)
    ensures req.verb != "OPTIONS" && req.body.Thrown? ==>
      out == (Response(ServerError, Failure(req.body.message)), None)
    ensures req.verb != "OPTIONS" && req.body.Value? && !Truthy(req.body.userId) ==>
      out == (Response(BadRequest, Failure("User ID is required")), None)
    ensures out.1.Some? ==>
      && req.verb != "OPTIONS" && req.body.Value? && Truthy(req.body.userId)
      && Js.Truthy(req.authorization)
      && svc.verify(Token(req.authorization.value)).Some?
      && CallerIsAdmin(svc.rolesOf(svc.verify(Token(req.authorization.value)).value))
      && req.body.userId != Str(svc.verify(Token(req.authorization.value)).value)
      && out.1.value == req.body.userId
    ensures out.1.Some? ==>
      (out.0.status == Ok200 <==> svc.deleteAccount(out.1.value).None?)
    ensures out.1.Some? && out.0.status != Ok200 ==> out.0 == Response(ServerError, Failure(svc.deleteAccount(out.1.value).value))
  {
    if req.verb == "OPTIONS" then (Response(Ok200, NoBody), None)
    else match req.body
      case Thrown(message) => (Response(ServerError, Failure(message)), None)
      case Value(userId) =>
        if !Truthy(userId) then (Response(BadRequest, Failure("User ID is required")), None)
        else if !Js.Truthy(req.authorization) then (Response(Unauthorized, Failure("Authorization required")), None)
        else
          var caller := svc.verify(Token(req.authorization.value));
          if caller.None? then (Response(Unauthorized, Failure("Invalid authorization")), None)
          else if !CallerIsAdmin(svc.rolesOf(caller.value)) then
            (Response(Forbidden, Failure("Only super admins can delete users")), None)
          else if userId == Str(caller.value) then
            (Response(BadRequest, Failure("You cannot delete your own account")), None)
          else
            match svc.deleteAccount(userId)
            case Some(message) => (Response(ServerError, Failure(message)), Some(userId))
            case None => (Response(Ok200, Success("User deleted successfully")), Some(userId))
  }

  /** The failed check decides the status, and the checks run in order:
      the user id, then the header, the token, the role, and self-deletion. */
  lemma StatusLadder(req: Request, svc: Services)
    requires req.verb != "OPTIONS" && req.body.Value? && Truthy(req.body.userId)
    ensures !Js.Truthy(req.authorization) ==> Handle(req, svc).0.status == Unauthorized
    ensures Js.Truthy(req.authorization) && svc.verify(Token(req.authorization.value)).None? ==>
      Handle(req, svc).0.status == Unauthorized
    ensures Js.Truthy(req.authorization) && svc.verify(Token(req.authorization.value)).Some? ==>
      var caller := svc.verify(Token(req.authorization.value)).value;
      && (!CallerIsAdmin(svc.rolesOf(caller)) ==> Handle(req, svc).0.status == Forbidden)
      && (CallerIsAdmin(svc.rolesOf(caller)) && req.body.userId == Str(caller) ==> Handle(req, svc).0.status == BadRequest)
      && (CallerIsAdmin(svc.rolesOf(caller)) && req.body.userId != Str(caller) ==> Handle(req, svc).1 == Some(req.body.userId))
  {
  }

  /** A 200 for a real request means the account was deleted, on behalf of
      an authenticated super admin, and was not the caller's own. */
  lemma SuccessMeansAuthorised(req: Request, svc: Services)
    requires req.verb != "OPTIONS"
    requires Handle(req, svc).0.status == Ok200
    ensures Handle(req, svc).1.Some?
    ensures var caller := svc.verify(Token(req.authorization.value));
      && caller.Some?
      && CallerIsAdmin(svc.rolesOf(caller.value))
      && req.body.userId != Str(caller.value)
      && svc.deleteAccount(req.body.userId).None?
  {
  }

  /** A missing user id is reported before any authorization is looked at:
      the answer does not depend on the header or the services. */
  lemma MissingIdBeforeAuth(req: Request, svc: Services, svc2: Services, header: Option<string>)
    requires req.verb != "OPTIONS" && req.body.Value? && !Truthy(req.body.userId)
    ensures Handle(req, svc) == Handle(req.(authorization := header), svc2)
  {
  }

  /** A caller who is not a super admin cannot learn whether an id is their
      own: the role check precedes the self-deletion check. */
  lemma NonAdminSelfDeleteForbidden(req: Request, svc: Services, caller: Id, token: string)
    requires req.verb != "OPTIONS" && caller != ""
    requires req.body == Value(Str(caller)) && req.authorization == Some(BearerPrefix + token)
    requires svc.verify(token) == Some(caller) && !CallerIsAdmin(svc.rolesOf(caller))
    ensures Handle(req, svc).0.status == Forbidden
  {
    TokenOfBearer(token);
  }
}

=== FILE: forms.dfy ===
/** The dialogs that build database writes from form fields: granting an
    override (`GrantOverrideDialog`), adding and editing a subject
    (`AddSubjectDialog`, `EditSubjectDialog`), creating an assignment
    (`CreateAssignmentDialog`) and uploading a resource
    (`UploadResourceDialog`). Each is a form state, a rule for when its
    button is enabled, and a submit that either does nothing or produces
    the request and resets the form. The outcome of each request is a
    parameter (`ok`); a failed request leaves the dialog open and the form
    as it was. */
module Forms {
  import opened Wrappers
  import opened Schema
  import Js
  import Seqs
  import Access
  import Storage
  import Assignments
  import Resources

  // ---------------------------------------------------------------------
  // Shared: branches and the date picker

  /** A `branches` row. */
  datatype Branch = Branch(id: Id, name: string, code: string, isActive: bool)

  /** `branches?.filter(b => b.is_active) || []`: the branches offered. */
  function ActiveBranches(branches: Option<seq<Branch>>): (r: seq<Branch>)
    ensures forall b :: b in r <==> branches.Some? && b in branches.value && b.isActive
  {
    match branches
    case None => []
    case Some(bs) => Seqs.Filter(bs, (b: Branch) => b.isActive)
  }

  /** The date pickers disable `date < new Date()`: a date is selectable
      from now on. */
  predicate Selectable(date: int, now: int) {
    !(date < now)
  }

  // ---------------------------------------------------------------------
  // Granting an override

  datatype GrantForm = GrantForm(reason: string, subjectId: string, expiresAt: Option<int>)

  const GrantInitial: GrantForm := GrantForm("", "", None)

  /** The grant button: disabled while the request is pending or the
      reason is empty. */
  predicate GrantEnabled(form: GrantForm, pending: bool) {
    !pending && form.reason != ""
  }

  /** The subjects offered for a scoped grant: the active ones; the empty
      choice stands for all subjects. */
  function GrantSubjectChoices(subjects: Option<seq<Subject>>): (r: seq<Subject>)
    ensures forall s :: s in r <==> subjects.Some? && s in subjects.value && s.isActive
  {
    match subjects
    case None => []
    case Some(ss) => Seqs.Filter(ss, (s: Subject) => s.isActive)
  }

  /** The dialog after a submit: the form, the insert it asked for, and
      whether it is still open. */
  datatype GrantOutcome = GrantOutcome(form: GrantForm, insert: Option<Access.OverrideInsert>, open: bool)

  /** `handleSubmit`: nothing without a student or a signed-in user;
      otherwise the grant with `subjectId || undefined`, and on success the
      form is cleared and the dialog closed. */
  function SubmitGrant(form: GrantForm, student: Option<Id>, user: Option<Id>, ok: bool): (out: GrantOutcome)
    ensures student.None? || user.None? ==> out == GrantOutcome(form, None, true)
    ensures student.Some? && user.Some? ==>
      && out.insert.Some?
      && out.insert.value.studentId == student.value
      && out.insert.value.grantedBy == user.value
      && out.insert.value.reason == form.reason
      && out.insert.value.overrideType == Access.Grant
      && (out.insert.value.subjectId.None? <==> form.subjectId == "")
      && (form.subjectId != "" ==> out.insert.value.subjectId == Some(form.subjectId))
      && out.insert.value.expiresAt == form.expiresAt
    ensures student.Some? && user.Some? && ok ==> out.form == GrantInitial && !out.open
    ensures !ok ==> out.form == form && out.open
  {
    if student.None? || user.None? then GrantOutcome(form, None, true)
    else
      var insert := Access.GrantRecord(student.value, Js.OrNone(Some(form.subjectId)), form.reason, user.value, form.expiresAt);
      if ok then GrantOutcome(GrantInitial, Some(insert), false)
      else GrantOutcome(form, Some(insert), true)
  }

  /** A grant made with no subject chosen lifts the student's overall
      status once stored, until its expiry; any expiry the picker allows
      other than the present instant is later than now. A grant for a
      chosen subject never lifts it. */
  lemma GrantFromDialog(form: GrantForm, student: Id, user: Id, id: Id, now: int)
    requires form.expiresAt.Some? ==> Selectable(form.expiresAt.value, now) && form.expiresAt.value != now
    ensures var o := Access.Stored(SubmitGrant(form, Some(student), Some(user), true).insert.value, id, Some(true));
      Access.EffectiveGlobalGrant(o, student, now) <==> form.subjectId == ""
  {
    Access.GrantEffectiveness(student, Js.OrNone(Some(form.subjectId)), form.reason, user, form.expiresAt, id, now, 0.0);
  }

  /** Pressing the enabled button always sends a reason. */
  lemma GrantNeedsReason(form: GrantForm, student: Id, user: Id, ok: bool)
    requires GrantEnabled(form, false)
    ensures SubmitGrant(form, Some(student), Some(user), ok).insert.value.reason != ""
  {
  }

  // ---------------------------------------------------------------------
  // Subject branches

  /** `handleBranchToggle`: checking appends the id, unchecking removes
      every occurrence of it. */
  function ToggleBranch(ids: seq<Id>, branchId: Id, checked: bool): (r: seq<Id>)
    ensures checked ==> r == ids + [branchId]
    ensures !checked ==> forall x :: x in r <==> x in ids && x != branchId
    ensures !checked ==> Seqs.IsSubseq(r, ids)
  {
    if checked then ids + [branchId]
    else
      var r := Seqs.Filter(ids, (x: Id) => x != branchId);
      Seqs.FilterIsSubseq(ids, (x: Id) => x != branchId);
      r
  }

  /** No id occurs twice. */
  predicate NoDuplicates(ids: seq<Id>) {
    forall i, j :: 0 <= i < j < |ids| ==> ids[i] != ids[j]
  }

  /** The list's elements, as a set. */
  function Elements(ids: seq<Id>): set<Id> {
    set i | 0 <= i < |ids| :: ids[i]
  }

  /** As a set, the list changes as a checkbox group should: checking adds
      the id and unchecking removes it. The checkbox only checks an id the
      list lacks, so from a list without duplicates no duplicate arises;
      checking an id already present would add a second copy, which a
      single uncheck removes with the first. */
  lemma ToggleAsSet(ids: seq<Id>, b: Id, checked: bool)
    ensures checked ==> Elements(ToggleBranch(ids, b, checked)) == Elements(ids) + {b}
    ensures !checked ==> Elements(ToggleBranch(ids, b, checked)) == Elements(ids) - {b}
    ensures NoDuplicates(ids) && (checked ==> b !in ids) ==> NoDuplicates(ToggleBranch(ids, b, checked))
    ensures b !in ToggleBranch(ToggleBranch(ToggleBranch(ids, b, true), b, true), b, false)
  {
    var r := ToggleBranch(ids, b, checked);
    if checked {
      assert forall i :: 0 <= i < |ids| ==> r[i] == ids[i];
      assert r[|ids|] == b;
    } else {
      assert forall x :: x in Elements(r) <==> x in r;
      assert forall x :: x in Elements(ids) <==> x in ids;
      if NoDuplicates(ids) {
        SubseqKeepsDistinct(r, ids);
      }
    }
  }

  /** A subsequence of a list without duplicates has none. */
  lemma {:induction false} SubseqKeepsDistinct(r: seq<Id>, s: seq<Id>)
    requires Seqs.IsSubseq(r, s) && NoDuplicates(s)
    ensures NoDuplicates(r)
    decreases |s|
  {
    if |r| > 0 && |s| > 0 {
      if r[0] == s[0] && Seqs.IsSubseq(r[1..], s[1..]) {
        assert NoDuplicates(s[1..]) by {
          forall i, j | 0 <= i < j < |s[1..]|
            ensures s[1..][i] != s[1..][j]
          {
            assert s[1..][i] == s[i + 1] && s[1..][j] == s[j + 1];
          }
        }
        SubseqKeepsDistinct(r[1..], s[1..]);
        SubseqMembers(r[1..], s[1..]);
        forall j | 0 < j < |r|
          ensures r[0] != r[j]
        {
          assert r[j] == r[1..][j - 1];
          assert r[j] in s[1..];
          var k :| 0 <= k < |s[1..]| && s[1..][k] == r[j];
          assert s[k + 1] == r[j];
        }
        forall i, j | 0 <= i < j < |r|
          ensures r[i] != r[j]
        {
          if i > 0 {
            assert r[i] == r[1..][i - 1] && r[j] == r[1..][j - 1];
          }
        }
      } else {
        assert NoDuplicates(s[1..]) by {
          forall i, j | 0 <= i < j < |s[1..]|
            ensures s[1..][i] != s[1..][j]
          {
            assert s[1..][i] == s[i + 1] && s[1..][j] == s[j + 1];
          }
        }
        SubseqKeepsDistinct(r, s[1..]);
      }
    }
  }

  /** Every element of a subsequence is an element of the sequence. */
  lemma {:induction false} SubseqMembers(r: seq<Id>, s: seq<Id>)
    requires Seqs.IsSubseq(r, s)
    ensures forall x :: x in r ==> x in s
    decreases |s|
  {
    if |r| > 0 && |s| > 0 {
      if r[0] == s[0] && Seqs.IsSubseq(r[1..], s[1..]) {
        SubseqMembers(r[1..], s[1..]);
        assert forall x :: x in r ==> x == r[0] || x in r[1..];
      } else {
        SubseqMembers(r, s[1..]);
      }
    }
  }

  /** The subject being edited: its columns as the dialog reads them, with
      its junction rows when the query returned them. */
  datatype EditedSubject = EditedSubject(
    id: Id,
    name: string,
    code: string,
    description: Option<string>,
    semester: Option<nat>,
    credits: Option<nat>,
    isActive: bool,
    branchId: Option<Id>,
    junction: Option<seq<SubjectBranch>>)

  /** Whether a junction row is active. */
  predicate LinkActive(sb: SubjectBranch) {
    sb.isActive
  }

  /** The branch ids the edit dialog starts with: those of the active
      junction rows whenever there is any junction row, else the subject's
      own branch, if any. */
  function InitialBranchIds(subject: EditedSubject): (r: seq<Id>)
    ensures subject.junction.Some? && |subject.junction.value| > 0 ==>
      forall x :: x in r <==> exists i :: (0 <= i < |subject.junction.value|
        && subject.junction.value[i].isActive && subject.junction.value[i].branchId == x)
    ensures (subject.junction.None? || |subject.junction.value| == 0) ==>
      r == if Js.Truthy(subject.branchId) then [subject.branchId.value] else []
  {
    if subject.junction.Some? && |subject.junction.value| > 0 then
      var active := Seqs.Filter(subject.junction.value, LinkActive);
      var r := seq(|active|, i requires 0 <= i < |active| => active[i].branchId);
      assert forall x :: x in r <==> exists i :: (0 <= i < |subject.junction.value|
        && subject.junction.value[i].isActive && subject.junction.value[i].branchId == x)
      by {
        forall x | x in r
          ensures exists i :: (0 <= i < |subject.junction.value|
            && subject.junction.value[i].isActive && subject.junction.value[i].branchId == x)
        {
          var j :| 0 <= j < |r| && r[j] == x;
          assert active[j] in subject.junction.value;
          var i :| 0 <= i < |subject.junction.value| && subject.junction.value[i] == active[j];
        }
        forall x | exists i :: (0 <= i < |subject.junction.value|
            && subject.junction.value[i].isActive && subject.junction.value[i].branchId == x)
          ensures x in r
        {
          var i :| 0 <= i < |subject.junction.value|
            && subject.junction.value[i].isActive && subject.junction.value[i].branchId == x;
          assert subject.junction.value[i] in active;
          var j :| 0 <= j < |active| && active[j] == subject.junction.value[i];
          assert r[j] == x;
        }
      }
      r
    else if Js.Truthy(subject.branchId) then [subject.branchId.value]
    else []
  }

  /** Junction rows that are all inactive give no branch at all, even when
      the subject has a branch of its own; the save button then stays
      disabled until a branch is checked. */
  lemma InactiveJunctionGivesNoBranch(subject: EditedSubject)
    requires subject.junction.Some? && |subject.junction.value| > 0
    requires forall i :: 0 <= i < |subject.junction.value| ==> !subject.junction.value[i].isActive
    ensures InitialBranchIds(subject) == []
    ensures !SubjectSaveEnabled(EditForm(subject), false)
  {
    Seqs.FilterNone(subject.junction.value, LinkActive);
  }

  // ---------------------------------------------------------------------
  // The subject form

  datatype SubjectForm = SubjectForm(
    name: string,
    code: string,
    branchIds: seq<Id>,
    semester: string,
    credits: string,
    description: string,
    isActive: bool)

  /** The add dialog's initial form: no branches and three credits. */
  const AddInitial: SubjectForm := SubjectForm("", "", [], "", "3", "", true)

  /** `n?.toString() || d` for a count. */
  function ShowOr(n: Option<nat>, d: string): string {
    match n
    case None => d
    case Some(v) => Js.ShowNat(v)
  }

  /** The edit dialog's form for a subject. */
  function EditForm(subject: EditedSubject): (f: SubjectForm)
    ensures f.branchIds == InitialBranchIds(subject)
  {
    SubjectForm(subject.name, subject.code, InitialBranchIds(subject),
      ShowOr(subject.semester, ""), ShowOr(subject.credits, "3"),
      subject.description.GetOr(""), subject.isActive)
  }

  /** Save and Add: disabled while pending, or without a name, a code or a
      branch. */
  predicate SubjectSaveEnabled(form: SubjectForm, pending: bool) {
    !pending && form.name != "" && form.code != "" && |form.branchIds| > 0
  }

  /** The values a submit sends. `semester` is `None` for an empty field
      and for text that does not parse (NaN goes over the wire as null);
      `description` is `None` for an empty field. The add dialog leaves a
      `None` field out, the edit dialog sends it as null. `isActive` is the
      active switch, which only the edit dialog sends; the add dialog leaves
      it out and the new row takes the column's default. */
  datatype SubjectPayload = SubjectPayload(
    name: string,
    code: string,
    branchIds: seq<Id>,
    semester: Option<int>,
    credits: int,
    description: Option<string>,
    isActive: Option<bool>)

  /** The submit normalisation both dialogs share: the code upper-cased,
      `parseInt(credits) || 3`, and the optional fields; the active switch
      is left out. */
  function Normalise(form: SubjectForm): (p: SubjectPayload)
    ensures p.code == Js.ToUpper(form.code) && p.name == form.name && p.branchIds == form.branchIds
    ensures p.credits != 0
    ensures p.semester.None? <==> form.semester == "" || Js.ParseInt(form.semester).None?
    ensures p.description.None? <==> form.description == ""
    ensures p.description.Some? ==> p.description.value == form.description
    ensures p.isActive.None?
  {
    SubjectPayload(
      form.name,
      Js.ToUpper(form.code),
      form.branchIds,
      if form.semester != "" then Js.ParseInt(form.semester) else None,
      Js.IntOr(Js.ParseInt(form.credits), 3),
      if form.description != "" then Some(form.description) else None,
      None)
  }

  /** Opening the edit dialog and saving without a change writes back the
      subject's semester, description and a non-zero credit count; zero
      credits come back as three. */
  lemma EditRoundTrip(subject: EditedSubject)
    ensures var p := Normalise(EditForm(subject));
      && p.semester == (match subject.semester case None => None case Some(n) => Some(n as int))
      && (subject.description.Some? && subject.description.value != "" ==> p.description == subject.description)
      && (subject.credits.Some? && subject.credits.value != 0 ==> p.credits == subject.credits.value)
      && (subject.credits.None? || subject.credits.value == 0 ==> p.credits == 3)
  {
    match subject.semester {
      case None =>
      case Some(n) => Js.ParseIntShowNat(n);
    }
    match subject.credits {
      case None =>
        Js.ParseIntShowNat(3);
        assert Js.ShowNat(3) == "3";
      case Some(n) => Js.ParseIntShowNat(n);
    }
  }

  /** The edit dialog's submit: nothing without a subject; otherwise the
      update of that subject's row with the normalised form together with
      the active switch. The form is not reset; a successful save closes the
      dialog. */
  function SubmitEdit(subject: Option<EditedSubject>, form: SubjectForm, ok: bool): (out: (Option<(Id, SubjectPayload)>, bool))
    ensures subject.None? ==> out == (None, true)
    ensures subject.Some? ==> out.0.Some? && out.0.value.0 == subject.value.id && (out.1 <==> !ok)
    ensures subject.Some? ==> out.0.value.1.isActive == Some(form.isActive)
    ensures subject.Some? ==> out.0.value.1.(isActive := None) == Normalise(form)
  {
    if subject.None? then (None, true)
    else (Some((subject.value.id, Normalise(form).(isActive := Some(form.isActive)))), !ok)
  }

  /** The add dialog's submit: on success the payload is sent and the form
      returns to its initial values. The dialog does not check the fields
      itself; its button does. */
  function SubmitAddSubject(form: SubjectForm, ok: bool): (out: (SubjectForm, SubjectPayload, bool))
    ensures out.1 == Normalise(form) && out.1.isActive.None?
    ensures ok ==> out.0 == AddInitial && !out.2
    ensures !ok ==> out.0 == form && out.2
  {
    if ok then (AddInitial, Normalise(form), false) else (form, Normalise(form), true)
  }

  /** After a successful add the button is disabled again: the initial
      form has no name and no branch. */
  lemma AddResetDisables(form: SubjectForm)
    ensures !SubjectSaveEnabled(SubmitAddSubject(form, true).0, false)
    ensures Normalise(AddInitial).credits == 3 && Normalise(AddInitial).branchIds == []
  {
    Js.ParseIntShowNat(3);
    assert Js.ShowNat(3) == "3";
  }

  // ---------------------------------------------------------------------
  // Branch and subject choice for assignments and resources

  /** `isTeacher && profile?.branch_id ? profile.branch_id : branchId`. */
  function EffectiveBranch(isTeacher: bool, ownBranch: Option<Id>, selected: Id): (b: Id)
    ensures isTeacher && Js.Truthy(ownBranch) ==> b == ownBranch.value
    ensures !(isTeacher && Js.Truthy(ownBranch)) ==> b == selected
  {
    if isTeacher && Js.Truthy(ownBranch) then ownBranch.value else selected
  }

  /** The subjects offered: the active ones of the effective branch. */
  function SubjectChoices(subjects: Option<seq<Subject>>, branch: Id): (r: seq<Subject>)
    ensures forall s :: s in r <==> subjects.Some? && s in subjects.value && s.isActive && s.branchId == Some(branch)
  {
    match subjects
    case None => []
    case Some(ss) => Seqs.Filter(ss, Offered(branch))
  }

  /** Whether a subject is offered for a branch. */
  function Offered(branch: Id): Subject -> bool {
    (s: Subject) => s.isActive && s.branchId == Some(branch)
  }

  /** A teacher with a branch is offered the subjects of that branch
      whatever is selected; the branch select is shown only to super
      admins, so a teacher without a branch who is not one keeps the empty
      selection and is offered nothing. */
  lemma ChoicesFollowBranch(subjects: Option<seq<Subject>>, own: Id, selected: Id)
    requires own != ""
    requires subjects.Some? ==> forall i :: 0 <= i < |subjects.value| ==> subjects.value[i].branchId != Some("")
    ensures SubjectChoices(subjects, EffectiveBranch(true, Some(own), selected)) == SubjectChoices(subjects, own)
    ensures SubjectChoices(subjects, EffectiveBranch(true, None, "")) == []
  {
    if subjects.Some? {
      Seqs.FilterNone(subjects.value, Offered(""));
    }
  }

  // ---------------------------------------------------------------------
  // Creating an assignment

  datatype AssignmentForm = AssignmentForm(
    title: string,
    description: string,
    branchId: Id,
    subjectId: Id,
    dueDate: Option<int>,
    maxScore: string,
    isAttendanceRequired: bool,
    file: Option<Storage.FileInfo>)

  const AssignmentInitial: AssignmentForm := AssignmentForm("", "", "", "", None, "100", true, None)

  /** Picking a branch clears the chosen subject. */
  function ChooseBranch(form: AssignmentForm, branchId: Id): (f: AssignmentForm)
    ensures f.branchId == branchId && f.subjectId == ""
    ensures f.(branchId := form.branchId, subjectId := form.subjectId) == form
  {
    form.(branchId := branchId, subjectId := "")
  }

  /** The create button: disabled while pending, or without a title, a
      subject or a due date. */
  predicate CreateEnabled(form: AssignmentForm, pending: bool) {
    !pending && form.title != "" && form.subjectId != "" && form.dueDate.Some?
  }

  /** `handleSubmit`: nothing without a subject, a due date or a signed-in
      user; otherwise the request with `parseInt(maxScore) || 100`, and on
      success the form returns to its initial values. */
  function SubmitAssignment(form: AssignmentForm, user: Option<Id>, ok: bool): (out: (AssignmentForm, Option<Assignments.CreateRequest>, bool))
    ensures form.subjectId == "" || form.dueDate.None? || user.None? ==> out == (form, None, true)
    ensures form.subjectId != "" && form.dueDate.Some? && user.Some? ==>
      && out.1.Some?
      && out.1.value.title == form.title
      && out.1.value.description == (if form.description != "" then Some(form.description) else None)
      && out.1.value.subjectId == form.subjectId && out.1.value.dueDate == form.dueDate.value
      && out.1.value.maxScore == Some(Js.IntOr(Js.ParseInt(form.maxScore), 100))
      && out.1.value.isAttendanceRequired == Some(form.isAttendanceRequired)
      && out.1.value.createdBy == user.value && out.1.value.file == form.file
      && (out.1.value.description.None? <==> form.description == "")
      && (ok ==> out.0 == AssignmentInitial && !out.2)
      && (!ok ==> out.0 == form && out.2)
  {
    if form.subjectId == "" || form.dueDate.None? || user.None? then (form, None, true)
    else
      var req := Assignments.CreateRequest(
        form.title,
        if form.description != "" then Some(form.description) else None,
        form.subjectId,
        form.dueDate.value,
        Some(Js.IntOr(Js.ParseInt(form.maxScore), 100)),
        user.value,
        Some(form.isAttendanceRequired),
        form.file);
      if ok then (AssignmentInitial, Some(req), false) else (form, Some(req), true)
  }

  /** The enabled button always produces a request when someone is signed
      in; a typed maximum score of 0 is stored as 100, because `||` treats
      0 like a missing number before the hook's `??` is reached. */
  lemma AssignmentScores(form: AssignmentForm, user: Id, st: Assignments.State, timestamp: nat, tag: string, publicUrl: string -> string, id: Id)
    requires CreateEnabled(form, false)
    ensures SubmitAssignment(form, Some(user), true).1.Some?
    ensures form.file.None? && form.maxScore == "0" ==>
      Assignments.CreateAssignment(st, SubmitAssignment(form, Some(user), true).1.value, timestamp, tag, publicUrl, true, true, id).1.value.maxScore == Some(100)
  {
    if form.maxScore == "0" {
      assert Js.ParseInt("0") == Some(0) by {
        Js.ParseIntShowNat(0);
        assert Js.ShowNat(0) == "0";
      }
    }
  }

  // ---------------------------------------------------------------------
  // Uploading a resource

  datatype ResourceForm = ResourceForm(
    title: string,
    description: string,
    resourceType: Resources.ResourceType,
    branchId: Id,
    subjectId: Id,
    isAttendanceRequired: bool,
    file: Option<Storage.FileInfo>)

  const ResourceInitial: ResourceForm := ResourceForm("", "", Resources.Notes, "", "", true, None)

  /** The upload button: disabled while pending, or without a title, a file
      or a subject. */
  predicate UploadEnabled(form: ResourceForm, pending: bool) {
    !pending && form.title != "" && form.file.Some? && form.subjectId != ""
  }

  /** `handleSubmit`: nothing without a file, a subject or a signed-in
      user; otherwise the upload, and on success the form returns to notes
      with attendance required. */
  function SubmitResource(form: ResourceForm, user: Option<Id>, ok: bool): (out: (ResourceForm, Option<Resources.UploadRequest>, bool))
    ensures form.file.None? || form.subjectId == "" || user.None? ==> out == (form, None, true)
    ensures form.file.Some? && form.subjectId != "" && user.Some? ==>
      && out.1.Some?
      && out.1.value.file == form.file.value && out.1.value.subjectId == form.subjectId
      && out.1.value.uploadedBy == user.value && out.1.value.resourceType == form.resourceType
      && out.1.value.isAttendanceRequired == Some(form.isAttendanceRequired)
      && out.1.value.title == form.title
      && (out.1.value.description.None? <==> form.description == "")
      && (out.1.value.description.Some? ==> out.1.value.description.value == form.description)
      && (ok ==> out.0 == ResourceInitial && !out.2)
      && (!ok ==> out.0 == form && out.2)
  {
    if form.file.None? || form.subjectId == "" || user.None? then (form, None, true)
    else
      var req := Resources.UploadRequest(
        form.file.value,
        form.title,
        if form.description != "" then Some(form.description) else None,
        form.subjectId,
        form.resourceType,
        user.value,
        Some(form.isAttendanceRequired));
      if ok then (ResourceInitial, Some(req), false) else (form, Some(req), true)
  }

  /** A resource uploaded from the dialog keeps the requirement the form
      shows, so clearing the switch stores a resource open to everyone. */
  lemma UploadKeepsRequirement(form: ResourceForm, user: Id, st: Resources.State, timestamp: nat, tag: string, publicUrl: string -> string, id: Id, now: int)
    requires UploadEnabled(form, false)
    ensures var req := SubmitResource(form, Some(user), true).1.value;
      Resources.Upload(st, req, timestamp, tag, publicUrl, true, true, id, now).1.value.isAttendanceRequired == form.isAttendanceRequired
  {
  }

  /** The units `formatFileSize` chooses between. */
  datatype SizeUnit = Bytes | KiloBytes | MegaBytes

  /** Bytes below 1024, kilobytes below 1024 × 1024, megabytes above. */
  function SizeUnitOf(bytes: nat): SizeUnit {
    if bytes < 1024 then Bytes
    else if bytes < 1024 * 1024 then KiloBytes
    else MegaBytes
  }

  /** How many bytes one unit holds. */
  function UnitBytes(u: SizeUnit): (n: nat)
    ensures n > 0
  {
    match u
    case Bytes => 1
    case KiloBytes => 1024
    case MegaBytes => 1024 * 1024
  }

  /** The number shown before the unit, before rounding to one decimal. */
  function ShownSize(bytes: nat): real {
    bytes as real / UnitBytes(SizeUnitOf(bytes)) as real
  }

  /** The shown number times its unit is the size, and it lies between 1
      and 1024 except for files under a byte or of a gigabyte and more. */
  lemma ShownSizeInRange(bytes: nat)
    ensures ShownSize(bytes) * UnitBytes(SizeUnitOf(bytes)) as real == bytes as real
    ensures SizeUnitOf(bytes) != MegaBytes ==> ShownSize(bytes) < 1024.0
    ensures SizeUnitOf(bytes) != Bytes ==> 1.0 <= ShownSize(bytes)
    ensures bytes < 1024 * 1024 * 1024 ==> ShownSize(bytes) < 1024.0
  {
    var u := UnitBytes(SizeUnitOf(bytes)) as real;
    var b := bytes as real;
    assert ShownSize(bytes) * u == b;
  }
}

=== FILE: js.dfy ===
/** The JavaScript built-ins whose exact behaviour the application's rules
    depend on: truthiness of optional strings, `parseInt`, ASCII case
    mapping, `String.prototype.includes`, `split(c).pop()` and
    `String.prototype.replace` with a string pattern. */
module Js {
  import opened Wrappers

  /** `!!s` for a nullable string: null, undefined and "" are falsy. */
  predicate Truthy(s: Option<string>) {
    s.Some? && s.value != ""
  }

  /** `s || null` (and `s || undefined`): a falsy string becomes absent. */
  function OrNone(s: Option<string>): (r: Option<string>)
    ensures r.Some? <==> Truthy(s)
    ensures r.Some? ==> r == s
  {
    if Truthy(s) then s else None
  }

  /** `s || d` on a string that is never null. */
  function OrDefault(s: string, d: string): string {
    if s != "" then s else d
  }

  // ---------------------------------------------------------------------
  // parseInt (radix 10)

  /** The ASCII white-space characters `parseInt` skips. */
  predicate IsSpace(c: char) {
    c == ' ' || c == '\t' || c == '\n' || c == '\r' || c == '\U{0B}' || c == '\U{0C}'
  }

  predicate IsDigit(c: char) {
    '0' <= c <= '9'
  }

  function TrimStart(s: string): (r: string)
    ensures |r| <= |s| && r == s[|s| - |r|..]
    ensures |r| == 0 || !IsSpace(r[0])
    ensures forall i :: 0 <= i < |s| - |r| ==> IsSpace(s[i])
    decreases |s|
  {
    if |s| > 0 && IsSpace(s[0]) then TrimStart(s[1..]) else s
  }

  /** The longest prefix of `s` made of decimal digits. */
  function DigitPrefix(s: string): (r: string)
    ensures |r| <= |s| && r == s[..|r|]
    ensures forall i :: 0 <= i < |r| ==> IsDigit(r[i])
    ensures |r| == |s| || !IsDigit(s[|r|])
    decreases |s|
  {
    if |s| > 0 && IsDigit(s[0]) then [s[0]] + DigitPrefix(s[1..]) else ""
  }

  function DigitsValue(ds: string): nat
    requires forall i :: 0 <= i < |ds| ==> IsDigit(ds[i])
    decreases |ds|
  {
    if |ds| == 0 then 0
    else
      assert IsDigit(ds[|ds| - 1]);
      DigitsValue(ds[..|ds| - 1]) * 10 + (ds[|ds| - 1] as int - '0' as int)
  }

  /** `parseInt(s)`: skip leading white space, read an optional sign and the
      longest run of digits; `None` stands for NaN (no digit found). */
  function ParseInt(s: string): (r: Option<int>)
    ensures r.None? <==> |DigitPrefix(SignlessPart(TrimStart(s)))| == 0
    ensures r.Some? ==>
      var magnitude := DigitsValue(DigitPrefix(SignlessPart(TrimStart(s))));
      r.value == if TrimStart(s)[0] == '-' then -(magnitude as int) else magnitude as int
  {
    ReadNumber(TrimStart(s))
  }

  /** `parseInt` after the leading white space: an optional sign and the
      longest run of digits. */
  function ReadNumber(t: string): (r: Option<int>)
    ensures r.None? <==> |DigitPrefix(SignlessPart(t))| == 0
    ensures r.Some? ==>
      var magnitude := DigitsValue(DigitPrefix(SignlessPart(t)));
      r.value == if t[0] == '-' then -(magnitude as int) else magnitude as int
  {
    var negative := |t| > 0 && t[0] == '-';
    var ds := DigitPrefix(SignlessPart(t));
    var magnitude: int := DigitsValue(ds);
    if |ds| == 0 then None
    else if negative then Some(-magnitude)
    else Some(magnitude)
  }

  function SignlessPart(t: string): string {
    if |t| > 0 && (t[0] == '-' || t[0] == '+') then t[1..] else t
  }

  /** `parseInt(s) || d`: NaN and 0 are both falsy. */
  function IntOr(p: Option<int>, d: int): (r: int)
    ensures p.Some? && p.value != 0 ==> r == p.value
    ensures p.None? || p.value == 0 ==> r == d
  {
    if p.Some? && p.value != 0 then p.value else d
  }

  /** Decimal text of a natural number, as `String(n)` prints it. */
  function ShowNat(n: nat): (s: string)
    ensures |s| > 0
    ensures forall i :: 0 <= i < |s| ==> IsDigit(s[i])
    decreases n
  {
    if n < 10 then [('0' as int + n) as char]
    else ShowNat(n / 10) + [('0' as int + n % 10) as char]
  }

  lemma {:induction false} DigitsValueShowNat(n: nat)
    ensures DigitsValue(ShowNat(n)) == n
    decreases n
  {
    if n >= 10 {
      DigitsValueShowNat(n / 10);
      assert ShowNat(n)[..|ShowNat(n)| - 1] == ShowNat(n / 10);
    }
  }

  /** `parseInt` reads back every number printed in decimal. */
  lemma ParseIntShowNat(n: nat)
    ensures ParseInt(ShowNat(n)) == Some(n)
  {
    var s := ShowNat(n);
    assert TrimStart(s) == s;
    assert SignlessPart(s) == s;
    assert DigitPrefix(s) == s;
    DigitsValueShowNat(n);
  }

  /** Leading white space is skipped up to the first other character. */
  lemma {:induction false} TrimStartSkips(ws: string, x: string)
    requires forall i :: 0 <= i < |ws| ==> IsSpace(ws[i])
    requires |x| > 0 && !IsSpace(x[0])
    ensures TrimStart(ws + x) == x
    decreases |ws|
  {
    if |ws| > 0 {
      assert (ws + x)[1..] == ws[1..] + x;
      TrimStartSkips(ws[1..], x);
    } else {
      assert ws + x == x;
    }
  }

  /** The digit run ends at the first character that is not a digit. */
  lemma {:induction false} DigitPrefixStops(ds: string, rest: string)
    requires forall i :: 0 <= i < |ds| ==> IsDigit(ds[i])
    requires |rest| == 0 || !IsDigit(rest[0])
    ensures DigitPrefix(ds + rest) == ds
    decreases |ds|
  {
    if |ds| > 0 {
      assert (ds + rest)[0] == ds[0];
      assert (ds + rest)[1..] == ds[1..] + rest;
      DigitPrefixStops(ds[1..], rest);
      assert ds == [ds[0]] + ds[1..];
    } else {
      assert ds + rest == rest;
    }
  }

  /** `parseInt` of white space, an optional sign, the decimal text of a
      number and any text that does not start with a digit is that number,
      negated after a minus sign: `parseInt(" -12abc")` is -12. */
  lemma ParseIntReads(ws: string, sign: string, n: nat, rest: string)
    requires forall i :: 0 <= i < |ws| ==> IsSpace(ws[i])
    requires sign == "" || sign == "+" || sign == "-"
    requires |rest| == 0 || !IsDigit(rest[0])
    ensures ParseInt(ws + sign + ShowNat(n) + rest) == Some(if sign == "-" then -(n as int) else n as int)
  {
    var digits := ShowNat(n);
    var x := sign + (digits + rest);
    DigitsValueShowNat(n);
    SignedDigitsRead(sign, digits, rest, n);
    TrimStartSkips(ws, x);
    Regroup(ws, sign, digits, rest);
  }

  lemma Regroup(a: string, b: string, c: string, d: string)
    ensures a + b + c + d == a + (b + (c + d))
  {
  }

  /** After the white space: an optional sign, a run of digits worth `v`
      and text that does not continue the run read as `v`, negated after a
      minus sign. */
  lemma SignedDigitsRead(sign: string, digits: string, rest: string, v: nat)
    requires sign == "" || sign == "+" || sign == "-"
    requires |digits| > 0 && forall i :: 0 <= i < |digits| ==> IsDigit(digits[i])
    requires |rest| == 0 || !IsDigit(rest[0])
    requires DigitsValue(digits) == v
    ensures |sign + (digits + rest)| > 0 && !IsSpace((sign + (digits + rest))[0])
    ensures ReadNumber(sign + (digits + rest)) == Some(if sign == "-" then -(v as int) else v as int)
  {
    var x := sign + (digits + rest);
    SignSplits(sign, digits + rest);
    DigitPrefixStops(digits, rest);
    assert DigitPrefix(SignlessPart(x)) == digits;
  }

  /** An optional sign in front of text that starts with a digit: the text
      starts with the sign and is the rest once the sign is dropped. */
  lemma SignSplits(sign: string, t: string)
    requires sign == "" || sign == "+" || sign == "-"
    requires |t| > 0 && IsDigit(t[0])
    ensures |sign + t| > 0 && !IsSpace((sign + t)[0])
    ensures (sign + t)[0] == '-' <==> sign == "-"
    ensures SignlessPart(sign + t) == t
  {
    if sign == "" {
      assert sign + t == t;
    } else {
      assert (sign + t)[0] == sign[0];
      assert (sign + t)[1..] == t;
    }
  }

  // ---------------------------------------------------------------------
  // Case mapping (ASCII letters only)

  function LowerChar(c: char): char {
    if 'A' <= c <= 'Z' then (c as int + 32) as char else c
  }

  function UpperChar(c: char): char {
    if 'a' <= c <= 'z' then (c as int - 32) as char else c
  }

  /** `s.toLowerCase()` */
  function ToLower(s: string): (r: string)
    ensures |r| == |s|
    ensures forall i :: 0 <= i < |s| ==> r[i] == LowerChar(s[i])
  {
    seq(|s|, i requires 0 <= i < |s| => LowerChar(s[i]))
  }

  /** `s.toUpperCase()` */
  function ToUpper(s: string): (r: string)
    ensures |r| == |s|
    ensures forall i :: 0 <= i < |s| ==> r[i] == UpperChar(s[i])
  {
    seq(|s|, i requires 0 <= i < |s| => UpperChar(s[i]))
  }

  /** Lower-casing forgets the case the text was typed in. */
  lemma LowerForgetsCase(s: string)
    ensures ToLower(ToLower(s)) == ToLower(s)
    ensures ToLower(ToUpper(s)) == ToLower(s)
  {
  }

  /** Upper-casing twice is upper-casing once. */
  lemma UpperIdempotent(s: string)
    ensures ToUpper(ToUpper(s)) == ToUpper(s)
  {
  }

  // ---------------------------------------------------------------------
  // Substrings

  /** `pat` occurs in `s` starting at position `i`. */
  predicate OccursAt(s: string, pat: string, i: int) {
    0 <= i && i + |pat| <= |s| && s[i..i + |pat|] == pat
  }

  /** `hay.includes(needle)` */
  predicate Includes(hay: string, needle: string) {
    exists i | 0 <= i <= |hay| :: OccursAt(hay, needle, i)
  }

  lemma IncludesEmpty(hay: string)
    ensures Includes(hay, "")
  {
    assert OccursAt(hay, "", 0);
  }

  /** `s.split(c).pop()`: the text after the last `c`, or all of `s`. */
  function AfterLast(s: string, c: char): (r: string)
    ensures c !in r
    ensures |r| <= |s| && r == s[|s| - |r|..]
    ensures |r| < |s| ==> s[|s| - |r| - 1] == c
    decreases |s|
  {
    if |s| == 0 then ""
    else if s[|s| - 1] == c then ""
    else
      var init := s[..|s| - 1];
      var rest := AfterLast(init, c);
      assert s[|s| - |rest| - 1..] == init[|init| - |rest|..] + [s[|s| - 1]];
      assert |rest| < |init| ==> s[|s| - |rest| - 2] == init[|init| - |rest| - 1];
      rest + [s[|s| - 1]]
  }

  /** A name without the separator is its own last segment. */
  lemma {:induction false} AfterLastNoSeparator(tail: string, c: char)
    requires c !in tail
    ensures AfterLast(tail, c) == tail
    decreases |tail|
  {
    if |tail| > 0 {
      var init := tail[..|tail| - 1];
      assert tail[|tail| - 1] in tail;
      AfterLastNoSeparator(init, c);
      assert tail == init + [tail[|tail| - 1]];
    }
  }

  /** The segment after a final separator is read back exactly. */
  lemma {:induction false} AfterLastOf(base: string, c: char, tail: string)
    requires c !in tail
    ensures AfterLast(base + [c] + tail, c) == tail
    decreases |tail|
  {
    var s := base + [c] + tail;
    if |tail| == 0 {
      assert s[|s| - 1] == c;
    } else {
      var init := tail[..|tail| - 1];
      assert tail[|tail| - 1] in tail;
      AfterLastOf(base, c, init);
      assert s[|s| - 1] == tail[|tail| - 1];
      assert s[..|s| - 1] == base + [c] + init;
      assert tail == init + [tail[|tail| - 1]];
    }
  }

  /** Position of the first occurrence of `pat` at or after `k`, or -1. */
  function IndexFrom(s: string, pat: string, k: nat): (r: int)
    requires k <= |s|
    ensures r == -1 || (k <= r && OccursAt(s, pat, r))
    ensures r == -1 ==> forall j :: k <= j ==> !OccursAt(s, pat, j)
    ensures r != -1 ==> forall j :: k <= j < r ==> !OccursAt(s, pat, j)
    decreases |s| - k
  {
    if k + |pat| > |s| then -1
    else if OccursAt(s, pat, k) then k
    else if k == |s| then -1
    else IndexFrom(s, pat, k + 1)
  }

  /** `pat` occurs at `i` and nowhere before. */
  predicate FirstAt(s: string, pat: string, i: int) {
    OccursAt(s, pat, i) && forall j :: 0 <= j < i ==> !OccursAt(s, pat, j)
  }

  /** `s.replace(pat, rep)` with a string pattern: only the first
      occurrence is replaced. */
  function ReplaceFirst(s: string, pat: string, rep: string): (r: string)
    ensures !Includes(s, pat) ==> r == s
    ensures Includes(s, pat) ==> exists i :: FirstAt(s, pat, i) && r == s[..i] + rep + s[i + |pat|..]
  {
    var i := IndexFrom(s, pat, 0);
    assert i >= 0 ==> FirstAt(s, pat, i);
    assert i < 0 ==> !Includes(s, pat);
    if i < 0 then s else s[..i] + rep + s[i + |pat|..]
  }

  /** Removing a prefix that is the first occurrence leaves the rest. */
  lemma ReplaceLeadingPrefix(pat: string, rest: string)
    ensures ReplaceFirst(pat + rest, pat, "") == rest
  {
    var s := pat + rest;
    assert OccursAt(s, pat, 0);
  }
}

=== FILE: navigation.dfy ===
/** Who sees what: the route guard (`AuthGuard`), the route table of the
    application shell, the sidebar's role filter and badge, the dashboard
    chosen for a user, and the role checks of individual pages. A user's
    role flags (`isSuperAdmin`, `isTeacher`, `isStudent`) are taken to mean
    that the role is among the user's roles. */
module Navigation {
  import opened Wrappers
  import opened Schema
  import Js
  import Seqs
  import Users

  // ---------------------------------------------------------------------
  // The guard

  /** The guard's props; `None` is an omitted prop. */
  datatype GuardProps = GuardProps(
    allowedRoles: Option<seq<Role>>,
    requiredRoles: Option<seq<Role>>,
    redirectTo: Option<string>)

  /** A guard with no props, as most routes use it. */
  const SignedIn: GuardProps := GuardProps(None, None, None)

  /** The signed-in state the guard reads. */
  datatype Session = Session(loading: bool, signedIn: bool, roles: seq<Role>)

  /** What the guard renders. */
  datatype Screen = Spinner | Redirect(to: string) | Render

  const LoginPath: string := "/login"
  const UnauthorizedPath: string := "/unauthorized"

  /** `redirectTo = '/login'`: the default applies only to an omitted prop. */
  function RedirectTarget(p: GuardProps): (to: string)
    ensures p.redirectTo.None? ==> to == LoginPath
    ensures p.redirectTo.Some? ==> to == p.redirectTo.value
  {
    p.redirectTo.GetOr(LoginPath)
  }

  /** `requiredRoles || allowedRoles`: an array, even an empty one, is never
      falsy, so a given `requiredRoles` always wins. */
  function RolesToCheck(p: GuardProps): (r: Option<seq<Role>>)
    ensures p.requiredRoles.Some? ==> r == p.requiredRoles
    ensures p.requiredRoles.None? ==> r == p.allowedRoles
  {
    if p.requiredRoles.Some? then p.requiredRoles else p.allowedRoles
  }

  /** The user holds at least one of the listed roles. */
  predicate HoldsAny(listed: seq<Role>, roles: seq<Role>) {
    exists i | 0 <= i < |listed| :: listed[i] in roles
  }

  /** `AuthGuard`. */
  function Guard(p: GuardProps, s: Session): (screen: Screen)
    ensures s.loading ==> screen == Spinner
    ensures !s.loading && !s.signedIn ==> screen == Redirect(RedirectTarget(p))
    ensures !s.loading && s.signedIn ==>
      (screen == Render <==> RolesToCheck(p).None? || |RolesToCheck(p).value| == 0 || HoldsAny(RolesToCheck(p).value, s.roles))
    ensures !s.loading && s.signedIn && screen != Render ==> screen == Redirect(UnauthorizedPath)
  {
    var check := RolesToCheck(p);
    if s.loading then Spinner
    else if !s.signedIn then Redirect(RedirectTarget(p))
    else if check.Some? && |check.value| > 0 && !HoldsAny(check.value, s.roles) then Redirect(UnauthorizedPath)
    else Render
  }

  /** Gaining a role never locks a signed-in user out of a page. */
  lemma GuardMonotone(p: GuardProps, s: Session, more: seq<Role>)
    requires forall r :: r in s.roles ==> r in more
    ensures Guard(p, s) == Render ==> Guard(p, s.(roles := more)) == Render
  {
  }

  /** A given but empty `requiredRoles` admits every signed-in user, whatever
      `allowedRoles` lists. */
  lemma EmptyRequiredAdmitsAll(allowed: seq<Role>, redirectTo: Option<string>)
    ensures Guard(GuardProps(Some(allowed), Some([]), redirectTo), Session(false, true, [])) == Render
  {
  }

  // ---------------------------------------------------------------------
  // Routes

  /** The pages of the application. */
  datatype Page =
    | Landing | Login | Register | UnauthorizedPage | DashboardPage
    | Branches | UserManagement | Subjects | AttendancePage | Students
    | Resources | Assignments | Assistant | Analytics | MyAttendance
    | Settings | NotFound

  /** A route: its path, its page and its guard (`None` when unguarded). */
  datatype Route = Route(path: string, page: Page, guard: Option<GuardProps>)

  function Require(roles: seq<Role>): Option<GuardProps> {
    Some(GuardProps(None, Some(roles), None))
  }

  const AdminOnly: seq<Role> := [SuperAdmin]
  const Staff: seq<Role> := [SuperAdmin, Teacher]

  /** The route table, in declaration order. */
  const RouteTable: seq<Route> := [
    Route("/", Landing, None),
    Route("/login", Login, None),
    Route("/register", Register, None),
    Route("/unauthorized", UnauthorizedPage, None),
    Route("/dashboard", DashboardPage, Some(SignedIn)),
    Route("/branches", Branches, Require(AdminOnly)),
    Route("/users", UserManagement, Require(AdminOnly)),
    Route("/subjects", Subjects, Require(Staff)),
    Route("/attendance", AttendancePage, Require(Staff)),
    Route("/students", Students, Require(Staff)),
    Route("/resources", Resources, Some(SignedIn)),
    Route("/assignments", Assignments, Some(SignedIn)),
    Route("/assistant", Assistant, Some(SignedIn)),
    Route("/analytics", Analytics, Require(Staff)),
    Route("/my-attendance", MyAttendance, Require([Student])),
    Route("/settings", Settings, Some(SignedIn))
  ]

  /** The path without its trailing slashes. */
  function TrimSlashes(p: string): (r: string)
    ensures |r| <= |p| && r == p[..|r|]
    ensures |r| == 0 || r[|r| - 1] != '/'
    ensures forall i :: |r| <= i < |p| ==> p[i] == '/'
    decreases |p|
  {
    if |p| > 0 && p[|p| - 1] == '/' then TrimSlashes(p[..|p| - 1]) else p
  }

  /** Whether a route path matches a location. The router compiles a path
      without the case-sensitive flag and lets any run of slashes end it, so
      the two agree once ASCII letters are lower-cased and trailing slashes
      dropped; a location is never empty. */
  predicate Matches(routePath: string, path: string)
    ensures Matches(routePath, path) <==>
      var t, u := TrimSlashes(path), TrimSlashes(routePath);
      |path| > 0 && |t| == |u| && forall i :: 0 <= i < |t| ==> Js.LowerChar(t[i]) == Js.LowerChar(u[i])
  {
    |path| > 0 && Js.ToLower(TrimSlashes(path)) == Js.ToLower(TrimSlashes(routePath))
  }

  /** The route a path selects: the first whose path matches; `*` catches
      every other path. */
  function RouteOf(path: string, table: seq<Route>): (r: Route)
    ensures r == Route(path, NotFound, None) || (r in table && Matches(r.path, path))
    ensures (forall i :: 0 <= i < |table| ==> !Matches(table[i].path, path)) ==> r == Route(path, NotFound, None)
    decreases |table|
  {
    if |table| == 0 then Route(path, NotFound, None)
    else if Matches(table[0].path, path) then table[0]
    else RouteOf(path, table[1..])
  }

  /** A route path as the table writes it: the root, or a slash followed by
      lower-case letters and hyphens. */
  predicate CanonicalRoute(rp: string) {
    rp == "/" || (|rp| > 1 && rp[0] == '/' && forall i :: 1 <= i < |rp| ==> 'a' <= rp[i] <= 'z' || rp[i] == '-')
  }

  /** The route path a location stands for: lower case, without trailing
      slashes, and the root for a run of slashes. */
  function Canonical(path: string): (r: string)
    ensures |path| > 0 ==> Matches(r, path)
    ensures r == "" <==> path == ""
    ensures Js.ToLower(r) == r
  {
    var t := TrimSlashes(path);
    var key := Js.ToLower(t);
    Js.LowerForgetsCase(t);
    assert |path| > 0 && key == "" ==> TrimSlashes("/") == TrimSlashes("/"[..0]);
    assert |key| == 0 || key[|key| - 1] != '/' by {
      if |key| > 0 {
        assert key[|key| - 1] == Js.LowerChar(t[|t| - 1]);
      }
    }
    assert TrimSlashes(key) == key;
    assert |path| > 0 ==> |t| > 0 || key == "";
    if |path| > 0 && key == "" then "/" else key
  }

  /** A location matches a route path of the table's form exactly when it
      stands for that path. */
  lemma CanonicalMatches(rp: string, path: string)
    requires CanonicalRoute(rp)
    ensures Matches(rp, path) <==> Canonical(path) == rp
  {
    var t := TrimSlashes(path);
    var key := Js.ToLower(t);
    assert |key| == 0 || key[|key| - 1] != '/' by {
      if |key| > 0 {
        assert key[|key| - 1] == Js.LowerChar(t[|t| - 1]);
      }
    }
    if rp == "/" {
      assert TrimSlashes(rp) == TrimSlashes(rp[..0]);
      assert Js.ToLower(TrimSlashes(rp)) == "";
    } else {
      assert TrimSlashes(rp) == rp;
      assert Js.ToLower(rp) == rp by {
        forall i | 0 <= i < |rp|
          ensures Js.ToLower(rp)[i] == rp[i]
        {
          if i > 0 { assert 'a' <= rp[i] <= 'z' || rp[i] == '-'; }
        }
      }
    }
  }

  /** A route path of the table's form stands for itself. */
  lemma CanonicalOfRoute(rp: string)
    requires CanonicalRoute(rp)
    ensures Canonical(rp) == rp
  {
    CanonicalMatches(rp, rp);
  }

  /** No two routes share a path, so the order of the table does not decide
      which one matches. */
  lemma PathsDistinct()
    ensures forall i, j :: 0 <= i < j < |RouteTable| ==> RouteTable[i].path != RouteTable[j].path
  {
  }

  /** Every path of the table is written in canonical form. */
  lemma TablePathsCanonical()
    ensures forall k :: 0 <= k < |RouteTable| ==> CanonicalRoute(RouteTable[k].path)
  {
    forall k | 0 <= k < |RouteTable|
      ensures CanonicalRoute(RouteTable[k].path)
    {
      if k < 8 { EarlyPathCanonical(k); }
      else if k < 12 { MiddlePathCanonical(k); }
      else { LatePathCanonical(k); }
    }
  }

  lemma EarlyPathCanonical(k: nat)
    requires k < 8
    ensures CanonicalRoute(RouteTable[k].path)
  {
    if k == 0 { assert RouteTable[0].path == "/"; }
    else if k == 1 { assert RouteTable[1].path == "/login"; }
    else if k == 2 { assert RouteTable[2].path == "/register"; }
    else if k == 3 { assert RouteTable[3].path == "/unauthorized"; }
    else if k == 4 { assert RouteTable[4].path == "/dashboard"; }
    else if k == 5 { assert RouteTable[5].path == "/branches"; }
    else if k == 6 { assert RouteTable[6].path == "/users"; }
    else { assert RouteTable[7].path == "/subjects"; }
  }

  lemma MiddlePathCanonical(k: nat)
    requires 8 <= k < 12
    ensures CanonicalRoute(RouteTable[k].path)
  {
    if k == 8 { assert RouteTable[8].path == "/attendance"; }
    else if k == 9 { assert RouteTable[9].path == "/students"; }
    else if k == 10 { assert RouteTable[10].path == "/resources"; }
    else { assert RouteTable[11].path == "/assignments"; }
  }

  lemma LatePathCanonical(k: nat)
    requires 12 <= k < |RouteTable|
    ensures CanonicalRoute(RouteTable[k].path)
  {
    if k == 12 { assert RouteTable[12].path == "/assistant"; }
    else if k == 13 { assert RouteTable[13].path == "/analytics"; }
    else if k == 14 { assert RouteTable[14].path == "/my-attendance"; }
    else { assert RouteTable[15].path == "/settings"; }
  }

  /** What a visit to `path` shows: the page, or the guard's verdict. */
  function Visit(path: string, s: Session): (out: (Page, Screen))
    ensures out.0 == RouteOf(path, RouteTable).page
    ensures RouteOf(path, RouteTable).guard.None? ==> out.1 == Render
  {
    var r := RouteOf(path, RouteTable);
    (r.page, if r.guard.None? then Render else Guard(r.guard.value, s))
  }

  /** Public and unknown paths. */
  predicate Public(path: string) {
    path == "/" || path == "/login" || path == "/register" || path == "/unauthorized"
  }

  predicate Known(path: string) {
    || Public(path) || path == "/dashboard" || path == "/branches" || path == "/users" || path == "/subjects"
    || path == "/attendance" || path == "/students" || path == "/resources" || path == "/assignments"
    || path == "/assistant" || path == "/analytics" || path == "/my-attendance" || path == "/settings"
  }

  /** The roles a signed-in user needs for a path, as the route table is
      meant to read: administration for super admins, class management for
      staff, the personal register for students, everything else for anyone. */
  predicate Permitted(path: string, roles: seq<Role>) {
    if path == "/branches" || path == "/users" then SuperAdmin in roles
    else if path == "/subjects" || path == "/attendance" || path == "/students" || path == "/analytics" then
      SuperAdmin in roles || Teacher in roles
    else if path == "/my-attendance" then Student in roles
    else true
  }

  /** The first route with the path is the one selected. */
  lemma {:induction false} RouteOfFirst(path: string, table: seq<Route>, k: nat)
    requires k < |table| && Matches(table[k].path, path)
    requires forall i :: 0 <= i < k ==> !Matches(table[i].path, path)
    ensures RouteOf(path, table) == table[k]
    decreases k
  {
    if k > 0 {
      RouteOfFirst(path, table[1..], k - 1);
    }
  }

  /** The known paths are exactly the paths of the table. */
  lemma KnownPaths(path: string)
    ensures Known(path) <==> exists k :: 0 <= k < |RouteTable| && RouteTable[k].path == path
  {
    if Known(path) {
      var k := if path == "/" then 0 else if path == "/login" then 1 else if path == "/register" then 2
        else if path == "/unauthorized" then 3 else if path == "/dashboard" then 4 else if path == "/branches" then 5
        else if path == "/users" then 6 else if path == "/subjects" then 7 else if path == "/attendance" then 8
        else if path == "/students" then 9 else if path == "/resources" then 10 else if path == "/assignments" then 11
        else if path == "/assistant" then 12 else if path == "/analytics" then 13 else if path == "/my-attendance" then 14
        else 15;
      assert RouteTable[k].path == path;
    }
  }

  /** A location selects the route whose path it stands for. */
  lemma RouteOfCanonical(path: string, k: nat)
    requires k < |RouteTable| && RouteTable[k].path == Canonical(path)
    ensures RouteOf(path, RouteTable) == RouteTable[k]
  {
    PathsDistinct();
    TablePathsCanonical();
    forall i | 0 <= i < k
      ensures !Matches(RouteTable[i].path, path)
    {
      CanonicalMatches(RouteTable[i].path, path);
    }
    CanonicalMatches(RouteTable[k].path, path);
    RouteOfFirst(path, RouteTable, k);
  }

  /** A location that stands for no path of the table falls to `*`. */
  lemma RouteOfUnknown(path: string)
    requires !Known(Canonical(path))
    ensures RouteOf(path, RouteTable) == Route(path, NotFound, None)
  {
    KnownPaths(Canonical(path));
    TablePathsCanonical();
    forall i | 0 <= i < |RouteTable|
      ensures !Matches(RouteTable[i].path, path)
    {
      CanonicalMatches(RouteTable[i].path, path);
    }
  }

  /** Two locations that stand for the same path show the same thing. */
  lemma VisitByCanonical(p: string, q: string, s: Session)
    requires Canonical(p) == Canonical(q)
    ensures Visit(p, s) == Visit(q, s)
  {
    KnownPaths(Canonical(p));
    if Known(Canonical(p)) {
      var k :| 0 <= k < |RouteTable| && RouteTable[k].path == Canonical(p);
      RouteOfCanonical(p, k);
      RouteOfCanonical(q, k);
    } else {
      RouteOfUnknown(p);
      RouteOfUnknown(q);
    }
  }

  /** Dropping trailing slashes commutes with upper-casing. */
  lemma {:induction false} TrimSlashesUpper(p: string)
    ensures TrimSlashes(Js.ToUpper(p)) == Js.ToUpper(TrimSlashes(p))
    decreases |p|
  {
    var u := Js.ToUpper(p);
    if |p| > 0 {
      assert u[|p| - 1] == Js.UpperChar(p[|p| - 1]);
      if p[|p| - 1] == '/' {
        assert u[..|p| - 1] == Js.ToUpper(p[..|p| - 1]);
        TrimSlashesUpper(p[..|p| - 1]);
      }
    }
  }

  /** A location is matched regardless of letter case and of a trailing
      slash: `/USERS` and `/users/` show what `/users` shows. */
  lemma VisitIgnoresCaseAndTrailingSlash(path: string, s: Session)
    requires |path| > 0
    ensures Visit(path + "/", s) == Visit(path, s)
    ensures Visit(Js.ToUpper(path), s) == Visit(path, s)
  {
    assert (path + "/")[..|path|] == path;
    assert Canonical(path + "/") == Canonical(path);
    TrimSlashesUpper(path);
    Js.LowerForgetsCase(TrimSlashes(path));
    assert Canonical(Js.ToUpper(path)) == Canonical(path);
    VisitByCanonical(path + "/", path, s);
    VisitByCanonical(Js.ToUpper(path), path, s);
  }

  /** The guard of a route with a role list admits exactly the holders of
      one of the roles. */
  lemma GuardOfRoles(listed: seq<Role>, roles: seq<Role>)
    requires 1 <= |listed| <= 2
    ensures Guard(GuardProps(None, Some(listed), None), Session(false, true, roles)) == Render <==>
      listed[0] in roles || (|listed| == 2 && listed[1] in roles)
  {
  }

  /** A route shows its page to the session: it is unguarded, or its guard
      renders. */
  predicate Admits(r: Route, s: Session) {
    r.guard.None? || Guard(r.guard.value, s) == Render
  }

  /** Each route of the table admits a signed-in user exactly when
      `Permitted` allows its path. */
  lemma TableFollowsPermission(k: nat, roles: seq<Role>)
    requires k < |RouteTable|
    ensures Admits(RouteTable[k], Session(false, true, roles)) <==> Permitted(RouteTable[k].path, roles)
  {
    if k < 8 { EarlyRoutesFollowPermission(k, roles); } else { LateRoutesFollowPermission(k, roles); }
  }

  /** The public pages, the dashboard and the administration routes. */
  lemma EarlyRoutesFollowPermission(k: nat, roles: seq<Role>)
    requires k < 8
    ensures Admits(RouteTable[k], Session(false, true, roles)) <==> Permitted(RouteTable[k].path, roles)
  {
    if k == 0 { assert RouteTable[0].path == "/"; }
    else if k == 1 { assert RouteTable[1].path == "/login"; }
    else if k == 2 { assert RouteTable[2].path == "/register"; }
    else if k == 3 { assert RouteTable[3].path == "/unauthorized"; }
    else if k == 4 { assert RouteTable[4].path == "/dashboard"; }
    else if k == 5 { GuardOfRoles(AdminOnly, roles); assert RouteTable[5].path == "/branches"; }
    else if k == 6 { GuardOfRoles(AdminOnly, roles); assert RouteTable[6].path == "/users"; }
    else { GuardOfRoles(Staff, roles); assert RouteTable[7].path == "/subjects"; }
  }

  /** The class-management, content and personal routes. */
  lemma LateRoutesFollowPermission(k: nat, roles: seq<Role>)
    requires 8 <= k < |RouteTable|
    ensures Admits(RouteTable[k], Session(false, true, roles)) <==> Permitted(RouteTable[k].path, roles)
  {
    if k == 8 { GuardOfRoles(Staff, roles); assert RouteTable[8].path == "/attendance"; }
    else if k == 9 { GuardOfRoles(Staff, roles); assert RouteTable[9].path == "/students"; }
    else if k == 10 { assert RouteTable[10].path == "/resources"; }
    else if k == 11 { assert RouteTable[11].path == "/assignments"; }
    else if k == 12 { assert RouteTable[12].path == "/assistant"; }
    else if k == 13 { GuardOfRoles(Staff, roles); assert RouteTable[13].path == "/analytics"; }
    else if k == 14 { GuardOfRoles([Student], roles); assert RouteTable[14].path == "/my-attendance"; }
    else { assert RouteTable[15].path == "/settings"; }
  }

  /** A signed-in user sees the page of a location exactly when `Permitted`
      allows the path it stands for, and is sent to the unauthorized page
      otherwise. */
  lemma VisitFollowsPermission(path: string, roles: seq<Role>)
    ensures Visit(path, Session(false, true, roles)).1 == Render <==> Permitted(Canonical(path), roles)
    ensures !Permitted(Canonical(path), roles) ==> Visit(path, Session(false, true, roles)).1 == Redirect(UnauthorizedPath)
  {
    KnownPaths(Canonical(path));
    if Known(Canonical(path)) {
      var k :| 0 <= k < |RouteTable| && RouteTable[k].path == Canonical(path);
      RouteOfCanonical(path, k);
      TableFollowsPermission(k, roles);
    } else {
      RouteOfUnknown(path);
    }
  }

  /** Exactly the public routes are unguarded, and every guard of the table
      keeps the default login redirect. */
  lemma RouteGuards(k: nat)
    requires k < |RouteTable|
    ensures Public(RouteTable[k].path) <==> RouteTable[k].guard.None?
    ensures RouteTable[k].guard.Some? ==> RouteTable[k].guard.value.redirectTo.None?
  {
    if k == 0 { assert RouteTable[0].path == "/"; }
    else if k == 1 { assert RouteTable[1].path == "/login"; }
    else if k == 2 { assert RouteTable[2].path == "/register"; }
    else if k == 3 { assert RouteTable[3].path == "/unauthorized"; }
    else if k == 4 { assert RouteTable[4].path == "/dashboard"; }
    else if k == 5 { assert RouteTable[5].path == "/branches"; }
    else if k == 6 { assert RouteTable[6].path == "/users"; }
    else if k == 7 { assert RouteTable[7].path == "/subjects"; }
    else if k == 8 { assert RouteTable[8].path == "/attendance"; }
    else if k == 9 { assert RouteTable[9].path == "/students"; }
    else if k == 10 { assert RouteTable[10].path == "/resources"; }
    else if k == 11 { assert RouteTable[11].path == "/assignments"; }
    else if k == 12 { assert RouteTable[12].path == "/assistant"; }
    else if k == 13 { assert RouteTable[13].path == "/analytics"; }
    else if k == 14 { assert RouteTable[14].path == "/my-attendance"; }
    else { assert RouteTable[15].path == "/settings"; }
  }

  /** Public paths render for anyone, signed in or not; unknown paths render
      the not-found page without a guard; guarded paths send a signed-out
      visitor to the login page and show the spinner while loading. */
  lemma PublicAndUnknownPaths(path: string, s: Session)
    ensures Public(Canonical(path)) ==> Visit(path, s).1 == Render
    ensures !Known(Canonical(path)) ==> Visit(path, s) == (NotFound, Render)
    ensures Known(Canonical(path)) && !Public(Canonical(path)) && !s.loading && !s.signedIn ==>
      Visit(path, s).1 == Redirect(LoginPath)
    ensures Known(Canonical(path)) && !Public(Canonical(path)) && s.loading ==> Visit(path, s).1 == Spinner
  {
    KnownPaths(Canonical(path));
    if Known(Canonical(path)) {
      var k :| 0 <= k < |RouteTable| && RouteTable[k].path == Canonical(path);
      RouteOfCanonical(path, k);
      RouteGuards(k);
    } else {
      RouteOfUnknown(path);
    }
  }

  // ---------------------------------------------------------------------
  // The sidebar

  /** A sidebar entry; `roles` is `None` for an entry everyone sees. */
  datatype NavItem = NavItem(title: string, href: string, roles: Option<seq<Role>>)

  const NavItems: seq<NavItem> := [
    NavItem("Dashboard", "/dashboard", None),
    NavItem("Branches", "/branches", Some([SuperAdmin])),
    NavItem("User Management", "/users", Some([SuperAdmin])),
    NavItem("Subjects", "/subjects", Some([SuperAdmin, Teacher])),
    NavItem("Attendance", "/attendance", Some([SuperAdmin, Teacher])),
    NavItem("Students", "/students", Some([SuperAdmin, Teacher])),
    NavItem("Resources", "/resources", None),
    NavItem("Assignments", "/assignments", None),
    NavItem("AI Assistant", "/assistant", None),
    NavItem("Analytics", "/analytics", Some([SuperAdmin, Teacher])),
    NavItem("My Attendance", "/my-attendance", Some([Student]))
  ]

  /** `!item.roles || item.roles.some(role => roles.includes(role))` */
  predicate ShowsItem(item: NavItem, roles: seq<Role>) {
    item.roles.None? || HoldsAny(item.roles.value, roles)
  }

  function NavFilter(roles: seq<Role>): NavItem -> bool {
    (item: NavItem) => ShowsItem(item, roles)
  }

  /** The entries the sidebar shows. */
  function VisibleNav(roles: seq<Role>): (r: seq<NavItem>)
    ensures forall x :: x in r <==> x in NavItems && ShowsItem(x, roles)
  {
    Seqs.Filter(NavItems, NavFilter(roles))
  }

  /** The sidebar keeps the entries' order. */
  lemma VisibleNavKeepsOrder(roles: seq<Role>)
    ensures Seqs.IsSubseq(VisibleNav(roles), NavItems)
  {
    Seqs.FilterIsSubseq(NavItems, NavFilter(roles));
  }

  /** Without roles an entry is shown exactly when it names no roles. */
  lemma NoRolesEntry(k: nat)
    requires k < |NavItems|
    ensures NavItems[k] in VisibleNav([]) <==> NavItems[k].roles.None?
  {
    assert NavItems[k] in NavItems;
  }

  /** A user without roles sees the four entries open to everyone
      (Dashboard, Resources, Assignments, AI Assistant) and none other. */
  lemma NoRolesSeesFour()
    ensures var shown := VisibleNav([]);
      && NavItems[0] in shown && NavItems[6] in shown && NavItems[7] in shown && NavItems[8] in shown
      && NavItems[1] !in shown && NavItems[2] !in shown && NavItems[3] !in shown && NavItems[4] !in shown
      && NavItems[5] !in shown && NavItems[9] !in shown && NavItems[10] !in shown
  {
    NoRolesEntry(0);
    NoRolesEntry(1);
    NoRolesEntry(2);
    NoRolesEntry(3);
    NoRolesEntry(4);
    NoRolesEntry(5);
    NoRolesEntry(6);
    NoRolesEntry(7);
    NoRolesEntry(8);
    NoRolesEntry(9);
    NoRolesEntry(10);
  }

  /** The sidebar offers an entry exactly when the route behind it would
      admit the user: no entry leads to the unauthorized page, and no
      reachable page is missing from the sidebar. */
  lemma SidebarMatchesRoutes(roles: seq<Role>)
    ensures forall i :: 0 <= i < |NavItems| ==> (ShowsItem(NavItems[i], roles) <==> Permitted(NavItems[i].href, roles))
  {
    forall i | 0 <= i < |NavItems|
      ensures ShowsItem(NavItems[i], roles) <==> Permitted(NavItems[i].href, roles)
    {
      var item := NavItems[i];
      if item.roles.Some? {
        var listed := item.roles.value;
        if SuperAdmin in roles && SuperAdmin in listed {
          assert listed[0] == SuperAdmin;
        }
        if Teacher in roles && Teacher in listed {
          assert listed[1] == Teacher;
        }
        if Student in roles && Student in listed {
          assert listed[0] == Student;
        }
      }
    }
  }

  /** `getRoleBadge` of the layout, on the role flags. */
  function LayoutBadge(isSuperAdmin: bool, isTeacher: bool): (b: Users.Badge)
    ensures isSuperAdmin <==> b == Users.SuperAdminBadge
    ensures !isSuperAdmin && isTeacher <==> b == Users.TeacherBadge
  {
    if isSuperAdmin then Users.SuperAdminBadge
    else if isTeacher then Users.TeacherBadge
    else Users.StudentBadge
  }

  /** The layout's badge and the users page's badge agree. */
  lemma LayoutBadgeAgrees(roles: seq<Role>)
    ensures LayoutBadge(SuperAdmin in roles, Teacher in roles) == Users.RoleBadge(roles)
  {
  }

  // ---------------------------------------------------------------------
  // Dashboard and page capabilities

  datatype DashboardKind = AdminDashboard | TeacherDashboard | StudentDashboard

  /** The dashboards the dashboard page renders, in order. */
  function Dashboards(isSuperAdmin: bool, isTeacher: bool, isStudent: bool): (r: seq<DashboardKind>)
    ensures |r| <= 1
    ensures |r| == 0 <==> !isSuperAdmin && !isTeacher && !isStudent
    ensures isSuperAdmin ==> r == [AdminDashboard]
    ensures !isSuperAdmin && isTeacher ==> r == [TeacherDashboard]
    ensures !isSuperAdmin && !isTeacher && isStudent ==> r == [StudentDashboard]
  {
    (if isSuperAdmin then [AdminDashboard] else [])
    + (if isTeacher && !isSuperAdmin then [TeacherDashboard] else [])
    + (if isStudent && !isTeacher && !isSuperAdmin then [StudentDashboard] else [])
  }

  /** The dashboard of a user with roles follows their highest role, like the
      badge; a user with no role gets no dashboard but the student badge. */
  lemma DashboardFollowsHighestRole(roles: seq<Role>)
    ensures var ds := Dashboards(SuperAdmin in roles, Teacher in roles, Student in roles);
      && (|roles| > 0 ==> ds == [match Users.Highest(roles)
                                  case SuperAdmin => AdminDashboard
                                  case Teacher => TeacherDashboard
                                  case Student => StudentDashboard])
      && (|roles| == 0 ==> ds == [] && Users.RoleBadge(roles) == Users.StudentBadge)
  {
    Users.RoleBadgeIsHighest(roles);
    if |roles| > 0 {
      assert roles[0] in roles;
    }
  }

  /** `canManageAttendance` of the attendance page. */
  function CanManageAttendance(roles: seq<Role>): (b: bool)
    ensures b <==> SuperAdmin in roles || Teacher in roles
  {
    SuperAdmin in roles || Teacher in roles
  }

  /** The users page shows its add, edit and delete actions only to a super
      admin. */
  function ShowsAdminActions(roles: seq<Role>): (b: bool)
    ensures b <==> SuperAdmin in roles
  {
    SuperAdmin in roles
  }

  /** Both page checks coincide with the guard of their route, so every user
      who reaches the page passes them. */
  lemma PageChecksMatchRoutes(roles: seq<Role>)
    ensures CanManageAttendance(roles) <==> Visit("/attendance", Session(false, true, roles)).1 == Render
    ensures ShowsAdminActions(roles) <==> Visit("/users", Session(false, true, roles)).1 == Render
  {
    CanonicalOfRoute("/attendance");
    CanonicalOfRoute("/users");
    VisitFollowsPermission("/attendance", roles);
    VisitFollowsPermission("/users", roles);
  }
}

=== FILE: ordering.dfy ===
/** The `ORDER BY` of the source's queries, modelled as an insertion sort
    parameterised by a total comparator, plus the string order used for
    ordering by name. */
module Ordering {
  import opened Wrappers

  /** Every two values are comparable one way or the other. */
  ghost predicate Total<T(!new)>(le: (T, T) -> bool) {
    forall a, b :: le(a, b) || le(b, a)
  }

  /** Neighbours are in order. */
  predicate SortedBy<T>(s: seq<T>, le: (T, T) -> bool) {
    forall i :: 0 < i < |s| ==> le(s[i - 1], s[i])
  }

  /** Places `x` before the first element it is not after. */
  function Insert<T(!new)>(x: T, s: seq<T>, le: (T, T) -> bool): (r: seq<T>)
    requires Total(le)
    requires SortedBy(s, le)
    ensures SortedBy(r, le)
    ensures multiset(r) == multiset(s) + multiset{x}
    ensures |r| == |s| + 1
    ensures r[0] == x || (|s| > 0 && r[0] == s[0])
    decreases |s|
  {
    if |s| == 0 then [x]
    else if le(x, s[0]) then [x] + s
    else
      assert s == [s[0]] + s[1..];
      [s[0]] + Insert(x, s[1..], le)
  }

  /** A permutation of `s` in `le` order. */
  function Sort<T(!new)>(s: seq<T>, le: (T, T) -> bool): (r: seq<T>)
    requires Total(le)
    ensures SortedBy(r, le)
    ensures multiset(r) == multiset(s)
    ensures |r| == |s|
    decreases |s|
  {
    if |s| == 0 then []
    else
      assert s == [s[0]] + s[1..];
      Insert(s[0], Sort(s[1..], le), le)
  }

  /** Descending order on an integer key (newest first). */
  function Descending<T>(key: T -> int): (le: (T, T) -> bool) {
    (a: T, b: T) => key(a) >= key(b)
  }

  /** Ascending order on an integer key (earliest first). */
  function Ascending<T>(key: T -> int): (le: (T, T) -> bool) {
    (a: T, b: T) => key(a) <= key(b)
  }

  lemma KeyOrdersAreTotal<T(!new)>(key: T -> int)
    ensures Total(Descending(key))
    ensures Total(Ascending(key))
  {
  }

  /** Neighbour-wise descending order on a key is order on every pair. */
  lemma {:induction false} DescendingEverywhere<T>(s: seq<T>, key: T -> int)
    requires SortedBy(s, Descending(key))
    ensures forall i, j :: 0 <= i <= j < |s| ==> key(s[j]) <= key(s[i])
    decreases |s|
  {
    if |s| > 1 {
      DescendingEverywhere(s[1..], key);
      assert forall j :: 1 <= j < |s| ==> key(s[j]) <= key(s[1]);
    }
  }

  /** Neighbour-wise ascending order on a key is order on every pair. */
  lemma {:induction false} AscendingEverywhere<T>(s: seq<T>, key: T -> int)
    requires SortedBy(s, Ascending(key))
    ensures forall i, j :: 0 <= i <= j < |s| ==> key(s[i]) <= key(s[j])
    decreases |s|
  {
    if |s| > 1 {
      AscendingEverywhere(s[1..], key);
      assert forall j :: 1 <= j < |s| ==> key(s[1]) <= key(s[j]);
    }
  }

  /** Equal multisets hold the same elements. */
  lemma SameElements<T>(a: seq<T>, b: seq<T>)
    requires multiset(a) == multiset(b)
    ensures forall x :: x in a <==> x in b
  {
    forall x
      ensures x in a <==> x in b
    {
      assert x in a <==> x in multiset(a);
      assert x in b <==> x in multiset(b);
    }
  }

  /** `ORDER BY key DESC`: a permutation of `s` with the largest key first. */
  function SortDescending<T(==,!new)>(s: seq<T>, key: T -> int): (r: seq<T>)
    ensures multiset(r) == multiset(s) && |r| == |s|
    ensures forall x :: x in r <==> x in s
    ensures forall i, j :: 0 <= i <= j < |r| ==> key(r[j]) <= key(r[i])
  {
    KeyOrdersAreTotal(key);
    var r := Sort(s, Descending(key));
    DescendingEverywhere(r, key);
    SameElements(r, s);
    r
  }

  /** `ORDER BY key ASC`: a permutation of `s` with the smallest key first. */
  function SortAscending<T(==,!new)>(s: seq<T>, key: T -> int): (r: seq<T>)
    ensures multiset(r) == multiset(s) && |r| == |s|
    ensures forall x :: x in r <==> x in s
    ensures forall i, j :: 0 <= i <= j < |r| ==> key(r[i]) <= key(r[j])
  {
    KeyOrdersAreTotal(key);
    var r := Sort(s, Ascending(key));
    AscendingEverywhere(r, key);
    SameElements(r, s);
    r
  }

  /** Code-point lexicographic order on strings. */
  predicate LexLe(a: string, b: string)
    decreases |a|
  {
    |a| == 0 || (|b| > 0 && (a[0] < b[0] || (a[0] == b[0] && LexLe(a[1..], b[1..]))))
  }

  lemma {:induction false} LexTotal(a: string, b: string)
    ensures LexLe(a, b) || LexLe(b, a)
    decreases |a|
  {
    if |a| > 0 && |b| > 0 && a[0] == b[0] {
      LexTotal(a[1..], b[1..]);
    }
  }

  /** Ascending text order on a nullable key, nulls last (the database's
      default for `ORDER BY ... ASC`). */
  function ByText<T>(key: T -> Option<string>): (le: (T, T) -> bool) {
    (a: T, b: T) => key(b).None? || (key(a).Some? && LexLe(key(a).value, key(b).value))
  }

  lemma ByTextTotal<T(!new)>(key: T -> Option<string>)
    ensures Total(ByText(key))
  {
    forall a: T, b: T
      ensures ByText(key)(a, b) || ByText(key)(b, a)
    {
      if key(a).Some? && key(b).Some? {
        LexTotal(key(a).value, key(b).value);
      }
    }
  }

  /** In text order every named row precedes every unnamed one. */
  lemma {:induction false} NullsLast<T>(s: seq<T>, key: T -> Option<string>)
    requires SortedBy(s, ByText(key))
    ensures forall i, j :: 0 <= i < j < |s| && key(s[i]).None? ==> key(s[j]).None?
    decreases |s|
  {
    if |s| > 1 {
      NullsLast(s[1..], key);
      assert forall j :: 1 <= j < |s| ==> s[j] == s[1..][j - 1];
      if key(s[0]).None? {
        assert ByText(key)(s[0], s[1]);
        assert key(s[1..][0]).None?;
      }
    }
  }
}

=== FILE: resources.dfy ===
/** Learning resources (`useResources`, `useUploadResource`,
    `useDeleteResource`): the active listing, an upload that stores the
    file before it writes the row, and a delete that only deactivates. */
module Resources {
  import opened Wrappers
  import opened Schema
  import Js
  import Seqs
  import Ordering
  import Storage

  /** The `resource_type` values. */
  datatype ResourceType = Recording | Notes | Guidance | Other

  /** A `resources` row; `createdAt` is an instant. */
  datatype Resource = Resource(
    id: Id,
    title: string,
    description: Option<string>,
    subjectId: Id,
    resourceType: ResourceType,
    fileUrl: string,
    fileName: string,
    fileSize: nat,
    uploadedBy: Id,
    isAttendanceRequired: bool,
    isActive: bool,
    createdAt: int)

  /** A row the listing shows: active, and of the subject when one is given. */
  predicate Shown(r: Resource, subjectId: Option<Id>) {
    r.isActive && (Js.Truthy(subjectId) ==> r.subjectId == subjectId.value)
  }

  /** `useResources`: the shown rows, newest first; `failure` is the error
      the select reports, raised as is. */
  function ListResources(rows: seq<Resource>, subjectId: Option<Id>, failure: Option<string>): (r: Result<seq<Resource>, string>)
    ensures r.Err? <==> failure.Some?
    ensures failure.Some? ==> r.error == failure.value
    ensures r.Ok? ==> multiset(r.value) == multiset(Seqs.Filter(rows, (x: Resource) => Shown(x, subjectId)))
    ensures r.Ok? ==> forall i :: 0 <= i < |r.value| ==> r.value[i] in rows && Shown(r.value[i], subjectId)
    ensures r.Ok? ==> forall i :: 0 <= i < |rows| && Shown(rows[i], subjectId) ==> rows[i] in r.value
    ensures r.Ok? ==> forall i, j :: 0 <= i <= j < |r.value| ==> r.value[j].createdAt <= r.value[i].createdAt
  {
    if failure.Some? then Err(failure.value)
    else Ok(Ordering.SortDescending(Seqs.Filter(rows, (x: Resource) => Shown(x, subjectId)), (x: Resource) => x.createdAt))
  }

  /** The table and the object keys of the `resources` bucket. */
  datatype State = State(rows: seq<Resource>, objects: set<string>)

  /** The arguments of an upload. */
  datatype UploadRequest = UploadRequest(
    file: Storage.FileInfo,
    title: string,
    description: Option<string>,
    subjectId: Id,
    resourceType: ResourceType,
    uploadedBy: Id,
    isAttendanceRequired: Option<bool>)

  /** The row an upload writes; the database supplies id, creation time and
      `is_active` (taken as active). */
  function NewRow(req: UploadRequest, url: string, id: Id, now: int): (r: Resource)
    ensures r.fileName == req.file.name && r.fileSize == req.file.size
    ensures r.isAttendanceRequired == req.isAttendanceRequired.GetOr(true)
    ensures r.fileUrl == url && r.subjectId == req.subjectId && r.isActive
    ensures r.title == req.title && r.description == req.description
    ensures r.resourceType == req.resourceType && r.uploadedBy == req.uploadedBy
    ensures r.id == id && r.createdAt == now
  {
    Resource(id, req.title, req.description, req.subjectId, req.resourceType, url,
             req.file.name, req.file.size, req.uploadedBy, req.isAttendanceRequired.GetOr(true), true, now)
  }

  /** `useUploadResource`. The storage upload and the row insert each either
      succeed or fail (`uploadOk`, `insertOk`); `timestamp` and `tag` stand
      for `Date.now()` and the random tag, and `publicUrl` for the bucket's
      URL scheme. */
  function Upload(
    st: State,
    req: UploadRequest,
    timestamp: nat,
    tag: string,
    publicUrl: string -> string,
    uploadOk: bool,
    insertOk: bool,
    id: Id,
    now: int): (out: (State, Result<Resource, string>))
    ensures !uploadOk ==> out.0 == st && out.1.Err?
    ensures uploadOk ==> out.0.objects == st.objects + {Storage.ResourcePath(req.subjectId, timestamp, tag, req.file)}
    ensures uploadOk && !insertOk ==> out.0.rows == st.rows && out.1.Err?
    ensures out.1.Ok? <==> uploadOk && insertOk
    ensures out.1.Ok? ==>
      && out.0.rows == st.rows + [out.1.value]
      && out.1.value == NewRow(req, publicUrl(Storage.ResourcePath(req.subjectId, timestamp, tag, req.file)), id, now)
  {
    var path := Storage.ResourcePath(req.subjectId, timestamp, tag, req.file);
    if !uploadOk then (st, Err("upload failed"))
    else
      var stored := st.(objects := st.objects + {path});
      if !insertOk then (stored, Err("insert failed"))
      else
        var row := NewRow(req, publicUrl(path), id, now);
        (stored.(rows := st.rows + [row]), Ok(row))
  }

  /** A new upload appears in the listing of its subject and in the
      unrestricted listing. */
  lemma UploadIsListed(
    st: State, req: UploadRequest, timestamp: nat, tag: string, publicUrl: string -> string, id: Id, now: int)
    ensures var out := Upload(st, req, timestamp, tag, publicUrl, true, true, id, now);
      && out.1.value in ListResources(out.0.rows, Some(req.subjectId), None).value
      && out.1.value in ListResources(out.0.rows, None, None).value
  {
    var out := Upload(st, req, timestamp, tag, publicUrl, true, true, id, now);
    var rows := out.0.rows;
    assert rows[|rows| - 1] == out.1.value;
  }

  /** `useDeleteResource`: every row with the id becomes inactive. When the
      update reports an error (`failure`) it is raised and no row changes. */
  function SoftDelete(rows: seq<Resource>, id: Id, failure: Option<string>): (out: (seq<Resource>, Result<(), string>))
    ensures out.1.Err? <==> failure.Some?
    ensures failure.Some? ==> out == (rows, Err(failure.value))
    ensures |out.0| == |rows|
    ensures failure.None? ==> forall i :: 0 <= i < |rows| ==>
      out.0[i] == if rows[i].id == id then rows[i].(isActive := false) else rows[i]
  {
    if failure.Some? then (rows, Err(failure.value))
    else (seq(|rows|, i requires 0 <= i < |rows| => if rows[i].id == id then rows[i].(isActive := false) else rows[i]), Ok(()))
  }

  /** After a delete the resource is still stored, with only its flag
      changed, but no listing shows it; every other row is untouched. */
  lemma SoftDeleteHides(rows: seq<Resource>, id: Id, subjectId: Option<Id>)
    ensures var after := SoftDelete(rows, id, None).0;
      && (forall i :: 0 <= i < |rows| && rows[i].id == id ==> after[i].(isActive := rows[i].isActive) == rows[i])
      && (forall x :: x in ListResources(after, subjectId, None).value ==> x.id != id)
      && (forall i :: 0 <= i < |rows| && rows[i].id != id ==> after[i] == rows[i])
  {
  }

  /** Deleting twice is deleting once; deleting an id no row has changes
      nothing. */
  lemma SoftDeleteIdempotent(rows: seq<Resource>, id: Id)
    ensures SoftDelete(SoftDelete(rows, id, None).0, id, None) == SoftDelete(rows, id, None)
    ensures (forall i :: 0 <= i < |rows| ==> rows[i].id != id) ==> SoftDelete(rows, id, None).0 == rows
  {
    var once := SoftDelete(rows, id, None).0;
    var twice := SoftDelete(once, id, None).0;
    assert twice == once by {
      forall i | 0 <= i < |once|
        ensures twice[i] == once[i]
      {
      }
    }
  }
}

=== FILE: roster.dfy ===
/** The class roster of a subject, resolved the same way by `useEnrolledStudents`
    (marking attendance) and `useSubjectStudents` (the subject page): the
    subject's active enrolments when it has any, otherwise every active
    student-role profile of the subject's legacy branch. */
module Roster {
  import opened Wrappers
  import opened Schema
  import Js
  import Seqs
  import Access
  import Ordering

  /** A roster line: an enrolment, or a stand-in built for a branch student. */
  datatype Entry = Entry(
    id: Id,
    studentId: Id,
    subjectId: Id,
    isActive: bool,
    profile: Option<Profile>)

  /** The profile joined to an enrolment through `student_id`, if visible. */
  function ProfileOf(profiles: seq<Profile>, id: Id): (r: Option<Profile>)
    ensures r.Some? ==> r.value in profiles && r.value.id == id
    ensures r.None? ==> forall i :: 0 <= i < |profiles| ==> profiles[i].id != id
    decreases |profiles|
  {
    if |profiles| == 0 then None
    else if profiles[0].id == id then Some(profiles[0])
    else ProfileOf(profiles[1..], id)
  }

  /** The active enrolments of the subject, in table order. */
  function ActiveEnrollments(enrollments: seq<Enrollment>, subjectId: Id): seq<Enrollment> {
    Seqs.Filter(enrollments, (e: Enrollment) => e.subjectId == subjectId && e.isActive)
  }

  /** The users holding the student role; a failed role query gives none. */
  function StudentIds(roleRows: Option<seq<RoleRow>>): (ids: set<Id>)
    ensures forall u :: u in ids <==> roleRows.Some? && exists i :: 0 <= i < |roleRows.value| && roleRows.value[i] == RoleRow(u, Student)
  {
    if roleRows.None? then {}
    else set i | 0 <= i < |roleRows.value| && roleRows.value[i].role == Student :: roleRows.value[i].userId
  }

  /** A profile the branch fallback takes. */
  predicate InBranchAsStudent(p: Profile, branchId: Id, studentIds: set<Id>) {
    p.branchId == Some(branchId) && p.isActive && p.id in studentIds
  }

  /** The id given to a stand-in entry. */
  function StandInId(profileId: Id): (id: Id)
    ensures |id| == |profileId| + 7 && id[7..] == profileId
  {
    "branch-" + profileId
  }

  function FromEnrollment(e: Enrollment, profiles: seq<Profile>): Entry {
    Entry(e.id, e.studentId, e.subjectId, e.isActive, ProfileOf(profiles, e.studentId))
  }

  function FromProfile(p: Profile, subjectId: Id): Entry {
    Entry(StandInId(p.id), p.id, subjectId, true, Some(p))
  }

  /** One roster line per active enrolment, in order, with the joined
      profile. */
  function FromEnrollments(active: seq<Enrollment>, profiles: seq<Profile>): (r: seq<Entry>)
    ensures |r| == |active|
    ensures forall i :: 0 <= i < |r| ==>
      && r[i].id == active[i].id && r[i].studentId == active[i].studentId
      && r[i].subjectId == active[i].subjectId && r[i].isActive == active[i].isActive
      && r[i].profile == ProfileOf(profiles, active[i].studentId)
  {
    seq(|active|, i requires 0 <= i < |active| => FromEnrollment(active[i], profiles))
  }

  /** The profiles the branch fallback takes, in profile order. */
  function BranchMembers(profiles: seq<Profile>, branchId: Id, ids: set<Id>): (m: seq<Profile>)
    ensures forall p :: p in m <==> p in profiles && InBranchAsStudent(p, branchId, ids)
  {
    Seqs.Filter(profiles, (p: Profile) => InBranchAsStudent(p, branchId, ids))
  }

  /** The branch fallback: a stand-in line for every active student-role
      profile of the branch, in profile order. */
  function BranchFallback(branchId: Id, profiles: seq<Profile>, ids: set<Id>, subjectId: Id): (r: seq<Entry>)
    ensures forall i :: 0 <= i < |r| ==>
      && r[i].subjectId == subjectId && r[i].isActive
      && r[i].id == StandInId(r[i].studentId)
      && r[i].profile.Some?
      && r[i].profile.value in profiles
      && r[i].profile.value.id == r[i].studentId
      && InBranchAsStudent(r[i].profile.value, branchId, ids)
    ensures forall p :: p in profiles && InBranchAsStudent(p, branchId, ids) ==>
      exists i :: 0 <= i < |r| && r[i].profile == Some(p)
    ensures |r| == |BranchMembers(profiles, branchId, ids)|
    ensures forall i :: 0 <= i < |r| ==> r[i].profile == Some(BranchMembers(profiles, branchId, ids)[i])
  {
    var members := BranchMembers(profiles, branchId, ids);
    var r := seq(|members|, i requires 0 <= i < |members| => FromProfile(members[i], subjectId));
    assert forall p :: p in profiles && InBranchAsStudent(p, branchId, ids) ==>
      exists i :: 0 <= i < |r| && r[i].profile == Some(p) by {
      forall p | p in profiles && InBranchAsStudent(p, branchId, ids)
        ensures exists i :: 0 <= i < |r| && r[i].profile == Some(p)
      {
        assert p in members;
        var i :| 0 <= i < |members| && members[i] == p;
        assert r[i].profile == Some(p);
      }
    }
    r
  }

  /** The text raised when the subject lookup finds no row. */
  const SubjectMissing: string := "subject not found"

  /** The roster falls back to the subject's branch: no active enrolment,
      and the subject names a branch. */
  predicate FallsBack(subjects: map<Id, Subject>, subjectId: Id, enrollments: seq<Enrollment>)
    requires subjectId in subjects
  {
    |ActiveEnrollments(enrollments, subjectId)| == 0 && Js.Truthy(subjects[subjectId].branchId)
  }

  /** Resolving the roster raises an error: the subject select fails or
      finds no row, the enrolment select fails, or the fallback's profile
      select fails. */
  predicate ResolveFails(
    subjects: map<Id, Subject>,
    subjectId: Id,
    enrollments: seq<Enrollment>,
    subjectFailure: Option<string>,
    enrollFailure: Option<string>,
    branchFailure: Option<string>)
  {
    || subjectFailure.Some?
    || subjectId !in subjects
    || enrollFailure.Some?
    || (FallsBack(subjects, subjectId, enrollments) && branchFailure.Some?)
  }

  /** The roster before summaries are attached. The subject lookup, the
      enrolment select and (on the fallback path only) the branch profile
      select run in that order, and the first one that fails raises its
      error; `subjectFailure`, `enrollFailure` and `branchFailure` are what
      the three selects report, and a lookup that finds no row fails too. The role select never fails the roster: without its rows
      the fallback finds no student. */
  function Resolve(
    subjects: map<Id, Subject>,
    subjectId: Id,
    enrollments: seq<Enrollment>,
    profiles: seq<Profile>,
    roleRows: Option<seq<RoleRow>>,
    subjectFailure: Option<string>,
    enrollFailure: Option<string>,
    branchFailure: Option<string>): (r: Result<seq<Entry>, string>)
    ensures r.Err? <==> ResolveFails(subjects, subjectId, enrollments, subjectFailure, enrollFailure, branchFailure)
    ensures subjectFailure.Some? ==> r == Err(subjectFailure.value)
    ensures subjectFailure.None? && subjectId !in subjects ==> r == Err(SubjectMissing)
    ensures subjectFailure.None? && subjectId in subjects && enrollFailure.Some? ==> r == Err(enrollFailure.value)
    ensures subjectFailure.None? && subjectId in subjects && enrollFailure.None? && FallsBack(subjects, subjectId, enrollments) && branchFailure.Some? ==>
      r == Err(branchFailure.value)
    ensures r.Ok? ==> forall i :: 0 <= i < |r.value| ==> r.value[i].subjectId == subjectId && r.value[i].isActive
    ensures r.Ok? && |ActiveEnrollments(enrollments, subjectId)| > 0 ==>
      && |r.value| == |ActiveEnrollments(enrollments, subjectId)|
      && forall i :: 0 <= i < |r.value| ==>
        var e := ActiveEnrollments(enrollments, subjectId)[i];
        && e in enrollments && r.value[i].id == e.id && r.value[i].studentId == e.studentId
        && r.value[i].profile == ProfileOf(profiles, e.studentId)
    ensures r.Ok? && |ActiveEnrollments(enrollments, subjectId)| == 0 && !Js.Truthy(subjects[subjectId].branchId) ==>
      r.value == []
    ensures r.Ok? && FallsBack(subjects, subjectId, enrollments) ==>
      var members := BranchMembers(profiles, subjects[subjectId].branchId.value, StudentIds(roleRows));
      && |r.value| == |members|
      && (forall i :: 0 <= i < |r.value| ==>
        && r.value[i].id == StandInId(r.value[i].studentId)
        && r.value[i].profile == Some(members[i])
        && members[i].id == r.value[i].studentId)
  {
    if subjectFailure.Some? then Err(subjectFailure.value)
    else if subjectId !in subjects then Err(SubjectMissing)
    else if enrollFailure.Some? then Err(enrollFailure.value)
    else
      var active := ActiveEnrollments(enrollments, subjectId);
      var branch := subjects[subjectId].branchId;
      if |active| > 0 then Ok(FromEnrollments(active, profiles))
      else if Js.Truthy(branch) then
        if branchFailure.Some? then Err(branchFailure.value)
        else Ok(BranchFallback(branch.value, profiles, StudentIds(roleRows), subjectId))
      else Ok([])
  }

  /** Enrolling a student in an existing subject puts the student on that
      subject's roster under the new enrolment's id, once the selects
      succeed; without the subject row the roster fails. */
  lemma EnrolledStudentIsOnRoster(
    subjects: map<Id, Subject>,
    subjectId: Id,
    enrollments: seq<Enrollment>,
    profiles: seq<Profile>,
    roleRows: Option<seq<RoleRow>>,
    id: Id,
    studentId: Id,
    academicYear: Option<string>)
    ensures var r := Resolve(subjects, subjectId, enrollments + [Access.EnrollmentRecord(id, studentId, subjectId, academicYear)], profiles, roleRows, None, None, None);
      && (r.Ok? <==> subjectId in subjects)
      && (r.Ok? ==> exists i :: 0 <= i < |r.value| && r.value[i].id == id && r.value[i].studentId == studentId)
  {
    var e := Access.EnrollmentRecord(id, studentId, subjectId, academicYear);
    var es := enrollments + [e];
    var active := ActiveEnrollments(es, subjectId);
    assert e in es && e.subjectId == subjectId && e.isActive;
    assert e in active;
    var k :| 0 <= k < |active| && active[k] == e;
    var r := Resolve(subjects, subjectId, es, profiles, roleRows, None, None, None);
    if r.Ok? {
      assert r.value[k].id == id && r.value[k].studentId == studentId;
    }
  }

  /** The roster reads only the subject's own `branch_id`: a subject row
      that differs in anything else (its name, code, or the further branches
      the junction table links it to) yields the same roster. */
  lemma RosterDependsOnlyOnBranchId(
    subjects: map<Id, Subject>,
    subjectId: Id,
    enrollments: seq<Enrollment>,
    profiles: seq<Profile>,
    roleRows: Option<seq<RoleRow>>,
    subjectFailure: Option<string>,
    enrollFailure: Option<string>,
    branchFailure: Option<string>,
    other: Subject)
    requires subjectId in subjects
    requires other.branchId == subjects[subjectId].branchId
    ensures Resolve(subjects, subjectId, enrollments, profiles, roleRows, subjectFailure, enrollFailure, branchFailure)
         == Resolve(subjects[subjectId := other], subjectId, enrollments, profiles, roleRows, subjectFailure, enrollFailure, branchFailure)
  {
  }

  // ---------------------------------------------------------------------
  // Attaching summaries

  /** `useEnrolledStudents`: each entry with its summary, or none. */
  datatype MarkingLine = MarkingLine(entry: Entry, summary: Option<Access.AttendanceSummary>)

  /** `useSubjectStudents`: each entry with its summary or the default one. */
  datatype SubjectLine = SubjectLine(entry: Entry, summary: Access.AttendanceSummary)

  /** The summary shown for a student the summary table has no row for. */
  function DefaultSummary(studentId: Id, subjectId: Id): (s: Access.AttendanceSummary)
    ensures s.percentage == Some(0.0) && s.accessStatus == Some(Access.Allowed)
    ensures s.totalClasses == Some(0) && s.classesAttended == Some(0)
  {
    Access.AttendanceSummary(studentId, subjectId, Some(0), Some(0), Some(0.0), Some(Access.Allowed))
  }

  /** The default summary contradicts the classifier: 0% would be blocked. */
  lemma DefaultSummaryDisagrees(studentId: Id, subjectId: Id)
    ensures DefaultSummary(studentId, subjectId).accessStatus == Some(Access.Allowed)
    ensures Access.Classify(DefaultSummary(studentId, subjectId).percentage.value) == Access.Blocked
  {
  }

  /** The lines of the attendance-marking roster. */
  function EnrolledStudents(entries: seq<Entry>, summaryOf: Id -> Option<Access.AttendanceSummary>): (r: seq<MarkingLine>)
    ensures |r| == |entries|
    ensures forall i :: 0 <= i < |r| ==> r[i].entry == entries[i] && r[i].summary == summaryOf(entries[i].studentId)
  {
    seq(|entries|, i requires 0 <= i < |entries| => MarkingLine(entries[i], summaryOf(entries[i].studentId)))
  }

  /** The lines of the subject page; `summary || default` keeps any row the
      query returned, since a row object is never falsy. */
  function SubjectStudents(entries: seq<Entry>, subjectId: Id, summaryOf: Id -> Option<Access.AttendanceSummary>): (r: seq<SubjectLine>)
    ensures |r| == |entries|
    ensures forall i :: 0 <= i < |r| ==> r[i].entry == entries[i]
    ensures forall i :: 0 <= i < |r| ==>
      r[i].summary == summaryOf(entries[i].studentId).GetOr(DefaultSummary(entries[i].studentId, subjectId))
  {
    seq(|entries|, i requires 0 <= i < |entries| =>
      SubjectLine(entries[i], summaryOf(entries[i].studentId).GetOr(DefaultSummary(entries[i].studentId, subjectId))))
  }

  /** The two copies show the same students in the same order, and the same
      summary wherever one exists; they differ only for students without one. */
  lemma CopiesAgree(entries: seq<Entry>, subjectId: Id, summaryOf: Id -> Option<Access.AttendanceSummary>)
    ensures var a := EnrolledStudents(entries, summaryOf);
      var b := SubjectStudents(entries, subjectId, summaryOf);
      && |a| == |b|
      && (forall i :: 0 <= i < |a| ==> a[i].entry == b[i].entry)
      && (forall i :: 0 <= i < |a| ==> (a[i].summary.Some? ==> b[i].summary == a[i].summary.value))
      && (forall i :: 0 <= i < |a| ==> (a[i].summary.None? ==> b[i].summary == DefaultSummary(a[i].entry.studentId, subjectId)))
  {
  }

  /** The whole `useEnrolledStudents` query: no query (`None`) without a
      subject id, otherwise the resolved roster with summaries. A failed
      summary select only leaves that line without a summary. */
  function EnrolledStudentsQuery(
    subjects: map<Id, Subject>,
    subjectId: Option<Id>,
    enrollments: seq<Enrollment>,
    profiles: seq<Profile>,
    roleRows: Option<seq<RoleRow>>,
    subjectFailure: Option<string>,
    enrollFailure: Option<string>,
    branchFailure: Option<string>,
    summaryOf: Id -> Option<Access.AttendanceSummary>): (r: Option<Result<seq<MarkingLine>, string>>)
    ensures r.Some? <==> Js.Truthy(subjectId)
    ensures r.Some? ==> (r.value.Err? <==> ResolveFails(subjects, subjectId.value, enrollments, subjectFailure, enrollFailure, branchFailure))
    ensures r.Some? && r.value.Ok? ==>
      var entries := Resolve(subjects, subjectId.value, enrollments, profiles, roleRows, subjectFailure, enrollFailure, branchFailure).value;
      && |r.value.value| == |entries|
      && forall i :: 0 <= i < |entries| ==>
        r.value.value[i].entry == entries[i] && r.value.value[i].summary == summaryOf(entries[i].studentId)
  {
    if !Js.Truthy(subjectId) then None
    else match Resolve(subjects, subjectId.value, enrollments, profiles, roleRows, subjectFailure, enrollFailure, branchFailure)
      case Err(e) => Some(Err(e))
      case Ok(entries) => Some(Ok(EnrolledStudents(entries, summaryOf)))
  }

  /** A subject's name as a sort key; the column is never null. */
  function SubjectName(s: Subject): Option<string> {
    Some(s.name)
  }

  /** `useSubjects`: all subjects, ordered by name; a failed query is
      raised. */
  function SubjectsByName(subjects: Result<seq<Subject>, string>): (r: Result<seq<Subject>, string>)
    ensures r.Ok? <==> subjects.Ok?
    ensures r.Ok? ==> multiset(r.value) == multiset(subjects.value)
    ensures r.Ok? ==> forall i :: 0 < i < |r.value| ==> Ordering.LexLe(r.value[i - 1].name, r.value[i].name)
  {
    match subjects
    case Err(e) => Err(e)
    case Ok(ss) =>
      Ordering.ByTextTotal(SubjectName);
      var sorted := Ordering.Sort(ss, Ordering.ByText(SubjectName));
      assert forall i :: 0 < i < |sorted| ==> Ordering.LexLe(sorted[i - 1].name, sorted[i].name) by {
        forall i | 0 < i < |sorted|
          ensures Ordering.LexLe(sorted[i - 1].name, sorted[i].name)
        {
          var a, b := sorted[i - 1], sorted[i];
          assert Ordering.ByText(SubjectName)(a, b);
          assert Ordering.ByText(SubjectName)(a, b) == (SubjectName(b).None? || (SubjectName(a).Some? && Ordering.LexLe(SubjectName(a).value, SubjectName(b).value)));
        }
      }
      Ok(sorted)
  }
}

=== FILE: schema.dfy ===
/** Rows of the tables that several parts of the application read: profiles,
    role assignments, subjects, their branch links and enrollments. */
module Schema {
  import opened Wrappers

  /** Row identifiers (UUIDs in the database) are opaque strings. */
  type Id = string

  /** The `app_role` enumeration. */
  datatype Role = SuperAdmin | Teacher | Student

  /** A `profiles` row. */
  datatype Profile = Profile(
    id: Id,
    email: string,
    fullName: Option<string>,
    branchId: Option<Id>,
    isActive: bool)

  /** A `user_roles` row. */
  datatype RoleRow = RoleRow(userId: Id, role: Role)

  /** A `subjects` row. */
  datatype Subject = Subject(
    id: Id,
    name: string,
    code: string,
    branchId: Option<Id>,
    isActive: bool)

  /** A `subject_branches` junction row. */
  datatype SubjectBranch = SubjectBranch(subjectId: Id, branchId: Id, isActive: bool)

  /** An `enrollments` row. */
  datatype Enrollment = Enrollment(
    id: Id,
    studentId: Id,
    subjectId: Id,
    academicYear: Option<string>,
    isActive: bool)

  /** The academic year written when a caller supplies none. */
  const DefaultAcademicYear: string := "2024-25"
}

=== FILE: seqs.dfy ===
/** Order-preserving selection over sequences: the `Array.prototype.filter`
    of the source and the row filters of its queries. */
module Seqs {

  /** The elements of `s` satisfying `f`, in their original order. */
  function Filter<T(==,!new)>(s: seq<T>, f: T -> bool): (r: seq<T>)
    ensures |r| <= |s|
    ensures forall x :: x in r <==> x in s && f(x)
    ensures forall i :: 0 <= i < |r| ==> r[i] in s && f(r[i])
    decreases |s|
  {
    if |s| == 0 then []
    else if f(s[0]) then [s[0]] + Filter(s[1..], f)
    else Filter(s[1..], f)
  }

  /** Filtering keeps every survivor as often as `s` holds it and drops
      every other value entirely. */
  lemma {:induction false} FilterMultiplicity<T(!new)>(s: seq<T>, f: T -> bool)
    ensures forall x :: multiset(Filter(s, f))[x] == if f(x) then multiset(s)[x] else 0
    decreases |s|
  {
    if |s| > 0 {
      FilterMultiplicity(s[1..], f);
      assert s == [s[0]] + s[1..];
    }
  }

  /** `r` can be obtained from `s` by deleting elements. */
  predicate IsSubseq<T(==)>(r: seq<T>, s: seq<T>)
    decreases |s|
  {
    if |r| == 0 then true
    else if |s| == 0 then false
    else (r[0] == s[0] && IsSubseq(r[1..], s[1..])) || IsSubseq(r, s[1..])
  }

  /** Filtering keeps the survivors in their original relative order. */
  lemma {:induction false} FilterIsSubseq<T(!new)>(s: seq<T>, f: T -> bool)
    ensures IsSubseq(Filter(s, f), s)
    decreases |s|
  {
    if |s| > 0 {
      FilterIsSubseq(s[1..], f);
      if f(s[0]) {
        assert Filter(s, f)[1..] == Filter(s[1..], f);
      }
    }
  }

  /** A filter that rejects nothing returns its input unchanged. */
  lemma {:induction false} FilterAll<T(!new)>(s: seq<T>, f: T -> bool)
    requires forall i :: 0 <= i < |s| ==> f(s[i])
    ensures Filter(s, f) == s
    decreases |s|
  {
    if |s| > 0 {
      FilterAll(s[1..], f);
    }
  }

  /** A filter that accepts nothing returns the empty sequence. */
  lemma {:induction false} FilterNone<T(!new)>(s: seq<T>, f: T -> bool)
    requires forall i :: 0 <= i < |s| ==> !f(s[i])
    ensures Filter(s, f) == []
    decreases |s|
  {
    if |s| > 0 {
      FilterNone(s[1..], f);
    }
  }

  /** Filters that agree on every element of `s` select the same elements. */
  lemma {:induction false} FilterCongruent<T(!new)>(s: seq<T>, f: T -> bool, g: T -> bool)
    requires forall i :: 0 <= i < |s| ==> f(s[i]) == g(s[i])
    ensures Filter(s, f) == Filter(s, g)
    decreases |s|
  {
    if |s| > 0 {
      FilterCongruent(s[1..], f, g);
    }
  }

  /** Nothing is counted exactly when no element satisfies `f`. */
  lemma CountZero<T(!new)>(s: seq<T>, f: T -> bool)
    ensures Count(s, f) == 0 <==> forall i :: 0 <= i < |s| ==> !f(s[i])
  {
    var r := Filter(s, f);
    if |r| > 0 {
      assert r[0] in s && f(r[0]);
    }
    if i :| 0 <= i < |s| && f(s[i]) {
      assert s[i] in r;
    }
  }

  /** Number of elements of `s` satisfying `f`. */
  function Count<T(==,!new)>(s: seq<T>, f: T -> bool): (n: nat)
    ensures n == |Filter(s, f)|
    decreases |s|
  {
    if |s| == 0 then 0
    else (if f(s[0]) then 1 else 0) + Count(s[1..], f)
  }

  /** Replacing one element that satisfies `f` by one that does not lowers
      the count by exactly one. */
  lemma {:induction false} CountUpdate<T(!new)>(s: seq<T>, f: T -> bool, k: nat, x: T)
    requires k < |s| && f(s[k]) && !f(x)
    ensures Count(s[k := x], f) + 1 == Count(s, f)
    decreases k
  {
    var t := s[k := x];
    if k == 0 {
      assert t[0] == x && t[1..] == s[1..];
      assert Count(t, f) == Count(s[1..], f);
    } else {
      CountUpdate(s[1..], f, k - 1, x);
      assert t[0] == s[0] && t[1..] == s[1..][k - 1 := x];
      assert Count(t, f) == (if f(s[0]) then 1 else 0) + Count(s[1..][k - 1 := x], f);
    }
  }
}

=== FILE: storage.dfy ===
/** Object paths in the file buckets: an uploaded file is stored under a
    folder of its owner, a timestamp (plus a random tag for shared buckets)
    and the extension of the original file name. */
module Storage {
  import Js

  /** An uploaded file as the browser describes it. */
  datatype FileInfo = FileInfo(name: string, size: nat)

  /** `name.split('.').pop()`: the text after the last dot, or the whole name
      when it has none. */
  function Extension(name: string): (ext: string)
    ensures '.' !in ext
    ensures |ext| <= |name| && ext == name[|name| - |ext|..]
    ensures |ext| < |name| ==> name[|name| - |ext| - 1] == '.'
  {
    Js.AfterLast(name, '.')
  }

  /** The extension of a dotted name is read back exactly; a name without a
      dot is its own extension. */
  lemma ExtensionOf(base: string, ext: string)
    requires '.' !in ext
    ensures Extension(base + "." + ext) == ext
    ensures Extension(ext) == ext
  {
    Js.AfterLastOf(base, '.', ext);
    Js.AfterLastNoSeparator(ext, '.');
  }

  /** `${stem}.${ext}`: a generated stem followed by the file's extension. */
  function WithExtension(stem: string, file: FileInfo): string {
    stem + "." + Extension(file.name)
  }

  /** The stored object keeps the uploaded file's extension and starts with
      its stem. */
  lemma WithExtensionShape(stem: string, file: FileInfo)
    ensures Extension(WithExtension(stem, file)) == Extension(file.name)
    ensures WithExtension(stem, file)[..|stem|] == stem
  {
    var ext := Extension(file.name);
    ExtensionOf(stem, ext);
    PrefixOfConcat(stem + ".", ext, |stem|);
    PrefixOfConcat(stem, ".", |stem|);
  }

  /** `${folder}${name}.${ext}`: an object in `folder` that keeps the
      file's extension. */
  function InFolder(folder: string, name: string, file: FileInfo): (p: string)
    ensures |p| > |folder| && p[..|folder|] == folder
    ensures Extension(p) == Extension(file.name)
  {
    KeepsFolder(folder, name, file);
    WithExtension(folder + name, file)
  }

  /** `${subjectId}/${Date.now()}-${tag}.${ext}` in the `resources` bucket:
      the object lies in its subject's folder and keeps the file's
      extension. */
  function ResourcePath(subjectId: string, timestamp: nat, tag: string, file: FileInfo): (p: string)
    ensures |p| > |subjectId| + 1 && p[..|subjectId| + 1] == subjectId + "/"
    ensures Extension(p) == Extension(file.name)
  {
    InFolder(subjectId + "/", Js.ShowNat(timestamp) + "-" + tag, file)
  }

  /** `assignments/${subjectId}/${Date.now()}-${tag}.${ext}`: an assignment
      attachment, in the same bucket as resources, under `assignments/` and
      then the subject's folder, keeping the file's extension. */
  function AttachmentPath(subjectId: string, timestamp: nat, tag: string, file: FileInfo): (p: string)
    ensures |p| > |subjectId| + 13 && p[..|subjectId| + 13] == "assignments/" + subjectId + "/"
    ensures Extension(p) == Extension(file.name)
  {
    InFolder("assignments/" + subjectId + "/", Js.ShowNat(timestamp) + "-" + tag, file)
  }

  /** `${studentId}/${assignmentId}/${Date.now()}.${ext}` in the `assignments`
      bucket: the object lies in the student's folder, then the
      assignment's, and keeps the file's extension. */
  function SubmissionPath(studentId: string, assignmentId: string, timestamp: nat, file: FileInfo): (p: string)
    ensures var folder := studentId + "/" + assignmentId + "/"; |p| > |folder| && p[..|folder|] == folder
    ensures Extension(p) == Extension(file.name)
  {
    InFolder(studentId + "/" + assignmentId + "/", Js.ShowNat(timestamp), file)
  }

  lemma Associative(a: string, b: string, c: string)
    ensures a + (b + c) == (a + b) + c
  {
  }

  /** Cutting a concatenation inside its first part. */
  lemma PrefixOfConcat(a: string, b: string, k: nat)
    requires k <= |a|
    ensures (a + b)[..k] == a[..k]
  {
  }

  /** A stem that starts with a folder gives an object in that folder with
      the file's extension. */
  lemma KeepsFolder(folder: string, rest: string, file: FileInfo)
    ensures |WithExtension(folder + rest, file)| > |folder + rest|
    ensures WithExtension(folder + rest, file)[..|folder|] == folder
    ensures Extension(WithExtension(folder + rest, file)) == Extension(file.name)
  {
    var stem := folder + rest;
    var ext := Extension(file.name);
    ExtensionOf(stem, ext);
    PrefixOfConcat(stem + ".", ext, |folder|);
    PrefixOfConcat(stem, ".", |folder|);
    PrefixOfConcat(folder, rest, |folder|);
  }

  /** An attachment is a resource path moved into the `assignments/` folder. */
  lemma AttachmentIsPrefixedResource(subjectId: string, timestamp: nat, tag: string, file: FileInfo)
    ensures AttachmentPath(subjectId, timestamp, tag, file) == "assignments/" + ResourcePath(subjectId, timestamp, tag, file)
  {
    var name := Js.ShowNat(timestamp) + "-" + tag;
    var ext := Extension(file.name);
    Associative("assignments/", subjectId, "/");
    Associative("assignments/", subjectId + "/", name);
    Associative("assignments/", subjectId + "/" + name + ".", ext);
    Associative("assignments/", subjectId + "/" + name, ".");
  }
}

=== FILE: student_views.dfy ===
/** What a student sees of their attendance, and the teachers' marking
    sheet: the dashboard's overview (`StudentDashboard`), the progress bar
    it draws (`AttendanceProgressBar`), the "My Attendance" page and the
    "Attendance" page. Each of these draws the allowed / at-risk / blocked
    line in its own way; the lemmas here say where they agree and where
    they do not. */
module StudentViews {
  import opened Wrappers
  import opened Schema
  import Seqs
  import Ordering
  import Access
  import AttendanceStore
  import Assignments

  // ---------------------------------------------------------------------
  // The progress bar

  /** The fill colours of the bar (`bg-destructive`, `bg-yellow-500`,
      `bg-green-500`). */
  datatype Colour = Destructive | Yellow | Green

  /** `getStatusColor`: the status and the percentage are checked together,
      blocked first. */
  function BarColour(status: Option<Access.AccessStatus>, p: real): (c: Colour)
    ensures c == Destructive <==> status == Some(Access.Blocked) || p < Access.HardFloor
    ensures c == Green <==>
      status != Some(Access.Blocked) && status != Some(Access.AtRisk) && Access.MinimumAttendance <= p
  {
    if status == Some(Access.Blocked) || p < 65.0 then Destructive
    else if status == Some(Access.AtRisk) || p < 75.0 then Yellow
    else Green
  }

  /** `getStatusLabel`: the text shown next to the bar. */
  function BarLabel(status: Option<Access.AccessStatus>, p: real): (l: string)
    ensures l == "Blocked" <==> status == Some(Access.Blocked) || p < Access.HardFloor
    ensures l == "At Risk" <==>
      !(status == Some(Access.Blocked) || p < Access.HardFloor)
      && (status == Some(Access.AtRisk) || p < Access.MinimumAttendance)
    ensures l == "Allowed" <==>
      status != Some(Access.Blocked) && status != Some(Access.AtRisk) && Access.MinimumAttendance <= p
  {
    if status == Some(Access.Blocked) || p < 65.0 then "Blocked"
    else if status == Some(Access.AtRisk) || p < 75.0 then "At Risk"
    else "Allowed"
  }

  /** The label each band carries. */
  function LabelText(s: Access.AccessStatus): string {
    match s
    case Allowed => "Allowed"
    case AtRisk => "At Risk"
    case Blocked => "Blocked"
  }

  /** The colour each band carries. */
  function ColourOf(s: Access.AccessStatus): Colour {
    match s
    case Allowed => Green
    case AtRisk => Yellow
    case Blocked => Destructive
  }

  /** The stricter of two statuses. */
  function Stricter(a: Access.AccessStatus, b: Access.AccessStatus): (s: Access.AccessStatus)
    ensures s == a || s == b
    ensures Access.Severity(a) <= Access.Severity(s) && Access.Severity(b) <= Access.Severity(s)
  {
    if Access.Severity(a) >= Access.Severity(b) then a else b
  }

  /** The band the bar shows is the stricter of the band of the status it
      is given (none counts as allowed) and the band the percentage earns by
      itself; colour and label both follow that band. */
  lemma BarIsStricterBand(status: Option<Access.AccessStatus>, p: real)
    ensures var band := Stricter(status.GetOr(Access.Allowed), Access.Classify(p));
      BarLabel(status, p) == LabelText(band) && BarColour(status, p) == ColourOf(band)
  {
  }

  /** Colour and label always pick the same band. */
  lemma ColourMatchesLabel(status: Option<Access.AccessStatus>, p: real)
    ensures BarColour(status, p) == Destructive <==> BarLabel(status, p) == "Blocked"
    ensures BarColour(status, p) == Yellow <==> BarLabel(status, p) == "At Risk"
    ensures BarColour(status, p) == Green <==> BarLabel(status, p) == "Allowed"
  {
    BarIsStricterBand(status, p);
  }

  /** A status can make the bar stricter than its percentage but never more
      lenient: an "allowed" status does not lift a low percentage. */
  lemma StatusCannotLift(status: Option<Access.AccessStatus>, p: real)
    ensures p < Access.MinimumAttendance ==> BarLabel(status, p) != "Allowed"
    ensures p < Access.HardFloor ==> BarLabel(status, p) == "Blocked"
    ensures status.None? ==> BarLabel(status, p) == LabelText(Access.Classify(p))
  {
  }

  /** `Math.min(percentage, 100)`: the fill width in percent. */
  function BarWidth(p: real): (w: real)
    ensures w <= 100.0 && w <= p
    ensures w == p || w == 100.0
  {
    if p < 100.0 then p else 100.0
  }

  /** Where the bar draws its threshold line, in percent of its width. */
  const ThresholdMarker: real := 75.0

  // ---------------------------------------------------------------------
  // The student dashboard

  /** An `enrollments` row read with its subject (`subject:subjects(*)`);
      the join yields no subject when the referenced row is not visible. */
  datatype EnrolledRow = EnrolledRow(enrollment: Enrollment, subject: Option<Subject>)

  /** A subject card: the subject and the summary found for it. */
  datatype SubjectCard = SubjectCard(subject: Option<Subject>, attendance: Option<Access.AttendanceSummary>)

  /** `summaries.find(s => s.subject_id === e.subject?.id)`: the first
      summary of the subject; a missing subject matches nothing. */
  function FindSummary(summaries: seq<Access.AttendanceSummary>, subject: Option<Subject>): (r: Option<Access.AttendanceSummary>)
    ensures r.None? <==> subject.None? || forall i :: 0 <= i < |summaries| ==> summaries[i].subjectId != subject.value.id
    ensures r.Some? ==> exists i :: (0 <= i < |summaries| && summaries[i] == r.value
      && summaries[i].subjectId == subject.value.id
      && forall j :: 0 <= j < i ==> summaries[j].subjectId != subject.value.id)
    decreases |summaries|
  {
    if subject.None? || |summaries| == 0 then None
    else if summaries[0].subjectId == subject.value.id then Some(summaries[0])
    else
      var r := FindSummary(summaries[1..], subject);
      if r.Some? then
        ghost var i :| 0 <= i < |summaries[1..]| && summaries[1..][i] == r.value
          && summaries[1..][i].subjectId == subject.value.id
          && forall j :: 0 <= j < i ==> summaries[1..][j].subjectId != subject.value.id;
        assert summaries[i + 1] == r.value;
        r
      else r
  }

  /** Every percentage, a missing one read as 0, is between 0 and 100. */
  predicate PercentagesInRange(ss: seq<Access.AttendanceSummary>) {
    forall i :: 0 <= i < |ss| ==> 0.0 <= ss[i].percentage.GetOr(0.0) <= 100.0
  }

  /** Σ `attendance_percentage || 0`: percentages each between 0 and 100
      sum to between 0 and 100 times the number of summaries. */
  function SumPercent(ss: seq<Access.AttendanceSummary>): (r: real)
    ensures PercentagesInRange(ss) ==> 0.0 <= r <= 100.0 * |ss| as real
    decreases |ss|
  {
    if |ss| == 0 then 0.0 else SumPercent(ss[..|ss| - 1]) + ss[|ss| - 1].percentage.GetOr(0.0)
  }

  /** The `reduce` adds from the first summary on; the sum is the same
      taken from the front. */
  lemma {:induction false} SumPercentFromFront(ss: seq<Access.AttendanceSummary>)
    requires |ss| > 0
    ensures SumPercent(ss) == ss[0].percentage.GetOr(0.0) + SumPercent(ss[1..])
    decreases |ss|
  {
    if |ss| > 1 {
      SumPercentFromFront(ss[..|ss| - 1]);
      assert ss[..|ss| - 1][1..] == ss[1..][..|ss[1..]| - 1];
    }
  }

  /** The dashboard's overview: the overall figure, its status and the
      subject cards. */
  datatype Overview = Overview(overall: real, status: Access.AccessStatus, cards: seq<SubjectCard>)

  /** The overview before anything is loaded. */
  const Initial: Overview := Overview(0.0, Access.Allowed, [])

  /** The rows of the enrollment query: the student's active enrollments. */
  function ActiveOf(rows: seq<EnrolledRow>, studentId: Id): (r: seq<EnrolledRow>)
    ensures forall e :: e in r <==> e in rows && e.enrollment.studentId == studentId && e.enrollment.isActive
  {
    Seqs.Filter(rows, (e: EnrolledRow) => e.enrollment.studentId == studentId && e.enrollment.isActive)
  }

  /** The rows of the summary query: all of the student's summaries. */
  function SummariesOf(rows: seq<Access.AttendanceSummary>, studentId: Id): (r: seq<Access.AttendanceSummary>)
    ensures forall s :: s in r <==> s in rows && s.studentId == studentId
  {
    Seqs.Filter(rows, (s: Access.AttendanceSummary) => s.studentId == studentId)
  }

  /** One card per enrolled row, each with its summary. */
  function Cards(enrolled: seq<EnrolledRow>, summaries: seq<Access.AttendanceSummary>): (r: seq<SubjectCard>)
    ensures |r| == |enrolled|
    ensures forall i :: 0 <= i < |r| ==>
      r[i].subject == enrolled[i].subject && r[i].attendance == FindSummary(summaries, enrolled[i].subject)
  {
    seq(|enrolled|, i requires 0 <= i < |enrolled| => SubjectCard(enrolled[i].subject, FindSummary(summaries, enrolled[i].subject)))
  }

  /** `fetchStudentData`'s attendance part. The two queries read the
      enrollment and summary tables and either return data or not
      (`enrollOk`, `summaryOk`); only when both did is anything updated. */
  function LoadOverview(
    enrollTable: seq<EnrolledRow>,
    summaryTable: seq<Access.AttendanceSummary>,
    studentId: Id,
    enrollOk: bool,
    summaryOk: bool): (o: Overview)
    ensures !(enrollOk && summaryOk) ==> o == Initial
    ensures enrollOk && summaryOk ==>
      o.cards == Cards(ActiveOf(enrollTable, studentId), SummariesOf(summaryTable, studentId))
    ensures var mine := SummariesOf(summaryTable, studentId);
      enrollOk && summaryOk && |mine| > 0 ==>
        && o.overall == SumPercent(mine) / |mine| as real
        && o.status == Access.Classify(o.overall)
    ensures enrollOk && summaryOk && |SummariesOf(summaryTable, studentId)| == 0 ==>
      o.overall == 0.0 && o.status == Access.Allowed
  {
    if !(enrollOk && summaryOk) then Initial
    else
      var mine := SummariesOf(summaryTable, studentId);
      var cards := Cards(ActiveOf(enrollTable, studentId), mine);
      if |mine| > 0 then
        var avg := SumPercent(mine) / |mine| as real;
        Overview(avg, if avg < 65.0 then Access.Blocked else if avg < 75.0 then Access.AtRisk else Access.Allowed, cards)
      else Overview(0.0, Access.Allowed, cards)
  }

  /** The overall figure is a mean of percentages: with every percentage
      between 0 and 100 it is one too. */
  lemma OverallInRange(enrollTable: seq<EnrolledRow>, summaryTable: seq<Access.AttendanceSummary>, studentId: Id, enrollOk: bool, summaryOk: bool)
    requires forall i :: 0 <= i < |summaryTable| ==> 0.0 <= summaryTable[i].percentage.GetOr(0.0) <= 100.0
    ensures 0.0 <= LoadOverview(enrollTable, summaryTable, studentId, enrollOk, summaryOk).overall <= 100.0
  {
    var mine := SummariesOf(summaryTable, studentId);
    if enrollOk && summaryOk && |mine| > 0 {
      MineBounded(summaryTable, studentId);
      var o := LoadOverview(enrollTable, summaryTable, studentId, enrollOk, summaryOk);
      var n, sum := |mine| as real, SumPercent(mine);
      assert o.overall == sum / n;
      MeanBounds(n, sum);
    }
  }

  /** The student's own summaries keep the bound on each percentage. */
  lemma MineBounded(summaryTable: seq<Access.AttendanceSummary>, studentId: Id)
    requires forall i :: 0 <= i < |summaryTable| ==> 0.0 <= summaryTable[i].percentage.GetOr(0.0) <= 100.0
    ensures var mine := SummariesOf(summaryTable, studentId);
      0.0 <= SumPercent(mine) <= 100.0 * |mine| as real
  {
    var mine := SummariesOf(summaryTable, studentId);
    assert forall i :: 0 <= i < |mine| ==> mine[i] in summaryTable;
  }

  /** A mean of values between 0 and 100 lies between 0 and 100. */
  lemma MeanBounds(n: real, sum: real)
    requires n > 0.0 && 0.0 <= sum <= 100.0 * n
    ensures 0.0 <= sum / n <= 100.0
  {
  }

  /** The overall figure comes from every summary of the student, whether
      or not the subject is among the active enrollments: changing the
      enrollment table does not change it. */
  lemma OverallIgnoresEnrollments(
    e1: seq<EnrolledRow>, e2: seq<EnrolledRow>, summaryTable: seq<Access.AttendanceSummary>, studentId: Id)
    ensures LoadOverview(e1, summaryTable, studentId, true, true).overall == LoadOverview(e2, summaryTable, studentId, true, true).overall
    ensures LoadOverview(e1, summaryTable, studentId, true, true).status == LoadOverview(e2, summaryTable, studentId, true, true).status
  {
  }

  /** The mean of percentages is not the ratio of classes the student list
      uses: a student who attended all ten classes of one subject and missed
      the only class of another is blocked here and allowed there. */
  lemma MeanIsNotRatio(studentId: Id)
    ensures var ss := [
        Access.AttendanceSummary(studentId, "a", Some(10), Some(10), Some(100.0), Some(Access.Allowed)),
        Access.AttendanceSummary(studentId, "b", Some(1), Some(0), Some(0.0), Some(Access.Blocked))];
      && LoadOverview([], ss, studentId, true, true).status == Access.Blocked
      && Access.Classify(Access.OverallPercentage(ss)) == Access.Allowed
  {
    var ss := [
        Access.AttendanceSummary(studentId, "a", Some(10), Some(10), Some(100.0), Some(Access.Allowed)),
        Access.AttendanceSummary(studentId, "b", Some(1), Some(0), Some(0.0), Some(Access.Blocked))];
    assert ss[..1] == [ss[0]] && ss[..1][..0] == [];
    assert ss[1..] == [ss[1]] && ss[1..][1..] == [];
    assert SummariesOf(ss, studentId) == ss;
    assert SumPercent(ss[..1][..0]) == 0.0;
    assert SumPercent(ss[..1]) == 100.0;
    assert SumPercent(ss) == 100.0;
    assert Access.TotalClasses(ss[..1]) == 10 && Access.ClassesAttended(ss[..1]) == 10;
    assert Access.TotalClasses(ss) == 11;
    assert Access.ClassesAttended(ss) == 10;
  }

  /** The props of a subject card's bar: `attendance_percentage || 100`
      and `access_status || 'allowed'`. */
  function CardBar(card: SubjectCard): (bar: (real, Access.AccessStatus))
    ensures card.attendance.None? ==> bar == (100.0, Access.Allowed)
    ensures card.attendance.Some? ==> bar.1 == card.attendance.value.accessStatus.GetOr(Access.Allowed)
    ensures bar.0 == 100.0 || (card.attendance.Some? && card.attendance.value.percentage == Some(bar.0) && bar.0 != 0.0)
  {
    match card.attendance
    case None => (100.0, Access.Allowed)
    case Some(s) =>
      (if s.percentage.None? || s.percentage == Some(0.0) then 100.0 else s.percentage.value,
       s.accessStatus.GetOr(Access.Allowed))
  }

  /** A subject whose attendance is zero, or that has no summary yet, is
      drawn as a full bar; without a stored status it is even labelled
      "Allowed". */
  lemma ZeroAttendanceShownFull(subject: Subject, s: Access.AttendanceSummary)
    requires s.percentage == Some(0.0) && s.accessStatus.None?
    ensures CardBar(SubjectCard(Some(subject), Some(s))) == (100.0, Access.Allowed)
    ensures var bar := CardBar(SubjectCard(Some(subject), Some(s)));
      BarLabel(Some(bar.1), bar.0) == "Allowed" && BarWidth(bar.0) == 100.0
    ensures CardBar(SubjectCard(Some(subject), None)) == (100.0, Access.Allowed)
  {
  }

  /** Once the student's summaries are in, the overview's own bar agrees
      with the overview's status. */
  lemma OverallBarAgrees(enrollTable: seq<EnrolledRow>, summaryTable: seq<Access.AttendanceSummary>, studentId: Id, enrollOk: bool, summaryOk: bool)
    requires enrollOk && summaryOk && |SummariesOf(summaryTable, studentId)| > 0
    ensures var o := LoadOverview(enrollTable, summaryTable, studentId, enrollOk, summaryOk);
      BarLabel(Some(o.status), o.overall) == LabelText(o.status)
  {
    var o := LoadOverview(enrollTable, summaryTable, studentId, enrollOk, summaryOk);
    BarIsStricterBand(Some(o.status), o.overall);
  }

  /** Before the summaries are in, or when the student has none, the
      overview's bar is drawn at 0 percent and labelled "Blocked" while the
      status stays "allowed" and the resources stay unlocked. */
  lemma NoSummariesBarSaysBlocked(enrollTable: seq<EnrolledRow>, summaryTable: seq<Access.AttendanceSummary>, studentId: Id, enrollOk: bool, summaryOk: bool)
    requires !(enrollOk && summaryOk) || |SummariesOf(summaryTable, studentId)| == 0
    ensures var o := LoadOverview(enrollTable, summaryTable, studentId, enrollOk, summaryOk);
      && o.status == Access.Allowed && !ResourcesLocked(o)
      && BarLabel(Some(o.status), o.overall) == "Blocked"
  {
  }

  /** The "Classes Attended" figure: Σ `attendance?.classes_attended || 0`
      over the cards. */
  function ClassesAttendedStat(cards: seq<SubjectCard>): int
    decreases |cards|
  {
    if |cards| == 0 then 0
    else
      var last := match cards[|cards| - 1].attendance case None => 0 case Some(s) => s.classesAttended.GetOr(0);
      ClassesAttendedStat(cards[..|cards| - 1]) + last
  }

  /** The summaries the cards found, in card order. */
  function Attached(cards: seq<SubjectCard>): (ss: seq<Access.AttendanceSummary>)
    ensures |ss| <= |cards|
    ensures forall s :: s in ss <==> exists i :: 0 <= i < |cards| && cards[i].attendance == Some(s)
    decreases |cards|
  {
    if |cards| == 0 then []
    else
      var init := cards[..|cards| - 1];
      var rest := Attached(init);
      assert forall i :: 0 <= i < |init| ==> init[i] == cards[i];
      match cards[|cards| - 1].attendance
      case None => rest
      case Some(s) => rest + [s]
  }

  /** The figure is the attended-classes sum of the summaries the cards
      found, so a summary found by two cards counts twice. */
  lemma {:induction false} ClassesAttendedIsSum(cards: seq<SubjectCard>)
    ensures ClassesAttendedStat(cards) == Access.ClassesAttended(Attached(cards))
    decreases |cards|
  {
    if |cards| > 0 {
      var init := cards[..|cards| - 1];
      ClassesAttendedIsSum(init);
      match cards[|cards| - 1].attendance
      case None =>
      case Some(s) =>
        Access.SumsAppend(Attached(init), [s]);
        assert [s][..0] == [];
    }
  }

  /** The resources card: `Locked` for a blocked overview. */
  function ResourcesLocked(o: Overview): bool {
    o.status == Access.Blocked
  }

  /** Resources are locked exactly when both queries returned data, the
      student has a summary, and the mean is below the hard floor. */
  lemma LockedIffMeanBelowFloor(enrollTable: seq<EnrolledRow>, summaryTable: seq<Access.AttendanceSummary>, studentId: Id, enrollOk: bool, summaryOk: bool)
    ensures var o := LoadOverview(enrollTable, summaryTable, studentId, enrollOk, summaryOk);
      ResourcesLocked(o) <==>
        enrollOk && summaryOk && |SummariesOf(summaryTable, studentId)| > 0 && o.overall < Access.HardFloor
  {
  }

  /** The number of deadlines the dashboard lists. */
  const DeadlineLimit: nat := 5

  /** The deadlines query: assignments due from `now` on, earliest first,
      at most five; nothing restricts them to the student's subjects, and
      no data leaves the list empty. */
  function UpcomingDeadlines(rows: seq<Assignments.Assignment>, now: int, ok: bool): (r: seq<Assignments.Assignment>)
    ensures |r| <= DeadlineLimit
    ensures forall i :: 0 <= i < |r| ==> r[i] in rows && now <= r[i].dueDate
    ensures forall i, j :: 0 <= i <= j < |r| ==> r[i].dueDate <= r[j].dueDate
    ensures !ok ==> r == []
  {
    if !ok then []
    else
      var due := Ordering.SortAscending(Seqs.Filter(rows, (a: Assignments.Assignment) => now <= a.dueDate), (a: Assignments.Assignment) => a.dueDate);
      var r := AttendanceStore.Take(due, DeadlineLimit);
      assert forall i :: 0 <= i < |r| ==> r[i] == due[i] && due[i] in due;
      r
  }

  /** The list keeps the soonest deadlines: an upcoming assignment it leaves
      out is due no earlier than any it shows, and it leaves one out only
      when it is full. */
  lemma UpcomingKeepsSoonest(rows: seq<Assignments.Assignment>, now: int, a: Assignments.Assignment)
    requires a in rows && now <= a.dueDate
    requires a !in UpcomingDeadlines(rows, now, true)
    ensures |UpcomingDeadlines(rows, now, true)| == DeadlineLimit
    ensures forall i :: 0 <= i < DeadlineLimit ==> UpcomingDeadlines(rows, now, true)[i].dueDate <= a.dueDate
  {
    var due := Ordering.SortAscending(Seqs.Filter(rows, (x: Assignments.Assignment) => now <= x.dueDate), (x: Assignments.Assignment) => x.dueDate);
    var r := UpcomingDeadlines(rows, now, true);
    assert a in due;
    var k :| 0 <= k < |due| && due[k] == a;
    assert r == AttendanceStore.Take(due, DeadlineLimit);
    assert k >= DeadlineLimit;
    forall i | 0 <= i < DeadlineLimit
      ensures r[i].dueDate <= a.dueDate
    {
      assert r[i] == due[i];
    }
  }

  // ---------------------------------------------------------------------
  // The "My Attendance" page

  /** A JavaScript number as far as the page's arithmetic needs one. */
  datatype JsNumber = Finite(value: real) | NaN | Infinity | NegInfinity

  /** `a / b` on numbers: dividing by zero gives NaN for zero over zero and
      an infinity otherwise. */
  function Quotient(a: int, b: int): (q: JsNumber)
    ensures b != 0 ==> q == Finite(a as real / b as real)
    ensures b == 0 ==> (q == NaN <==> a == 0) && q.Finite? == false
  {
    if b != 0 then Finite(a as real / b as real)
    else if a == 0 then NaN
    else if a > 0 then Infinity
    else NegInfinity
  }

  /** `x * 100`. */
  function Times100(x: JsNumber): JsNumber {
    match x
    case Finite(v) => Finite(v * 100.0)
    case _ => x
  }

  /** `Math.round(x)`: the nearest integer, halves rounded up; NaN and the
      infinities are returned as they are. */
  function Round(x: JsNumber): (r: JsNumber)
    ensures x.Finite? <==> r.Finite?
    ensures x.Finite? ==> x.value - 0.5 < r.value <= x.value + 0.5 && r.value == r.value.Floor as real
    ensures !x.Finite? ==> r == x
  {
    match x
    case Finite(v) =>
      var n := (v + 0.5).Floor;
      assert n as real <= v + 0.5 < n as real + 1.0;
      Finite(n as real)
    case _ => x
  }

  /** `x >= t`: false for NaN. */
  predicate AtLeast(x: JsNumber, t: real) {
    match x
    case Finite(v) => t <= v
    case NaN => false
    case Infinity => true
    case NegInfinity => false
  }

  /** A row of the page's subject table. */
  datatype SubjectAttendance = SubjectAttendance(
    id: string, name: string, code: string, attended: int, total: int, percentage: int, status: Access.AccessStatus)

  /** Σ `attended`. */
  function AttendedSum(ss: seq<SubjectAttendance>): int
    decreases |ss|
  {
    if |ss| == 0 then 0 else AttendedSum(ss[..|ss| - 1]) + ss[|ss| - 1].attended
  }

  /** Σ `total`. */
  function TotalSum(ss: seq<SubjectAttendance>): int
    decreases |ss|
  {
    if |ss| == 0 then 0 else TotalSum(ss[..|ss| - 1]) + ss[|ss| - 1].total
  }

  datatype Stats = Stats(attended: int, total: int, percentage: JsNumber)

  /** `getOverallStats`: the sums and `Math.round(attended / total * 100)`. */
  function OverallStats(ss: seq<SubjectAttendance>): (st: Stats)
    ensures st.attended == AttendedSum(ss) && st.total == TotalSum(ss)
    ensures st.total > 0 ==> (st.percentage.Finite?
      && (st.percentage.value - 0.5) * st.total as real <= st.attended as real * 100.0
      && st.attended as real * 100.0 < (st.percentage.value + 0.5) * st.total as real)
    ensures st.total == 0 ==> !st.percentage.Finite? && (st.percentage == NaN <==> st.attended == 0)
  {
    var a := AttendedSum(ss);
    var t := TotalSum(ss);
    var p := Round(Times100(Quotient(a, t)));
    if t > 0 then
      RoundedPercentBounds(a, t);
      Stats(a, t, p)
    else Stats(a, t, p)
  }

  /** The rounded percentage is within half a point of the exact one. */
  lemma RoundedPercentBounds(a: int, t: int)
    requires t > 0
    ensures var p := Round(Times100(Quotient(a, t)));
      p.Finite? && (p.value - 0.5) * t as real <= a as real * 100.0 < (p.value + 0.5) * t as real
  {
    var q := a as real / t as real * 100.0;
    var p := Round(Times100(Quotient(a, t)));
    assert p == Round(Finite(q));
    var tr, h := t as real, a as real * 100.0;
    assert q * tr == h;
    var lo, hi := p.value - 0.5, p.value + 0.5;
    assert lo <= q < hi;
    assert lo * tr <= q * tr;
    assert q * tr < hi * tr;
    assert h < hi * tr;
  }

  /** The page's status badge: at least 75 allowed, at least 70 at risk,
      blocked otherwise, and blocked for NaN. */
  function PageStatus(p: JsNumber): (s: Access.AccessStatus)
    ensures s == Access.Allowed <==> AtLeast(p, 75.0)
    ensures s == Access.AtRisk <==> !AtLeast(p, 75.0) && AtLeast(p, 70.0)
  {
    if AtLeast(p, 75.0) then Access.Allowed
    else if AtLeast(p, 70.0) then Access.AtRisk
    else Access.Blocked
  }

  /** The message under the badge, chosen by its own comparisons. */
  function PageMessage(p: JsNumber): string {
    if AtLeast(p, 75.0) then "You have full access to all resources"
    else if AtLeast(p, 70.0) then "Warning: Your access may be restricted soon"
    else "Your access to resources is currently restricted"
  }

  /** The message each status goes with. */
  function MessageFor(s: Access.AccessStatus): string {
    match s
    case Allowed => "You have full access to all resources"
    case AtRisk => "Warning: Your access may be restricted soon"
    case Blocked => "Your access to resources is currently restricted"
  }

  /** Badge and message always agree. */
  lemma MessageFollowsStatus(p: JsNumber)
    ensures PageMessage(p) == MessageFor(PageStatus(p))
  {
  }

  /** The page's bands are not the student list's: the page blocks from
      below 70 where the classifier blocks from below 65, and a rounded 75
      is allowed although the exact figure is not. */
  lemma PageBandsDiffer()
    ensures PageStatus(Finite(67.0)) == Access.Blocked && Access.Classify(67.0) == Access.AtRisk
    ensures PageStatus(Round(Finite(74.5))) == Access.Allowed && Access.Classify(74.5) == Access.AtRisk
  {
    assert Round(Finite(74.5)) == Finite(75.0);
  }

  /** With no subjects listed the overall figure is NaN and the page shows
      "blocked", where the student list treats no classes as 100 percent. */
  lemma EmptyPageIsBlocked()
    ensures OverallStats([]).percentage == NaN
    ensures PageStatus(OverallStats([]).percentage) == Access.Blocked
    ensures Access.Classify(Access.OverallPercentage([])) == Access.Allowed
  {
  }

  /** "Subjects at Risk": the subjects below 75 percent. */
  function SubjectsAtRisk(ss: seq<SubjectAttendance>): (n: nat)
    ensures n <= |ss|
    ensures n == 0 <==> forall i :: 0 <= i < |ss| ==> 75 <= ss[i].percentage
  {
    var below := Seqs.Filter(ss, (s: SubjectAttendance) => s.percentage < 75);
    assert |below| > 0 ==> below[0] in below;
    assert forall i :: 0 <= i < |ss| && ss[i].percentage < 75 ==> ss[i] in below;
    Seqs.Count(ss, (s: SubjectAttendance) => s.percentage < 75)
  }

  /** The number of recent records the page shows. */
  const RecentLimit: nat := 5

  /** `recentRecords.slice(0, 5)`. */
  function RecentShown<T>(records: seq<T>): (r: seq<T>)
    ensures |r| <= RecentLimit && |r| <= |records|
    ensures r == records[..|r|]
    ensures |records| <= RecentLimit ==> r == records
  {
    AttendanceStore.Take(records, RecentLimit)
  }

  /** The subject table the page is built on. */
  const PageSubjects: seq<SubjectAttendance> := [
    SubjectAttendance("1", "Data Structures", "CS201", 34, 40, 85, Access.Allowed),
    SubjectAttendance("2", "Database Management", "CS301", 28, 38, 74, Access.AtRisk),
    SubjectAttendance("3", "Machine Learning", "CS401", 18, 25, 72, Access.AtRisk),
    SubjectAttendance("4", "Operating Systems", "CS302", 32, 35, 91, Access.Allowed)]

  /** What the page shows for its table: 112 of 138 classes, 81 percent,
      allowed, two subjects at risk. */
  lemma PageFigures()
    ensures OverallStats(PageSubjects) == Stats(112, 138, Finite(81.0))
    ensures PageStatus(OverallStats(PageSubjects).percentage) == Access.Allowed
    ensures SubjectsAtRisk(PageSubjects) == 2
  {
    PageSums();
    PageRounds();
    PageAtRisk();
  }

  /** The page's class totals. */
  lemma PageSums()
    ensures AttendedSum(PageSubjects) == 112 && TotalSum(PageSubjects) == 138
  {
    var ss := PageSubjects;
    var s1, s2, s3 := [ss[0]], [ss[0], ss[1]], [ss[0], ss[1], ss[2]];
    assert s1[..0] == [] && s2[..1] == s1 && s3[..2] == s2 && ss[..3] == s3;
    assert AttendedSum(s1) == 34 && TotalSum(s1) == 40;
    assert AttendedSum(s2) == 62 && TotalSum(s2) == 78;
    assert AttendedSum(s3) == 80 && TotalSum(s3) == 103;
  }

  /** 112 of 138 rounds to 81 percent. */
  lemma PageRounds()
    ensures Round(Finite(112.0 / 138.0 * 100.0)) == Finite(81.0)
  {
    var q := 112.0 / 138.0 * 100.0;
    assert 81.0 <= q + 0.5 < 82.0;
  }

  /** Two of the page's subjects are below 75 percent. */
  lemma PageAtRisk()
    ensures SubjectsAtRisk(PageSubjects) == 2
  {
    var ss := PageSubjects;
    var below := (s: SubjectAttendance) => s.percentage < 75;
    assert ss[1..] == [ss[1], ss[2], ss[3]] && ss[1..][1..] == [ss[2], ss[3]] && ss[1..][1..][1..] == [ss[3]];
    assert ss[1..][1..][1..][1..] == [];
    assert Seqs.Count(ss[1..][1..][1..], below) == 0;
    assert Seqs.Count(ss[1..][1..], below) == 1;
    assert Seqs.Count(ss[1..], below) == 2;
    assert Seqs.Count(ss, below) == 2;
  }

  // ---------------------------------------------------------------------
  // The "Attendance" marking page

  /** A row of the marking sheet; `status` is free text. */
  datatype SheetRow = SheetRow(id: string, name: string, enrollmentNo: string, attendance: int, status: string)

  /** `toggleStatus`: the rows with the id take the new status. */
  function ToggleStatus(rows: seq<SheetRow>, studentId: string, newStatus: string): (r: seq<SheetRow>)
    ensures |r| == |rows|
    ensures forall i :: 0 <= i < |r| ==> r[i].(status := rows[i].status) == rows[i]
    ensures forall i :: 0 <= i < |r| ==> r[i].status == if rows[i].id == studentId then newStatus else rows[i].status
  {
    seq(|rows|, i requires 0 <= i < |rows| => if rows[i].id == studentId then rows[i].(status := newStatus) else rows[i])
  }

  /** Toggling is idempotent, the last toggle of a row wins, toggles of
      different rows commute, and an id no row has changes nothing. */
  lemma ToggleLaws(rows: seq<SheetRow>, id: string, other: string, s: string, t: string)
    ensures ToggleStatus(ToggleStatus(rows, id, s), id, s) == ToggleStatus(rows, id, s)
    ensures ToggleStatus(ToggleStatus(rows, id, s), id, t) == ToggleStatus(rows, id, t)
    ensures id != other ==>
      ToggleStatus(ToggleStatus(rows, id, s), other, t) == ToggleStatus(ToggleStatus(rows, other, t), id, s)
    ensures (forall i :: 0 <= i < |rows| ==> rows[i].id != id) ==> ToggleStatus(rows, id, s) == rows
  {
  }

  /** The status badges. */
  datatype StatusBadge = PresentBadge | AbsentBadge | LateBadge | NotMarked

  /** `getStatusBadge`: three known statuses, anything else "Not Marked". */
  function BadgeOf(status: string): (b: StatusBadge)
    ensures b == NotMarked <==> status != "present" && status != "absent" && status != "late"
  {
    if status == "present" then PresentBadge
    else if status == "absent" then AbsentBadge
    else if status == "late" then LateBadge
    else NotMarked
  }

  /** The three buttons of a row set these statuses. */
  const Buttons: seq<string> := ["present", "absent", "late"]

  /** A button is highlighted when the row's status is the one it sets. */
  predicate Highlighted(row: SheetRow, button: string) {
    row.status == button
  }

  /** After a button is pressed on a row, that row shows the button's badge
      and exactly that button highlighted; no other row changes. */
  lemma PressShows(rows: seq<SheetRow>, k: nat, b: nat)
    requires k < |rows| && b < |Buttons|
    ensures var after := ToggleStatus(rows, rows[k].id, Buttons[b]);
      && BadgeOf(after[k].status) != NotMarked
      && (forall c :: 0 <= c < |Buttons| ==> (Highlighted(after[k], Buttons[c]) <==> c == b))
      && (forall i :: 0 <= i < |rows| && rows[i].id != rows[k].id ==> after[i] == rows[i])
  {
  }

  /** The colours of the sheet's attendance bar. */
  datatype SheetColour = SheetGreen | SheetYellow | SheetRed

  /** At least 75 green, at least 60 yellow, red below. */
  function SheetColourOf(attendance: int): SheetColour {
    if attendance >= 75 then SheetGreen
    else if attendance >= 60 then SheetYellow
    else SheetRed
  }

  /** The three views agree on who is allowed, but each draws its lower
      line elsewhere: the sheet at 60, the classifier at 65, the "My
      Attendance" page at 70. */
  lemma FloorsDiffer(p: int)
    ensures SheetColourOf(p) == SheetGreen <==> Access.Classify(p as real) == Access.Allowed
    ensures Access.Classify(p as real) == Access.Allowed <==> PageStatus(Finite(p as real)) == Access.Allowed
    ensures SheetColourOf(p) == SheetRed ==> Access.Classify(p as real) == Access.Blocked
    ensures Access.Classify(p as real) == Access.Blocked ==> PageStatus(Finite(p as real)) == Access.Blocked
    ensures SheetColourOf(62) == SheetYellow && Access.Classify(62.0) == Access.Blocked
    ensures Access.Classify(67.0) == Access.AtRisk && PageStatus(Finite(67.0)) == Access.Blocked
  {
  }
}

=== FILE: teacher_dashboard.dfy ===
/** The teacher's dashboard (`TeacherDashboard`): the subjects a teacher
    teaches, gathered from direct assignments and from the subjects linked
    to the teacher's branch and merged by id, and the student and pending
    review counts derived from them. */
module TeacherDashboard {
  import opened Wrappers
  import opened Schema
  import Js
  import Seqs
  import Assignments
  import Users

  // ---------------------------------------------------------------------
  // Gathering the subjects

  /** A `teacher_subjects` row read with its subject. */
  datatype Assigned = Assigned(teacherId: Id, isActive: bool, subject: Option<Subject>)

  /** A `teacher_subjects` row as the dashboard selects it: joined to its
      subject, which is absent when the subject row is not visible. */
  function Joined(t: Users.TeacherSubject, subjects: map<Id, Subject>): (a: Assigned)
    ensures a.teacherId == t.teacherId && a.isActive == t.isActive
    ensures a.subject.Some? <==> t.subjectId in subjects
    ensures a.subject.Some? ==> a.subject.value == subjects[t.subjectId]
  {
    Assigned(t.teacherId, t.isActive, if t.subjectId in subjects then Some(subjects[t.subjectId]) else None)
  }

  /** A `subject_branches` row read with its subject. */
  datatype Link = Link(branchId: Id, isActive: bool, subject: Option<Subject>)

  /** `.filter(Boolean)` over joined subjects: the present ones, in order. */
  function Present(xs: seq<Option<Subject>>): (r: seq<Subject>)
    ensures |r| <= |xs|
    ensures forall s :: s in r <==> Some(s) in xs
    decreases |xs|
  {
    if |xs| == 0 then []
    else
      var rest := Present(xs[1..]);
      assert forall s :: Some(s) in xs <==> xs[0] == Some(s) || Some(s) in xs[1..];
      match xs[0]
      case None => rest
      case Some(s) => [s] + rest
  }

  /** The subjects of the teacher's active direct assignments; no data
      gives none. */
  function DirectSubjects(rows: seq<Assigned>, teacherId: Id, ok: bool): (r: seq<Subject>)
    ensures forall s :: s in r <==>
      ok && exists i :: 0 <= i < |rows| && rows[i].teacherId == teacherId && rows[i].isActive && rows[i].subject == Some(s)
  {
    if !ok then []
    else
      var mine := Seqs.Filter(rows, (a: Assigned) => a.teacherId == teacherId && a.isActive);
      var subs := seq(|mine|, i requires 0 <= i < |mine| => mine[i].subject);
      var r := Present(subs);
      assert forall s :: s in r <==>
        exists i :: 0 <= i < |rows| && rows[i].teacherId == teacherId && rows[i].isActive && rows[i].subject == Some(s)
      by {
        forall s | s in r
          ensures exists i :: 0 <= i < |rows| && rows[i].teacherId == teacherId && rows[i].isActive && rows[i].subject == Some(s)
        {
          var j :| 0 <= j < |subs| && subs[j] == Some(s);
          assert mine[j] in rows;
          var i :| 0 <= i < |rows| && rows[i] == mine[j];
        }
        forall s | exists i :: 0 <= i < |rows| && rows[i].teacherId == teacherId && rows[i].isActive && rows[i].subject == Some(s)
          ensures s in r
        {
          var i :| 0 <= i < |rows| && rows[i].teacherId == teacherId && rows[i].isActive && rows[i].subject == Some(s);
          assert rows[i] in mine;
          var j :| 0 <= j < |mine| && mine[j] == rows[i];
          assert subs[j] == Some(s);
        }
      }
      r
  }

  /** Assigning a visible subject to a teacher lists it among the teacher's
      direct subjects, whatever rows were there before. */
  lemma AssignedSubjectIsListed(rows: seq<Assigned>, subjects: map<Id, Subject>, teacherId: Id, subjectId: Id, academicYear: Option<string>)
    requires subjectId in subjects
    ensures subjects[subjectId] in DirectSubjects(rows + [Joined(Users.TeacherSubjectRecord(teacherId, subjectId, academicYear), subjects)], teacherId, true)
  {
    var rows' := rows + [Joined(Users.TeacherSubjectRecord(teacherId, subjectId, academicYear), subjects)];
    var i := |rows|;
    assert rows'[i].teacherId == teacherId && rows'[i].isActive && rows'[i].subject == Some(subjects[subjectId]);
  }

  /** The subjects actively linked to the branch; asked for only when the
      teacher has a branch, and no data gives none. */
  function BranchSubjects(links: seq<Link>, branchId: Option<Id>, ok: bool): (r: seq<Subject>)
    ensures forall s :: s in r <==>
      Js.Truthy(branchId) && ok
      && exists i :: 0 <= i < |links| && links[i].branchId == branchId.value && links[i].isActive && links[i].subject == Some(s)
  {
    if !Js.Truthy(branchId) || !ok then []
    else
      LinkedSubjectsSound(links, branchId.value);
      LinkedSubjectsComplete(links, branchId.value);
      LinkedSubjects(links, branchId.value)
  }

  /** An active link of the branch. */
  predicate ActiveLinkOf(b: Id, l: Link) {
    l.branchId == b && l.isActive
  }

  /** The non-null subjects of the branch's active links, in link order. */
  function LinkedSubjects(links: seq<Link>, b: Id): seq<Subject> {
    var mine := Seqs.Filter(links, (l: Link) => ActiveLinkOf(b, l));
    Present(seq(|mine|, i requires 0 <= i < |mine| => mine[i].subject))
  }

  /** Every linked subject comes from an active link of the branch. */
  lemma LinkedSubjectsSound(links: seq<Link>, b: Id)
    ensures forall s :: s in LinkedSubjects(links, b) ==>
      exists i :: 0 <= i < |links| && links[i].branchId == b && links[i].isActive && links[i].subject == Some(s)
  {
    var mine := Seqs.Filter(links, (l: Link) => ActiveLinkOf(b, l));
    var subs := seq(|mine|, i requires 0 <= i < |mine| => mine[i].subject);
    forall s | s in LinkedSubjects(links, b)
      ensures exists i :: 0 <= i < |links| && links[i].branchId == b && links[i].isActive && links[i].subject == Some(s)
    {
      var j :| 0 <= j < |subs| && subs[j] == Some(s);
      assert mine[j] in links;
      var i :| 0 <= i < |links| && links[i] == mine[j];
    }
  }

  /** Every subject of an active link of the branch is listed. */
  lemma LinkedSubjectsComplete(links: seq<Link>, b: Id)
    ensures forall s :: (exists i :: 0 <= i < |links| && links[i].branchId == b && links[i].isActive && links[i].subject == Some(s)) ==>
      s in LinkedSubjects(links, b)
  {
    var mine := Seqs.Filter(links, (l: Link) => ActiveLinkOf(b, l));
    var subs := seq(|mine|, i requires 0 <= i < |mine| => mine[i].subject);
    forall s | exists i :: 0 <= i < |links| && links[i].branchId == b && links[i].isActive && links[i].subject == Some(s)
      ensures s in LinkedSubjects(links, b)
    {
      var i :| 0 <= i < |links| && links[i].branchId == b && links[i].isActive && links[i].subject == Some(s);
      assert links[i] in mine;
      var j :| 0 <= j < |mine| && mine[j] == links[i];
      assert subs[j] == Some(s);
    }
  }

  /** `[...directSubjects, ...branchSubjects]`. */
  function Candidates(
    rows: seq<Assigned>, links: seq<Link>, teacherId: Id, branchId: Option<Id>, directOk: bool, branchOk: bool): seq<Subject>
  {
    DirectSubjects(rows, teacherId, directOk) + BranchSubjects(links, branchId, branchOk)
  }

  // ---------------------------------------------------------------------
  // Merging by id

  /** The candidate at `i` is kept: it has an id and no earlier candidate
      has the same one. */
  predicate Keeps(s: seq<Subject>, i: nat)
    requires i < |s|
  {
    s[i].id != "" && forall j :: 0 <= j < i ==> s[j].id != s[i].id
  }

  /** The kept candidates among the first `n`, in order: the reference
      definition of the merge. */
  function FirstsUpTo(s: seq<Subject>, n: nat): (r: seq<Subject>)
    requires n <= |s|
    decreases n
  {
    if n == 0 then []
    else FirstsUpTo(s, n - 1) + (if Keeps(s, n - 1) then [s[n - 1]] else [])
  }

  /** The merged subject list. */
  function Merged(s: seq<Subject>): seq<Subject> {
    FirstsUpTo(s, |s|)
  }

  /** The ids of a list of subjects. */
  function IdsOf(r: seq<Subject>): (ids: set<Id>)
    ensures forall id :: id in ids <==> exists k :: 0 <= k < |r| && r[k].id == id
  {
    set k | 0 <= k < |r| :: r[k].id
  }

  /** `x` is a candidate among the first `n` that is the first with its id. */
  predicate KeptAmong(s: seq<Subject>, n: nat, x: Subject)
    requires n <= |s|
  {
    exists j :: 0 <= j < n && Keeps(s, j) && x == s[j]
  }

  /** The ids kept among the first `n` candidates are the non-empty ids
      that occur among them; every kept subject is the first candidate
      with its id, and no id is kept twice. */
  lemma {:induction false} FirstsUpToFacts(s: seq<Subject>, n: nat)
    requires n <= |s|
    ensures forall id :: id in IdsOf(FirstsUpTo(s, n)) <==> id != "" && exists j :: 0 <= j < n && s[j].id == id
    ensures forall k :: 0 <= k < |FirstsUpTo(s, n)| ==> KeptAmong(s, n, FirstsUpTo(s, n)[k])
    ensures forall k, l :: 0 <= k < l < |FirstsUpTo(s, n)| ==> FirstsUpTo(s, n)[k].id != FirstsUpTo(s, n)[l].id
  {
    FirstsIds(s, n);
    FirstsKept(s, n);
    FirstsDistinct(s, n);
  }

  /** The kept ids are the non-empty ids among the first `n` candidates. */
  lemma {:induction false} FirstsIds(s: seq<Subject>, n: nat)
    requires n <= |s|
    ensures forall id :: id in IdsOf(FirstsUpTo(s, n)) <==> id != "" && exists j :: 0 <= j < n && s[j].id == id
    decreases n
  {
    if n == 0 {
      assert FirstsUpTo(s, n) == [];
    } else {
      FirstsIds(s, n - 1);
      var prev := FirstsUpTo(s, n - 1);
      if Keeps(s, n - 1) {
        IdsOfAppend(prev, s[n - 1]);
      } else {
        assert FirstsUpTo(s, n) == prev;
        forall id | id != "" && exists j :: 0 <= j < n && s[j].id == id
          ensures id in IdsOf(prev)
        {
          var j :| 0 <= j < n && s[j].id == id;
          if j == n - 1 {
            var j' :| 0 <= j' < n - 1 && s[j'].id == s[n - 1].id;
          }
        }
      }
    }
  }

  /** Every kept subject is a candidate that is the first with its id. */
  lemma {:induction false} FirstsKept(s: seq<Subject>, n: nat)
    requires n <= |s|
    ensures forall k :: 0 <= k < |FirstsUpTo(s, n)| ==> KeptAmong(s, n, FirstsUpTo(s, n)[k])
    decreases n
  {
    if n > 0 {
      FirstsKept(s, n - 1);
      var prev := FirstsUpTo(s, n - 1);
      var r := FirstsUpTo(s, n);
      forall k | 0 <= k < |r|
        ensures KeptAmong(s, n, r[k])
      {
        if k < |prev| {
          assert r[k] == prev[k];
          assert KeptAmong(s, n - 1, prev[k]);
          var j :| 0 <= j < n - 1 && Keeps(s, j) && prev[k] == s[j];
        } else {
          assert r[k] == s[n - 1];
        }
      }
    }
  }

  /** No id is kept twice. */
  lemma {:induction false} FirstsDistinct(s: seq<Subject>, n: nat)
    requires n <= |s|
    ensures forall k, l :: 0 <= k < l < |FirstsUpTo(s, n)| ==> FirstsUpTo(s, n)[k].id != FirstsUpTo(s, n)[l].id
    decreases n
  {
    if n > 0 {
      FirstsDistinct(s, n - 1);
      FirstsIds(s, n - 1);
      var prev := FirstsUpTo(s, n - 1);
      var r := FirstsUpTo(s, n);
      forall k, l | 0 <= k < l < |r|
        ensures r[k].id != r[l].id
      {
        assert r[k] == prev[k];
        if l < |prev| {
          assert r[l] == prev[l];
        } else {
          assert r[k].id in IdsOf(prev);
          assert r[l] == s[n - 1];
        }
      }
    }
  }

  /** Appending a subject adds its id. */
  lemma IdsOfAppend(r: seq<Subject>, x: Subject)
    ensures IdsOf(r + [x]) == IdsOf(r) + {x.id}
  {
    assert forall k :: 0 <= k < |r| ==> (r + [x])[k] == r[k];
    assert (r + [x])[|r|] == x;
  }

  /** `allSubjectsMap`: a Map keyed by id filled in candidate order, of
      which the values are taken in insertion order. */
  method MergeSubjects(s: seq<Subject>) returns (r: seq<Subject>)
    ensures r == Merged(s)
    ensures forall k, l :: 0 <= k < l < |r| ==> r[k].id != r[l].id
    ensures forall k :: 0 <= k < |r| ==> r[k] in s && r[k].id != ""
    ensures forall x :: x in s && x.id != "" ==> exists k :: 0 <= k < |r| && r[k].id == x.id
  {
    var seen: set<Id> := {};
    r := [];
    for i := 0 to |s|
      invariant r == FirstsUpTo(s, i)
      invariant seen == IdsOf(r)
    {
      FirstsUpToFacts(s, i);
      if s[i].id != "" && s[i].id !in seen {
        assert Keeps(s, i);
        IdsOfAppend(r, s[i]);
        r := r + [s[i]];
        seen := seen + {s[i].id};
      } else {
        assert !Keeps(s, i);
      }
    }
    MergedFacts(s);
  }

  /** The merged list has distinct, non-empty ids drawn from the candidates,
      and covers every candidate's id. */
  lemma {:induction false} MergedFacts(s: seq<Subject>)
    ensures forall k, l :: 0 <= k < l < |Merged(s)| ==> Merged(s)[k].id != Merged(s)[l].id
    ensures forall k :: 0 <= k < |Merged(s)| ==> Merged(s)[k] in s && Merged(s)[k].id != ""
    ensures forall x :: x in s && x.id != "" ==> exists k :: 0 <= k < |Merged(s)| && Merged(s)[k].id == x.id
  {
    FirstsUpToFacts(s, |s|);
    MergedFromCandidates(s);
    MergedCovers(s);
    forall x | x in s && x.id != ""
      ensures exists k :: 0 <= k < |Merged(s)| && Merged(s)[k].id == x.id
    {
      var j :| 0 <= j < |s| && s[j] == x;
      assert x.id in IdsOf(Merged(s));
    }
  }

  /** Every merged subject is a candidate with a non-empty id. */
  lemma {:induction false} MergedFromCandidates(s: seq<Subject>)
    ensures forall k :: 0 <= k < |Merged(s)| ==> Merged(s)[k] in s && Merged(s)[k].id != ""
  {
    var n := |s|;
    var r := FirstsUpTo(s, n);
    FirstsUpToFacts(s, n);
    forall k | 0 <= k < |r|
      ensures r[k] in s && r[k].id != ""
    {
      assert exists j :: 0 <= j < n && Keeps(s, j) && r[k] == s[j];
      var j :| 0 <= j < n && Keeps(s, j) && r[k] == s[j];
      assert s[j] in s;
    }
  }

  /** Every candidate's non-empty id appears in the merged list. */
  lemma {:induction false} MergedCovers(s: seq<Subject>)
    ensures forall j :: 0 <= j < |s| && s[j].id != "" ==> s[j].id in IdsOf(Merged(s))
  {
    FirstsUpToFacts(s, |s|);
  }

  /** The merge keeps the first subject of every id: a direct assignment
      wins over a branch link to a subject with the same id. */
  lemma FirstOfEachIdWins(s: seq<Subject>, j: nat)
    requires j < |s| && Keeps(s, j)
    ensures s[j] in Merged(s)
    ensures forall k :: 0 <= k < |Merged(s)| && Merged(s)[k].id == s[j].id ==> Merged(s)[k] == s[j]
  {
    FirstsUpToFacts(s, |s|);
    var r := Merged(s);
    assert s[j].id in IdsOf(r);
    forall k | 0 <= k < |r| && r[k].id == s[j].id
      ensures r[k] == s[j]
    {
      var j' :| 0 <= j' < |s| && Keeps(s, j') && r[k] == s[j'];
    }
    var k :| 0 <= k < |r| && r[k].id == s[j].id;
  }

  /** The number of subjects the dashboard shows: one per distinct
      non-empty id among the candidates. */
  lemma TotalSubjectsCountsIds(s: seq<Subject>)
    ensures |Merged(s)| == |IdsOf(Merged(s))|
    ensures IdsOf(Merged(s)) == set j | 0 <= j < |s| && s[j].id != "" :: s[j].id
  {
    FirstsUpToFacts(s, |s|);
    var r := Merged(s);
    DistinctIdsCount(r);
  }

  /** A list without repeated ids has as many ids as elements. */
  lemma {:induction false} DistinctIdsCount(r: seq<Subject>)
    requires forall k, l :: 0 <= k < l < |r| ==> r[k].id != r[l].id
    ensures |IdsOf(r)| == |r|
    decreases |r|
  {
    if |r| > 0 {
      var init := r[..|r| - 1];
      DistinctIdsCount(init);
      assert IdsOf(r) == IdsOf(init) + {r[|r| - 1].id};
      assert r[|r| - 1].id !in IdsOf(init);
    }
  }

  // ---------------------------------------------------------------------
  // The counts

  /** The students figure. `enrollOk`, `profilesOk` and `rolesOk` say
      whether each count or read returned data. The enrollment count is of
      active enrollment rows in the teacher's subjects, asked for only when
      there are subjects; with a branch, the count of student role rows of
      the branch's active profiles replaces it when larger. */
  function StudentCount(
    subjectIds: set<Id>,
    enrollments: seq<Enrollment>,
    enrollOk: bool,
    branchId: Option<Id>,
    profiles: seq<Profile>,
    profilesOk: bool,
    roleRows: seq<RoleRow>,
    rolesOk: bool): (n: nat)
    ensures var enrolled := if |subjectIds| > 0 && enrollOk then EnrolledCount(subjectIds, enrollments) else 0;
      && enrolled <= n
      && (n == enrolled
          || (Js.Truthy(branchId) && profilesOk && rolesOk
              && n == StudentRoleCount(roleRows, BranchMembers(profiles, branchId.value))))
    ensures n <= |enrollments| || n <= |roleRows|
  {
    var enrolled := if |subjectIds| > 0 && enrollOk then EnrolledCount(subjectIds, enrollments) else 0;
    if !Js.Truthy(branchId) || !profilesOk then enrolled
    else
      var members := BranchMembers(profiles, branchId.value);
      if |members| == 0 || !rolesOk then enrolled
      else
        var roleCount := StudentRoleCount(roleRows, members);
        if roleCount > 0 && roleCount > enrolled then roleCount else enrolled
  }

  /** The enrollment count: active enrollment rows in the subjects. */
  function EnrolledCount(subjectIds: set<Id>, enrollments: seq<Enrollment>): nat {
    Seqs.Count(enrollments, (e: Enrollment) => e.subjectId in subjectIds && e.isActive)
  }

  /** The branch read: the active profiles of the branch. */
  function BranchMembers(profiles: seq<Profile>, branch: Id): (r: seq<Profile>)
    ensures forall p :: p in r <==> p in profiles && p.branchId == Some(branch) && p.isActive
  {
    Seqs.Filter(profiles, (p: Profile) => p.branchId == Some(branch) && p.isActive)
  }

  /** The role count: student role rows of the members. */
  function StudentRoleCount(roleRows: seq<RoleRow>, members: seq<Profile>): nat {
    var ids := set i | 0 <= i < |members| :: members[i].id;
    Seqs.Count(roleRows, (r: RoleRow) => r.userId in ids && r.role == Student)
  }

  /** With every query answering, the figure is the larger of the two
      counts, not their sum. */
  lemma StudentCountIsMax(
    subjectIds: set<Id>, enrollments: seq<Enrollment>, branch: Id, profiles: seq<Profile>, roleRows: seq<RoleRow>)
    requires |subjectIds| > 0 && branch != ""
    requires exists i :: 0 <= i < |profiles| && profiles[i].branchId == Some(branch) && profiles[i].isActive
    ensures var enrolled := EnrolledCount(subjectIds, enrollments);
      var roleCount := StudentRoleCount(roleRows, BranchMembers(profiles, branch));
      StudentCount(subjectIds, enrollments, true, Some(branch), profiles, true, roleRows, true)
        == if enrolled < roleCount then roleCount else enrolled
  {
    var i :| 0 <= i < |profiles| && profiles[i].branchId == Some(branch) && profiles[i].isActive;
    assert profiles[i] in BranchMembers(profiles, branch);
  }

  /** The figure counts enrollment rows, not students: one student enrolled
      in two of the teacher's subjects counts twice. */
  lemma EnrollmentRowsCounted(student: Id)
    ensures StudentCount({"a", "b"}, [Enrollment("e1", student, "a", None, true), Enrollment("e2", student, "b", None, true)],
      true, None, [], false, [], false) == 2
  {
    var es := [Enrollment("e1", student, "a", None, true), Enrollment("e2", student, "b", None, true)];
    assert es[1..][1..] == [];
    assert |{"a", "b"}| > 0 by { assert "a" in {"a", "b"}; }
  }

  /** A submission waits for review: it is submitted, to an assignment of
      one of the subjects. */
  predicate AwaitsReview(s: Assignments.Submission, subjectIds: set<Id>, assignments: seq<Assignments.Assignment>) {
    && s.status == Some(Assignments.Submitted)
    && exists i :: 0 <= i < |assignments| && assignments[i].subjectId in subjectIds && assignments[i].id == s.assignmentId
  }

  /** The pending reviews figure: submitted submissions to any assignment,
      active or not, of the teacher's subjects. It is asked for only when
      there are subjects; when the assignment query returns no data the
      list of assignment ids is empty, and when the count returns none the
      figure stays 0. */
  function PendingReviews(
    subjectIds: set<Id>,
    assignments: seq<Assignments.Assignment>,
    assignmentsOk: bool,
    submissions: seq<Assignments.Submission>,
    countOk: bool): (r: nat)
    ensures r <= |submissions|
    ensures |subjectIds| == 0 || !countOk || !assignmentsOk ==> r == 0
    ensures |subjectIds| > 0 && countOk && assignmentsOk ==>
      (r == 0 <==> forall k :: 0 <= k < |submissions| ==> !AwaitsReview(submissions[k], subjectIds, assignments))
  {
    if |subjectIds| == 0 || !countOk then 0
    else
      var ids := if assignmentsOk then set i | 0 <= i < |assignments| && assignments[i].subjectId in subjectIds :: assignments[i].id else {};
      var f := (s: Assignments.Submission) => s.status == Some(Assignments.Submitted) && s.assignmentId in ids;
      Seqs.CountZero(submissions, f);
      assert assignmentsOk ==> forall k :: 0 <= k < |submissions| ==> (f(submissions[k]) <==> AwaitsReview(submissions[k], subjectIds, assignments));
      Seqs.Count(submissions, f)
  }

  /** Grading one pending submission lowers the figure by exactly one;
      submissions that are graded or still pending are not counted. */
  lemma GradingLowersPending(
    subjectIds: set<Id>, assignments: seq<Assignments.Assignment>, submissions: seq<Assignments.Submission>, k: nat)
    requires k < |submissions| && |subjectIds| > 0
    requires submissions[k].status == Some(Assignments.Submitted)
    requires exists i :: 0 <= i < |assignments| && assignments[i].subjectId in subjectIds && assignments[i].id == submissions[k].assignmentId
    ensures PendingReviews(subjectIds, assignments, true, submissions[k := submissions[k].(status := Some(Assignments.Graded))], true) + 1
      == PendingReviews(subjectIds, assignments, true, submissions, true)
  {
    var ids := set i | 0 <= i < |assignments| && assignments[i].subjectId in subjectIds :: assignments[i].id;
    var f := (s: Assignments.Submission) => s.status == Some(Assignments.Submitted) && s.assignmentId in ids;
    assert f(submissions[k]);
    Seqs.CountUpdate(submissions, f, k, submissions[k].(status := Some(Assignments.Graded)));
  }

  /** A teacher without subjects sees no pending reviews, whatever the
      submissions. */
  lemma NoSubjectsNoReviews(
    assignments: seq<Assignments.Assignment>, assignmentsOk: bool, submissions: seq<Assignments.Submission>, countOk: bool)
    ensures PendingReviews({}, assignments, assignmentsOk, submissions, countOk) == 0
  {
  }
}

=== FILE: users.dfy ===
/** User administration: the user list with its roles (`useUsers`), the role
    and status mutations, teacher-subject assignment, the search and badge of
    the users page, and the branch membership dialog. */
module Users {
  import opened Wrappers
  import opened Schema
  import Js
  import Seqs
  import Ordering

  // ---------------------------------------------------------------------
  // Roles

  /** The roles the `user_roles` table records for a user, in table order. */
  function RolesFor(rows: seq<RoleRow>, userId: Id): (r: seq<Role>)
    ensures |r| <= |rows|
    decreases |rows|
  {
    if |rows| == 0 then []
    else if rows[0].userId == userId then [rows[0].role] + RolesFor(rows[1..], userId)
    else RolesFor(rows[1..], userId)
  }

  /** A user's roles are exactly the roles of their role rows. */
  lemma {:induction false} RolesForMembers(rows: seq<RoleRow>, userId: Id)
    ensures forall x :: x in RolesFor(rows, userId) <==> RoleRow(userId, x) in rows
    decreases |rows|
  {
    if |rows| > 0 {
      RolesForMembers(rows[1..], userId);
      assert forall x :: RoleRow(userId, x) in rows <==> rows[0] == RoleRow(userId, x) || RoleRow(userId, x) in rows[1..];
    }
  }

  /** One step of `RolesFor`: the first row contributes its role when it
      belongs to the user. */
  lemma RolesForCons(rows: seq<RoleRow>, userId: Id)
    requires |rows| > 0
    ensures RolesFor(rows, userId) == (if rows[0].userId == userId then [rows[0].role] else []) + RolesFor(rows[1..], userId)
  {
  }

  lemma {:induction false} RolesForAppend(a: seq<RoleRow>, b: seq<RoleRow>, userId: Id)
    ensures RolesFor(a + b, userId) == RolesFor(a, userId) + RolesFor(b, userId)
    decreases |a|
  {
    if |a| > 0 {
      RolesForAppend(a[1..], b, userId);
      var ab := a + b;
      assert ab[0] == a[0] && ab[1..] == a[1..] + b;
      RolesForCons(ab, userId);
      RolesForCons(a, userId);
    } else {
      assert a + b == b;
    }
  }

  /** `roles?.map(r => r.role) || ['student']`: a failed query (no data)
      reads as a student; an empty answer stays empty, since an array is
      never falsy. */
  function RolesOf(data: Option<seq<Role>>): (r: seq<Role>)
    ensures data.None? ==> r == [Student]
    ensures data.Some? ==> r == data.value
  {
    data.GetOr([Student])
  }

  /** The badge of the users page and of the layout header. */
  datatype Badge = SuperAdminBadge | TeacherBadge | StudentBadge

  /** The badge's colour variant. */
  datatype Variant = Destructive | Default | Secondary

  /** `getRoleBadge(roles)`: super admin before teacher, student otherwise. */
  function RoleBadge(roles: seq<Role>): (b: Badge)
    ensures b == SuperAdminBadge <==> SuperAdmin in roles
    ensures b == TeacherBadge <==> SuperAdmin !in roles && Teacher in roles
    ensures b == StudentBadge <==> SuperAdmin !in roles && Teacher !in roles
  {
    if SuperAdmin in roles then SuperAdminBadge
    else if Teacher in roles then TeacherBadge
    else StudentBadge
  }

  function BadgeVariant(b: Badge): Variant {
    match b
    case SuperAdminBadge => Destructive
    case TeacherBadge => Default
    case StudentBadge => Secondary
  }

  /** Authority of a role: super admin over teacher over student. */
  function Rank(r: Role): nat {
    match r
    case SuperAdmin => 2
    case Teacher => 1
    case Student => 0
  }

  /** The highest-ranked role held, or student when none is held. */
  function Highest(roles: seq<Role>): (h: Role)
    ensures h in roles || h == Student
    ensures forall i :: 0 <= i < |roles| ==> Rank(roles[i]) <= Rank(h)
    decreases |roles|
  {
    if |roles| == 0 then Student
    else
      var rest := Highest(roles[1..]);
      assert forall i :: 1 <= i < |roles| ==> roles[i] == roles[1..][i - 1];
      if Rank(roles[0]) >= Rank(rest) then roles[0] else rest
  }

  /** The badge of a single role. */
  function BadgeOf(r: Role): Badge {
    match r
    case SuperAdmin => SuperAdminBadge
    case Teacher => TeacherBadge
    case Student => StudentBadge
  }

  /** The badge shows the most powerful role the user holds. */
  lemma RoleBadgeIsHighest(roles: seq<Role>)
    ensures RoleBadge(roles) == BadgeOf(Highest(roles))
  {
    var h := Highest(roles);
    if SuperAdmin in roles {
      var i :| 0 <= i < |roles| && roles[i] == SuperAdmin;
    } else if Teacher in roles {
      var i :| 0 <= i < |roles| && roles[i] == Teacher;
    }
  }

  // ---------------------------------------------------------------------
  // The user list

  /** A listed user with the roles the page shows. */
  datatype UserView = UserView(profile: Profile, roles: seq<Role>)

  function NameKey(p: Profile): Option<string> {
    p.fullName
  }

  function ProfilesOf(users: seq<UserView>): (ps: seq<Profile>)
    ensures |ps| == |users|
    ensures forall i :: 0 <= i < |users| ==> ps[i] == users[i].profile
  {
    seq(|users|, i requires 0 <= i < |users| => users[i].profile)
  }

  /** `useUsers`: every profile ordered by full name (nulls last), each with
      the answer of its own role query (`roleQuery`, `None` when it failed).
      A failed profile query is raised. */
  function ListUsers(profiles: Result<seq<Profile>, string>, roleQuery: Id -> Option<seq<Role>>): (r: Result<seq<UserView>, string>)
    ensures r.Ok? <==> profiles.Ok?
    ensures r.Ok? ==> multiset(ProfilesOf(r.value)) == multiset(profiles.value)
    ensures r.Ok? ==> Ordering.SortedBy(ProfilesOf(r.value), Ordering.ByText(NameKey))
    ensures r.Ok? ==> forall i :: 0 <= i < |r.value| ==> r.value[i].roles == RolesOf(roleQuery(r.value[i].profile.id))
  {
    match profiles
    case Err(e) => Err(e)
    case Ok(ps) =>
      Ordering.ByTextTotal(NameKey);
      var sorted := Ordering.Sort(ps, Ordering.ByText(NameKey));
      var users := seq(|sorted|, i requires 0 <= i < |sorted| => UserView(sorted[i], RolesOf(roleQuery(sorted[i].id))));
      assert ProfilesOf(users) == sorted;
      Ok(users)
  }

  /** Named users come first: once an unnamed one appears, all the rest are
      unnamed. */
  lemma ListUsersNamesFirst(profiles: Result<seq<Profile>, string>, roleQuery: Id -> Option<seq<Role>>)
    requires profiles.Ok?
    ensures var us := ListUsers(profiles, roleQuery).value;
      forall i, j :: 0 <= i < j < |us| && us[i].profile.fullName.None? ==> us[j].profile.fullName.None?
  {
    var us := ListUsers(profiles, roleQuery).value;
    Ordering.NullsLast(ProfilesOf(us), NameKey);
  }

  // ---------------------------------------------------------------------
  // Mutations

  /** The rows of `user_roles` left after deleting the user's rows. */
  function WithoutUser(rows: seq<RoleRow>, userId: Id): seq<RoleRow> {
    Seqs.Filter(rows, (r: RoleRow) => r.userId != userId)
  }

  lemma {:induction false} WithoutUserRoles(rows: seq<RoleRow>, userId: Id, other: Id)
    ensures RolesFor(WithoutUser(rows, userId), userId) == []
    ensures other != userId ==> RolesFor(WithoutUser(rows, userId), other) == RolesFor(rows, other)
    decreases |rows|
  {
    if |rows| > 0 {
      WithoutUserRoles(rows[1..], userId, other);
      if rows[0].userId != userId {
        RolesForAppend([rows[0]], WithoutUser(rows[1..], userId), userId);
        RolesForAppend([rows[0]], WithoutUser(rows[1..], userId), other);
      }
    }
  }

  /** `useUpdateUserRole`: delete all of the user's role rows, then insert the
      chosen one. The outcome of the delete (`deleteOk`) is not checked; a
      failed insert (`insertOk` false) is raised. */
  function ReplaceRole(rows: seq<RoleRow>, userId: Id, role: Role, deleteOk: bool, insertOk: bool): (out: (seq<RoleRow>, Result<(), string>))
    ensures out.1.Ok? <==> insertOk
    ensures forall v :: v != userId ==> RolesFor(out.0, v) == RolesFor(rows, v)
    ensures deleteOk && insertOk ==> RolesFor(out.0, userId) == [role]
    ensures !deleteOk && insertOk ==> RolesFor(out.0, userId) == RolesFor(rows, userId) + [role]
    ensures deleteOk && !insertOk ==> RolesFor(out.0, userId) == []
    ensures !deleteOk && !insertOk ==> out.0 == rows
  {
    var kept := if deleteOk then WithoutUser(rows, userId) else rows;
    WithoutUserRoles(rows, userId, userId);
    assert forall v :: v != userId ==> RolesFor(kept, v) == RolesFor(rows, v) by {
      forall v | v != userId ensures RolesFor(kept, v) == RolesFor(rows, v) {
        WithoutUserRoles(rows, userId, v);
      }
    }
    if insertOk then
      var added := kept + [RoleRow(userId, role)];
      assert forall v :: RolesFor(added, v) == RolesFor(kept, v) + RolesFor([RoleRow(userId, role)], v) by {
        forall v ensures RolesFor(added, v) == RolesFor(kept, v) + RolesFor([RoleRow(userId, role)], v) {
          RolesForAppend(kept, [RoleRow(userId, role)], v);
        }
      }
      (added, Ok(()))
    else (kept, Err("role insert failed"))
  }

  /** After a clean role change the page shows the chosen role's badge. */
  lemma RoleChangeShows(rows: seq<RoleRow>, userId: Id, role: Role)
    ensures var out := ReplaceRole(rows, userId, role, true, true);
      RoleBadge(RolesOf(Some(RolesFor(out.0, userId)))) == BadgeOf(role)
  {
  }

  /** When the unchecked delete fails, a super admin demoted to any role
      still holds and shows super admin, yet the change reports success. */
  lemma IgnoredDeleteKeepsOldRole(rows: seq<RoleRow>, userId: Id, role: Role)
    requires SuperAdmin in RolesFor(rows, userId)
    ensures var out := ReplaceRole(rows, userId, role, false, true);
      && out.1.Ok?
      && RoleBadge(RolesFor(out.0, userId)) == SuperAdminBadge
  {
  }

  /** When the insert fails after the delete, the user is left with no role
      at all and the page shows the student badge. */
  lemma FailedInsertLeavesNoRole(rows: seq<RoleRow>, userId: Id, role: Role)
    ensures var out := ReplaceRole(rows, userId, role, true, false);
      && out.1.Err?
      && RolesOf(Some(RolesFor(out.0, userId))) == []
      && RoleBadge(RolesOf(Some(RolesFor(out.0, userId)))) == StudentBadge
  {
  }

  /** `.update(fields).eq('id', userId)` on `profiles`: the rows with the id
      are replaced by `change` of themselves, all others kept. */
  function UpdateProfiles(profiles: seq<Profile>, userId: Id, change: Profile -> Profile): (r: seq<Profile>)
    ensures |r| == |profiles|
    ensures forall i :: 0 <= i < |r| ==> r[i] == if profiles[i].id == userId then change(profiles[i]) else profiles[i]
  {
    seq(|profiles|, i requires 0 <= i < |profiles| => if profiles[i].id == userId then change(profiles[i]) else profiles[i])
  }

  function SetActive(isActive: bool): Profile -> Profile {
    (p: Profile) => p.(isActive := isActive)
  }

  /** `useUpdateUserStatus`: a failed update (`ok` false) is raised and
      changes nothing. */
  function UpdateStatus(profiles: seq<Profile>, userId: Id, isActive: bool, ok: bool): (out: (seq<Profile>, Result<(), string>))
    ensures out.1.Ok? <==> ok
    ensures !ok ==> out.0 == profiles
    ensures |out.0| == |profiles|
    ensures forall i :: 0 <= i < |profiles| ==> out.0[i].(isActive := profiles[i].isActive) == profiles[i]
    ensures ok ==> forall i :: 0 <= i < |profiles| && profiles[i].id == userId ==> out.0[i].isActive == isActive
    ensures forall i :: 0 <= i < |profiles| && profiles[i].id != userId ==> out.0[i] == profiles[i]
  {
    if ok then (UpdateProfiles(profiles, userId, SetActive(isActive)), Ok(())) else (profiles, Err("status update failed"))
  }

  /** Setting a status twice is setting it once. */
  lemma UpdateStatusIdempotent(profiles: seq<Profile>, userId: Id, isActive: bool)
    ensures var once := UpdateStatus(profiles, userId, isActive, true).0;
      UpdateStatus(once, userId, isActive, true).0 == once
  {
  }

  /** A `teacher_subjects` row. */
  datatype TeacherSubject = TeacherSubject(teacherId: Id, subjectId: Id, academicYear: string, isActive: bool)

  /** `useAssignTeacherSubject`'s row: `academicYear || '2024-25'`;
      `is_active` takes the column default, read here as active. */
  function TeacherSubjectRecord(teacherId: Id, subjectId: Id, academicYear: Option<string>): (t: TeacherSubject)
    ensures t.teacherId == teacherId && t.subjectId == subjectId
    ensures t.isActive
    ensures t.academicYear != ""
    ensures Js.Truthy(academicYear) ==> t.academicYear == academicYear.value
    ensures !Js.Truthy(academicYear) ==> t.academicYear == DefaultAcademicYear
  {
    TeacherSubject(teacherId, subjectId, Js.OrNone(academicYear).GetOr(DefaultAcademicYear), true)
  }

  // ---------------------------------------------------------------------
  // Search

  /** `u.full_name?.toLowerCase().includes(q) || u.email?.toLowerCase().includes(q)`
      with `q` the lower-cased query. */
  predicate Matches(u: UserView, query: string)
    ensures query == "" ==> Matches(u, query)
    ensures Matches(u, query) ==>
      |query| <= |u.profile.email| || (u.profile.fullName.Some? && |query| <= |u.profile.fullName.value|)
  {
    Js.IncludesEmpty(Js.ToLower(u.profile.email));
    var q := Js.ToLower(query);
    || (u.profile.fullName.Some? && Js.Includes(Js.ToLower(u.profile.fullName.value), q))
    || Js.Includes(Js.ToLower(u.profile.email), q)
  }

  /** The users page's list: no users yet (`None`) reads as none. */
  function SearchUsers(users: Option<seq<UserView>>, query: string): (r: seq<UserView>)
    ensures users.None? ==> r == []
    ensures users.Some? ==> forall u :: u in r <==> u in users.value && Matches(u, query)
  {
    if users.None? then [] else Seqs.Filter(users.value, (u: UserView) => Matches(u, query))
  }

  /** The search keeps the users' order. */
  lemma SearchKeepsOrder(users: seq<UserView>, query: string)
    ensures Seqs.IsSubseq(SearchUsers(Some(users), query), users)
  {
    Seqs.FilterIsSubseq(users, (u: UserView) => Matches(u, query));
  }

  /** The search ignores the case of the query. */
  lemma SearchIgnoresCase(users: Option<seq<UserView>>, query: string)
    ensures SearchUsers(users, Js.ToUpper(query)) == SearchUsers(users, query)
    ensures SearchUsers(users, Js.ToLower(query)) == SearchUsers(users, query)
  {
    Js.LowerForgetsCase(query);
    if users.Some? {
      Seqs.FilterCongruent(users.value, (u: UserView) => Matches(u, Js.ToUpper(query)), (u: UserView) => Matches(u, query));
      Seqs.FilterCongruent(users.value, (u: UserView) => Matches(u, Js.ToLower(query)), (u: UserView) => Matches(u, query));
    }
  }

  /** An empty query keeps everyone, since every user has an email. */
  lemma EmptySearchKeepsAll(users: seq<UserView>)
    ensures SearchUsers(Some(users), "") == users
  {
    assert Js.ToLower("") == "";
    forall i | 0 <= i < |users| ensures Matches(users[i], "") {
      Js.IncludesEmpty(Js.ToLower(users[i].profile.email));
    }
    Seqs.FilterAll(users, (u: UserView) => Matches(u, ""));
  }

  // ---------------------------------------------------------------------
  // Branch membership dialog

  /** A profile with the one role the dialog shows for it. */
  datatype BranchUser = BranchUser(profile: Profile, role: Role)

  /** `roles?.find(r => r.user_id === id)?.role || 'student'`. */
  function BranchRole(roleRows: Option<seq<RoleRow>>, userId: Id): (r: Role)
    ensures roleRows.Some? ==> (r == if |RolesFor(roleRows.value, userId)| > 0 then RolesFor(roleRows.value, userId)[0] else Student)
    ensures roleRows.None? ==> r == Student
  {
    if roleRows.None? then Student else FirstRole(roleRows.value, userId)
  }

  function FirstRole(rows: seq<RoleRow>, userId: Id): (r: Role)
    ensures r == if |RolesFor(rows, userId)| > 0 then RolesFor(rows, userId)[0] else Student
    decreases |rows|
  {
    if |rows| == 0 then Student
    else if rows[0].userId == userId then rows[0].role
    else FirstRole(rows[1..], userId)
  }

  /** The dialog's badge variant of one role. */
  function RoleVariant(r: Role): (v: Variant)
    ensures v == BadgeVariant(RoleBadge([r]))
  {
    match r
    case SuperAdmin => Destructive
    case Teacher => Default
    case Student => Secondary
  }

  /** The dialog shows the first role row, the users page the highest role:
      a user whose rows list teacher before super admin is a teacher in the
      dialog and a super admin on the page. */
  lemma DialogAndPageDisagree(userId: Id)
    ensures var rows := [RoleRow(userId, Teacher), RoleRow(userId, SuperAdmin)];
      && BranchRole(Some(rows), userId) == Teacher
      && RoleBadge(RolesOf(Some(RolesFor(rows, userId)))) == SuperAdminBadge
  {
    var rows := [RoleRow(userId, Teacher), RoleRow(userId, SuperAdmin)];
    assert RolesFor(rows, userId) == [Teacher, SuperAdmin];
  }

  /** The active profiles, each with its role (`profiles` is `None` when the
      profile query returned no data). */
  function WithRoles(profiles: Option<seq<Profile>>, roleRows: Option<seq<RoleRow>>): (r: seq<BranchUser>)
    ensures profiles.None? ==> r == []
    ensures profiles.Some? ==> forall u :: u in r <==>
      u.profile in profiles.value && u.profile.isActive && u.role == BranchRole(roleRows, u.profile.id)
  {
    if profiles.None? then []
    else
      var active := Seqs.Filter(profiles.value, (p: Profile) => p.isActive);
      var r := seq(|active|, i requires 0 <= i < |active| => BranchUser(active[i], BranchRole(roleRows, active[i].id)));
      assert forall u :: u in r <==> u.profile in active && u.role == BranchRole(roleRows, u.profile.id) by {
        forall u ensures u in r <==> u.profile in active && u.role == BranchRole(roleRows, u.profile.id) {
          if u.profile in active && u.role == BranchRole(roleRows, u.profile.id) {
            var i :| 0 <= i < |active| && active[i] == u.profile;
            assert r[i] == u;
          }
        }
      }
      r
  }

  /** The branch's users: `u.branch_id === branch.id`. */
  function BranchMembers(users: seq<BranchUser>, branchId: Id): (r: seq<BranchUser>)
    ensures forall u :: u in r <==> u in users && u.profile.branchId == Some(branchId)
  {
    Seqs.Filter(users, (u: BranchUser) => u.profile.branchId == Some(branchId))
  }

  /** The unassigned users: `!u.branch_id` (null or empty). */
  function Unassigned(users: seq<BranchUser>): (r: seq<BranchUser>)
    ensures forall u :: u in r <==> u in users && !Js.Truthy(u.profile.branchId)
  {
    Seqs.Filter(users, (u: BranchUser) => !Js.Truthy(u.profile.branchId))
  }

  /** For a real (non-empty) branch id the two lists are disjoint, and a
      user of another branch appears in neither. */
  lemma BranchPartition(users: seq<BranchUser>, branchId: Id)
    requires branchId != ""
    ensures forall u :: !(u in BranchMembers(users, branchId) && u in Unassigned(users))
    ensures forall u :: u in users && Js.Truthy(u.profile.branchId) && u.profile.branchId != Some(branchId) ==>
      u !in BranchMembers(users, branchId) && u !in Unassigned(users)
    ensures forall u :: u in users && (u.profile.branchId == Some(branchId) || !Js.Truthy(u.profile.branchId)) ==>
      u in BranchMembers(users, branchId) || u in Unassigned(users)
  {
  }

  /** `assignUser`: without a selected user or a branch nothing happens;
      otherwise the profile's branch becomes this branch. `ok` is false when
      the update fails, which changes nothing. */
  function AssignToBranch(profiles: seq<Profile>, selectedUser: string, branchId: Option<Id>, ok: bool): (r: seq<Profile>)
    ensures selectedUser == "" || branchId.None? || !ok ==> r == profiles
    ensures |r| == |profiles|
    ensures forall i :: 0 <= i < |r| ==> r[i].(branchId := profiles[i].branchId) == profiles[i]
    ensures selectedUser != "" && branchId.Some? && ok ==>
      forall i :: 0 <= i < |r| ==> r[i].branchId == if profiles[i].id == selectedUser then branchId else profiles[i].branchId
  {
    if selectedUser == "" || branchId.None? || !ok then profiles
    else UpdateProfiles(profiles, selectedUser, (p: Profile) => p.(branchId := branchId))
  }

  /** `removeUser`: the profile's branch becomes null. */
  function RemoveFromBranch(profiles: seq<Profile>, userId: Id, ok: bool): (r: seq<Profile>)
    ensures !ok ==> r == profiles
    ensures |r| == |profiles|
    ensures forall i :: 0 <= i < |r| ==> r[i].(branchId := profiles[i].branchId) == profiles[i]
    ensures ok ==> forall i :: 0 <= i < |r| ==> r[i].branchId == if profiles[i].id == userId then None else profiles[i].branchId
  {
    if !ok then profiles
    else UpdateProfiles(profiles, userId, (p: Profile) => p.(branchId := None))
  }

  /** After assigning an active user, the refreshed dialog lists them under
      the branch and not as unassigned; after removing them, the reverse. */
  lemma AssignThenRemove(profiles: seq<Profile>, roleRows: Option<seq<RoleRow>>, k: nat, branchId: Id)
    requires k < |profiles| && profiles[k].isActive && profiles[k].id != "" && branchId != ""
    ensures var after := AssignToBranch(profiles, profiles[k].id, Some(branchId), true);
      var u := BranchUser(after[k], BranchRole(roleRows, profiles[k].id));
      && u in BranchMembers(WithRoles(Some(after), roleRows), branchId)
      && u !in Unassigned(WithRoles(Some(after), roleRows))
    ensures var after := RemoveFromBranch(profiles, profiles[k].id, true);
      var u := BranchUser(after[k], BranchRole(roleRows, profiles[k].id));
      && u !in BranchMembers(WithRoles(Some(after), roleRows), branchId)
      && u in Unassigned(WithRoles(Some(after), roleRows))
  {
    var moved := AssignToBranch(profiles, profiles[k].id, Some(branchId), true);
    assert moved[k] in moved;
    var removed := RemoveFromBranch(profiles, profiles[k].id, true);
    assert removed[k] in removed;
  }
}

=== FILE: wrappers.dfy ===
/** Failure-compatible wrappers used across the model: a nullable value and
    the success/error outcome of a storage call. */
module Wrappers {

  /** A nullable column or an optional argument. */
  datatype Option<+T> = None | Some(value: T) {

    /** The wrapped value, or `default` when absent (the `??` operator). */
    function GetOr(default: T): T {
      match this
      case Some(v) => v
      case None => default
    }
  }

  /** The outcome of a query or mutation: the data, or the error it raised. */
  datatype Result<+T, +E> = Ok(value: T) | Err(error: E)
}
